=== FILE: README.md ===
# Statement aggregation engine of financial_tool_starter, in Dafny

This project models the core of the financial statement tool. The tool takes a trial balance
uploaded for one financial work and maps its lines onto a chart of accounts. It then rolls the
mapped amounts up the account tree into statement figures and numbers the notes of a report
template. The model covers:

- **Domain** (`domain.dfy`): the enums `WorkStatus`, `AccountType` and `CategoryType`. It also
  holds the rows of the `accounts`, `trial_balance_entries` and `mapped_ledger_entries` tables.
  The database is a `Database` class whose sequence fields the services reassign. Its `Valid()`
  states the table constraints: distinct ids below each identity counter, and at most one
  mapping per entry.
- **Statement generation** (`chart.dfy`, `leaf_sums.dfy`, `rollup.dfy`,
  `statement_generation.dfy`), from `calculate_statement_data`:
  - the account index and the children index;
  - each account's own balance, taken from the grouped join of mappings and the work's entries;
  - the memoised `get_balance` recursion from the roots. It is a class whose `memo` field is the
    dictionary of final balances.
- **Report logic** (`report_format.dfy`, `derived_metrics.dfy`, `notes.dfy`, `report.dfy`):
  - Indian lakh/crore grouping in `format_indian_currency`;
  - the fixed formulas of `_calculate_derived_balances`;
  - the note-numbering loop of `get_report_data`;
  - `get_report_data` itself, with its 404.
- **Mapping** (`mapping.dfy`): the unmapped-entries anti-join, and the validate-then-upsert of
  `map_entry_to_account`.
- **Trial balance upload** (`trial_balance.dfy`): the 404 and 400 checks, the delete loop over
  the work's entries, and the bulk insert of the parsed rows.
- **Chart import** (`accounts.dfy`): `get_or_create_account` with its per-request cache, the
  row loop of `bulk_upload_accounts`, and the parent check of `create_account`.
- **CSV cleanup** (`csv_parser.dfy`): `clean_currency` on one cell, and the row loop of
  `parse_trial_balance` over rows already split into cells.
- **UDIN check** (`validators.dfy`): `validate_udin`.

The model fixes these representations:

- Money is an integer number of hundredths, as in the `Numeric(15,2)` database columns, so
  `"{:.2f}"` and `float()` become exact integer operations. A cell's amount is rounded when it
  is read; see CsvParser.RowOf under "Left out".
- A sheet cell is an `Option<string>`, where `None` is pandas' NaN; `str()` of NaN is `"nan"`.
- Python truthiness is spelled out: a parent id of 0, an empty string and an empty list are falsy.
- Database reads and writes take the `Database` object, and each service method `modifies` it.
- Input that the code obtains from I/O is given as a parameter:
  - the uploaded file, already split into a header and rows of cells;
  - the file name;
  - the template definition and the custom notes, already parsed from JSON.

## Model

| member | source | states |
|---|---|---|
| Domain.ParseWorkStatus | app/models/domain.py:21-24 | exactly the three status names parse, each to the status whose value it is |
| Domain.ParseAccountType | app/models/domain.py:26-29 | exactly CATEGORY, HEAD and SUB_HEAD parse, each to its own type |
| Domain.ParseCategoryType | app/models/domain.py:31-36 | exactly the five category names parse, each to its own category |
| Domain.FindMapping | app/models/domain.py:106-110 | finds the first mapping row of an entry, or reports that no row refers to it |
| Domain.TargetOf | app/models/domain.py:106-110 | an entry's mapped account is absent exactly when no mapping refers to the entry, otherwise some mapping of the entry targets it |
| Domain.TargetOfSnoc | app/models/domain.py:106-110 | a new mapping row changes only the target of its own entry, and only if that entry had none |
| Domain.FindWork | app/services/trial_balance_service.py:14-15 | the work found has the id, and none is found exactly when no work has it |
| Domain.FindAccount | app/services/mapping_service.py:31-33 | the account found has the id, and none is found exactly when no account has it |
| Domain.FindEntry | app/services/mapping_service.py:42-44 | the entry found has the id, and none is found exactly when no entry has it |
| Domain.Database.constructor | app/models/domain.py:83-110 | empty tables satisfy the constraints: unique ids, unique entry reference per mapping, ids below the identity counters |
| Text.Strip | app/utils/csv_parser.py:18 | the result has no surrounding whitespace, is no longer than the input, and is the input when it has no whitespace |
| Text.StripSlice | app/utils/csv_parser.py:18 | the result is the slice of the input between its leading and its trailing whitespace: everything before it and after it is whitespace |
| Text.RemoveChar | app/utils/csv_parser.py:25 | the character no longer occurs, nothing is added, and removing it from a concatenation removes it from each part in order |
| Text.RemoveCharKeeps | app/utils/csv_parser.py:25 | every other character occurs as often as before, and the removed one not at all |
| Text.Upper | app/api/accounts.py:92 | keeps the length; no lower-case ASCII letter is left; each one becomes the capital that lower-cases back to it, and every other character stays where it was |
| Text.Lower | app/utils/csv_parser.py:43 | keeps the length; no ASCII capital is left; each one becomes the lower-case letter that upper-cases back to it, and every other character stays where it was |
| Text.LowerOfUpper | app/utils/csv_parser.py:43 | lower-casing after upper-casing is lower-casing, and the other way round |
| Text.DecimalRoundTrip | app/services/report_service.py:217-219 | reading back the decimal digits of a number gives the number |
| Text.TitleFrom | app/api/accounts.py:106 | keeps the length and leaves every character that is not an ASCII letter where it was |
| Text.TitleFromMeans | app/api/accounts.py:106 | the first character is lowered after a letter and raised otherwise; every later character is lowered when the one before it is a letter and raised otherwise |
| Text.Title | app/api/accounts.py:106 | keeps the length |
| Text.TitleMeans | app/api/accounts.py:106 | str.title(): the first character is raised, and every later one is lowered after a letter and raised otherwise |
| Chart.AccountIndex | app/services/statement_generation_service.py:20-21 | the keys are exactly the fetched account ids and each maps to an account with that id |
| Chart.AccountIndexFindsEachAccount | app/services/statement_generation_service.py:21 | an account whose id is not repeated later is the one its id maps to |
| Chart.ChildIds | app/services/statement_generation_service.py:25-29 | the ids listed under a parent are exactly the ids of accounts whose parent is that parent |
| Chart.ChildrenIndexShape | app/services/statement_generation_service.py:24-29 | a parent has a list exactly when it is truthy and has a child, and the list is its children in account order |
| Chart.ChildrenIndexSnoc | app/services/statement_generation_service.py:25-29 | one more account appends its id to its truthy parent's list and changes no other list |
| Chart.ChildIdsSnoc | app/services/statement_generation_service.py:29 | a parent's list grows by the new account's id exactly when that account names the parent |
| Chart.BuildChildrenMap | app/services/statement_generation_service.py:24-29 | the loop builds the children index of the accounts |
| Chart.RootIds | app/services/statement_generation_service.py:68 | the roots are exactly the accounts without a parent |
| LeafSums.JoinedTargets | app/services/statement_generation_service.py:35-43 | the grouped accounts are distinct and are exactly the targets of mappings joined to the work's entries |
| LeafSums.QueryRows | app/services/statement_generation_service.py:35-45 | one row per grouped account, each holding that account's sum of joined closing balances |
| LeafSums.RowTotalOfDistinct | app/services/statement_generation_service.py:47-49 | with distinct accounts, the total read for an account is its row's sum, or 0 when it has no row |
| LeafSums.JoinSumIsEntrySum | app/services/statement_generation_service.py:38-41 | with one mapping per entry, the join sum equals the sum over the work's entries mapped to the account |
| LeafSums.EntrySum | app/services/statement_generation_service.py:35-43 | an account receives nothing when the work has no entries, or when none of the work's entries is mapped to it |
| LeafSums.EntrySumNoMappings | app/services/statement_generation_service.py:40 | without mappings no account receives anything |
| LeafSums.EntrySumSnocMapping | app/services/statement_generation_service.py:40-42 | a new mapping adds its entry's closing balances to its own target only |
| LeafSums.MatchSumNoMatch | app/services/statement_generation_service.py:40-41 | a mapping whose entry is not in the work contributes 0 |
| LeafSums.JoinSumOutsideGroups | app/services/statement_generation_service.py:42 | an account absent from the groups sums to 0 |
| LeafSums.LeafTotalIsEntrySum | app/services/statement_generation_service.py:35-49 | the query total read for an account is the sum of closing balances of the work's entries mapped to it |
| LeafSums.UnmappedEntryContributesNothing | app/services/statement_generation_service.py:40-41 | an entry of another work, or one without a mapping, changes no account's sum |
| LeafSums.MappedEntryContributesToTarget | app/services/statement_generation_service.py:40-42 | a mapped entry of the work adds its closing balance to its target and to no other account |
| LeafSums.OwnBalances | app/services/statement_generation_service.py:32-49 | every fetched account gets a balance, the grouped total when it has one and 0 otherwise, and totals for unknown ids are dropped |
| LeafSums.MatchSum | app/services/statement_generation_service.py:38-41 | a mapping whose entry id matches no entry of the work contributes 0 |
| LeafSums.JoinSum | app/services/statement_generation_service.py:35-43 | an account that no mapping targets sums to 0 |
| LeafSums.RowTotal | app/services/statement_generation_service.py:47-49 | an account absent from the query rows reads 0, and a non-zero total is the total of some row of that account |
| Rollup.SumOverStable | app/services/statement_generation_service.py:61-62 | the children's sum is unaffected by memo entries added later |
| Rollup.ConsistentAdd | app/services/statement_generation_service.py:58-64 | storing own balance plus the children's stored totals keeps every stored total equal to own plus children |
| Rollup.ChainExtend | app/services/statement_generation_service.py:60-62 | descending to a child extends a root chain |
| Rollup.ChainPrefix | app/services/statement_generation_service.py:60-62 | every prefix of a root chain is a root chain |
| Rollup.ChainInUniverse | app/services/statement_generation_service.py:67-70 | every account on a root chain is in the set reachable from the roots |
| Rollup.ChainNoRepeat | app/services/statement_generation_service.py:54-65 | a root chain never visits an account twice, because each account has one parent and no root is a child |
| Rollup.DistinctCard | app/services/statement_generation_service.py:54-65 | distinct accounts on a chain count once each |
| Rollup.ChainFits | app/services/statement_generation_service.py:54-65 | a root chain is no longer than the number of reachable accounts, which bounds the recursion depth |
| Rollup.ChildStep | app/services/statement_generation_service.py:60-62 | the recursive call on a child stays on a root chain and strictly decreases the remaining depth |
| Rollup.StoreKeepsInv | app/services/statement_generation_service.py:64 | storing a total keeps the memo consistent and the account was not an ancestor on its own chain |
| Rollup.BalanceRollup.constructor | app/services/statement_generation_service.py:52 | the memo starts empty over a forest of accounts |
| Rollup.BalanceRollup.GetBalance | app/services/statement_generation_service.py:54-65 | returns the stored total, computing and storing it first when absent; a stored total is returned without any change; every stored total is own plus the children's totals |
| Rollup.RollupFromRoots | app/services/statement_generation_service.py:67-70 | after visiting every root, every root is stored and every stored total is own plus its children's totals |
| Rollup.ChainsAreStored | app/services/statement_generation_service.py:67-70 | once all roots are stored, every account on a root chain is stored |
| StatementGeneration.ChainStepIsParentLink | app/services/statement_generation_service.py:25-29 | each step of a root chain follows a parent link |
| StatementGeneration.ChainEndIsAccount | app/services/statement_generation_service.py:20-68 | every account reached from a root is a fetched account |
| StatementGeneration.ChildOfOneParent | app/services/statement_generation_service.py:25-29 | with unique ids an account is listed under one parent only |
| StatementGeneration.RootIsNoChild | app/services/statement_generation_service.py:26-68 | a root is listed under no parent |
| StatementGeneration.ReachableClosed | app/services/statement_generation_service.py:60-62 | a child of a reachable account is reachable |
| StatementGeneration.RootReachable | app/services/statement_generation_service.py:68-70 | every root is reachable |
| StatementGeneration.AccountsFormForest | app/services/statement_generation_service.py:24-68 | with unique ids, the children index and the roots form a forest over the reachable accounts |
| StatementGeneration.OrphanUnreachable | app/services/statement_generation_service.py:26-68 | an account whose parent is 0 or missing is reached from no root, so it gets no final balance |
| StatementGeneration.ParentClosedUnreachable | app/services/statement_generation_service.py:26-68 | accounts whose parents all lie in the same set (a cycle of parent links) are reached from no root, so they get no final balance |
| StatementGeneration.CalculateStatementData | app/services/statement_generation_service.py:7-72 | returns the account index and the children index; final balances exist exactly for the accounts reachable from roots, and each is its own mapped entries' sum plus its children's final balances |
| StatementGeneration.RollupValues | app/services/statement_generation_service.py:47-65 | the rolled-up totals equal each account's mapped entries' sum plus the children's totals |
| StatementGeneration.RollupCoversReachable | app/services/statement_generation_service.py:67-70 | every reachable account gets a final balance |
| StatementGeneration.RollupStoresReachable | app/services/statement_generation_service.py:67-70 | no unreachable account gets a final balance |
| ReportFormat.IntegerPart | app/services/report_service.py:28-29 | the integer digits of the two-decimal text |
| ReportFormat.FractionPart | app/services/report_service.py:28-29 | exactly two fraction digits |
| ReportFormat.TwoDecimalValue | app/services/report_service.py:28-29 | the two parts read back as the amount's whole units and its hundredths |
| ReportFormat.PairsFromRight | app/services/report_service.py:38-43 | the groups concatenate to the digits, each has one or two digits, and only the first may have one |
| ReportFormat.Groups | app/services/report_service.py:31-44 | the groups concatenate to the digits; above three digits the last group has three and the others two, except a first group of one or two |
| ReportFormat.PairsStep | app/services/report_service.py:39-41 | one loop turn peels the last two digits off as the last group |
| ReportFormat.FormatIndianCurrency | app/services/report_service.py:18-47 | the loop computes the Indian-grouped rendering of the value |
| ReportFormat.IndianCurrency | app/services/report_service.py:23-47 | the text has at least four characters; it opens with "(" exactly when the value is negative, and closes with ")" exactly then |
| ReportFormat.Grouped | app/services/report_service.py:28-46 | the unsigned rendering has no parentheses and ends with a point and two fraction digits |
| ReportFormat.GroupIntegerDigits | app/services/report_service.py:31-44 | the branch on three digits and the loop yield the digits joined with commas in Indian groups |
| ReportFormat.PeelPairs | app/services/report_service.py:37-41 | the groups the loop appends, read backwards, are the two-digit pairs of the text from the right |
| ReportFormat.PeelStep | app/services/report_service.py:39-41 | one loop turn keeps the pairs of the whole text split between the remaining digits and the reversed groups |
| ReportFormat.SplitAtPoint | app/services/report_service.py:28-29 | splitting the two-decimal text at the point gives the integer and fraction parts |
| ReportFormat.JoinGroups | app/services/report_service.py:43-44 | the reversed pairs, a comma and the last three digits join to the grouped text |
| ReportFormat.NoCommaIffShort | app/services/report_service.py:31-32 | the output has no comma exactly when the integer part has at most three digits |
| ReportFormat.LakhExample | app/services/report_service.py:21 | 1234567.89 renders as 12,34,567.89 |
| ReportFormat.LakhExampleGroups | app/services/report_service.py:21 | 1234567 groups as 12,34,567 |
| ReportFormat.NegativeInParentheses | app/services/report_service.py:23-47 | a negative value renders as its magnitude in parentheses, a non-negative one has no parenthesis, and None renders as 0.00 |
| ReportFormat.UngroupDigits | app/services/report_service.py:44 | removing the commas from the grouped digits gives the digits back |
| ReportFormat.StripCommas | app/services/report_service.py:44-46 | removing the commas from grouped digits, point and fraction gives the plain two-decimal text |
| ReportFormat.StripGroupingGivesTwoDecimal | app/services/report_service.py:28-47 | removing commas and parentheses from the output gives the two-decimal text of the magnitude |
| ReportFormat.TwoDecimal | app/services/report_service.py:28 | the text is digits, a point and two digits, at least four characters |
| DerivedMetrics.WithDerived | app/services/report_service.py:290-330 | the keys afterwards are the keys before plus the derived keys |
| DerivedMetrics.CalculateDerivedBalances | app/services/report_service.py:290-330 | writes exactly the derived keys, each to its formula over the input heads (absent heads read 0), and leaves every other key unchanged |
| DerivedMetrics.FiguresAt | app/services/report_service.py:298-330 | the values written in sequence are the formulas over the input map |
| DerivedMetrics.ResultIsWithDerived | app/services/report_service.py:290-330 | the updated map is the input with the derived figures written in |
| DerivedMetrics.OtherKeysUnchanged | app/services/report_service.py:290-330 | a key that is not derived is present and valued as before |
| DerivedMetrics.DerivedIdempotent | app/services/report_service.py:290-330 | running the calculation twice gives the same map as once, since no formula reads a derived key |
| DerivedMetrics.SameInputsSameFigure | app/services/report_service.py:292-328 | a derived figure depends only on the input heads |
| DerivedMetrics.Figure | app/services/report_service.py:292-328 | with an empty balance map every figure is 0 |
| DerivedMetrics.ZeroHeadsZeroFigures | app/services/report_service.py:292-328 | when every input head reads 0, every figure is 0 |
| DerivedMetrics.CashFlowChain | app/services/report_service.py:302-330 | profit before tax is income plus expenses; operating profit, cash generated, net operating cash and net cash flow chain as the formulas state |
| DerivedMetrics.InterestCancels | app/services/report_service.py:305-330 | interest income and interest expense cancel out of the net cash flow |
| DerivedMetrics.BalancedBooks | app/services/report_service.py:298-299 | when assets, liabilities and equity sum to zero, equity plus liabilities is the negated assets total |
| DerivedMetrics.AbsentHeadsReadZero | app/services/report_service.py:292-328 | with no input heads every derived figure is 0 |
| DerivedMetrics.IsDerivedKey | app/services/report_service.py:290-330 | no derived key is one of the input heads the figures read |
| Notes.ChildDetails | app/services/report_service.py:207-213 | every listed child is above one hundredth in size and there are no more details than children |
| Notes.ShownChildren | app/services/report_service.py:209-213 | the shown children are exactly the children whose balance is above one hundredth in size |
| Notes.ChildDetailsExactly | app/services/report_service.py:207-213 | the details list the shown children in children order, each with its account name and its balance |
| Notes.Emitting | app/services/report_service.py:199-215 | the blocks that produce a note are note lines of the template, in order |
| Notes.RefsOf | app/services/report_service.py:216 | the references of the emitted blocks, position by position |
| Notes.FirstOccurrences | app/services/report_service.py:217-219 | the references that get a number are exactly those that occur |
| Notes.FirstOccurrencesDistinct | app/services/report_service.py:217-219 | each reference gets one number |
| Notes.Numbering | app/services/report_service.py:196-219 | the numbered references are exactly the distinct emitted ones |
| Notes.NumberingStep | app/services/report_service.py:216-219 | a new reference takes the counter and advances it, a repeated one keeps its number |
| Notes.EmittingStep | app/services/report_service.py:199-215 | each template block adds itself to the emitted blocks exactly when it produces a note |
| Notes.ZeroWithoutCustomSkipped | app/services/report_service.py:202-205 | a line whose balance is zero and that has no custom text produces no note |
| Notes.EmitsPastZeroCheck | app/services/report_service.py:207-215 | past the zero check, a note is produced exactly when a child is listed or custom text exists |
| Notes.EmitKeeps | app/services/report_service.py:215-228 | an emitting block keeps the numbering and the notes list in step with the emitted prefix |
| Notes.SkipKeeps | app/services/report_service.py:205-215 | a skipped block changes neither numbering nor notes |
| Notes.CollectChildren | app/services/report_service.py:207-213 | the inner loop lists the children as the child-details definition does |
| Notes.AssignNumber | app/services/report_service.py:217-219 | a new reference gets the counter's text and the counter grows by one; a known one changes nothing |
| Notes.NoteStep | app/services/report_service.py:199-228 | one loop turn keeps the notes and numbering equal to those of the template prefix |
| Notes.NumberNotes | app/services/report_service.py:195-228 | the notes are one per emitted block in template order, and the reference map numbers the distinct references from 3 in order of first appearance |
| Notes.EmitsIff | app/services/report_service.py:200-215 | a block produces a note exactly when it is a truthy note line with custom text, or with a non-zero balance and some child above one hundredth |
| Notes.Emits | app/services/report_service.py:200-215 | only a truthy financial line item produces a note, and such a line with custom text always does |
| Notes.NoteOf | app/services/report_service.py:221-228 | the note's title has no surrounding whitespace, every child listed is above one hundredth in size, and the custom text is the one stored under str(ref), or empty when none is |
| Notes.NumberAt | app/services/report_service.py:196-219 | the k-th distinct reference is numbered 3 + k |
| Notes.NumbersDistinct | app/services/report_service.py:217-219 | different references get different numbers |
| Notes.FirstOccurrencesStart | app/services/report_service.py:217-219 | the first emitted reference is numbered first |
| Notes.FirstOccurrencesPrefix | app/services/report_service.py:217-219 | the numbering of a prefix is a prefix of the numbering |
| Notes.NewRefTakesNextNumber | app/services/report_service.py:217-219 | a reference first seen at a position takes 3 plus the number of distinct references before it |
| Notes.FirstNoteIsThree | app/services/report_service.py:197-219 | the first note is numbered 3 |
| Notes.SameNumberIffSameRef | app/services/report_service.py:217-223 | two notes share a number exactly when they share a reference |
| Notes.NoteNumber | app/services/report_service.py:221-223 | each note carries its reference's number from the reference map |
| Notes.NotesNumberedInOrder | app/services/report_service.py:196-223 | a note whose reference is new takes 3 plus the number of distinct references before it |
| Notes.CustomTextAsWritten | app/services/report_service.py:227 | the lookup by the reference itself finds text for a text reference only |
| Notes.NumericRefLosesCustomText | app/services/report_service.py:203-227 | a numeric reference with custom text under its string produces a note whose custom text is empty as written |
| Notes.CustomTextShown | app/services/report_service.py:203-227 | a line with custom text produces a note showing that text, agreeing with the code's lookup for text references |
| Notes.IsNoteLine | app/services/report_service.py:200 | a note line's reference is neither the empty text nor the number 0 |
| Notes.HeadBalance | app/services/report_service.py:201-202 | a block without a head, or whose head has no balance, reads 0 |
| Notes.HasCustomText | app/services/report_service.py:203 | without custom text for the reference, the custom-text lookup gives the empty text |
| Notes.CustomText | app/services/report_service.py:227 | a non-empty custom text is stored under the reference's text, and for a text reference it is what the lookup as written finds |
| Notes.EmitNote | app/services/report_service.py:216-228 | emitting a block extends the numbering and the note list from the blocks before it to the blocks up to it |
| Report.ChildrenAreAccounts | app/services/report_service.py:207-213 | every child listed for a head has an account record, so the child's name can be read |
| Report.GetReportData | app/services/report_service.py:178-237 | 404 "Not found" exactly when the work or template is missing; otherwise the work's statement figures with derived figures written in, and the numbered notes |
| Mapping.UnmappedEntries | app/services/mapping_service.py:7-20 | an entry is listed exactly when it belongs to the work and no mapping refers to it, and nothing is added |
| Mapping.UpsertRetargets | app/services/mapping_service.py:50-67 | afterwards the entry targets the given account and every other entry keeps its target |
| Mapping.UpsertRows | app/services/mapping_service.py:56-67 | an existing row is retargeted in place with no row added; otherwise exactly one row (entry, account) is appended |
| Mapping.UpsertKeepsUnique | app/models/domain.py:109 | the upsert keeps mapping ids and entry references unique |
| Mapping.ExactlyOneMapping | app/services/mapping_service.py:50-67 | afterwards the entry has exactly one mapping and it targets the account |
| Mapping.UpsertIdempotent | app/services/mapping_service.py:50-67 | repeating the call leaves the table as after the first call |
| Mapping.UpsertLeavesUnmapped | app/services/mapping_service.py:9-67 | after the upsert the entry is no longer unmapped and other entries keep their status |
| Mapping.MapEntryToAccount | app/services/mapping_service.py:22-67 | succeeds exactly when the account exists and is a SUB_HEAD and the entry exists; otherwise 404 for a missing account, then 400 for a non-SUB_HEAD one, then 404 for a missing entry, each leaving the mappings unchanged; on success the mappings are the upsert and the returned row maps the entry to the account |
| Mapping.Upserted | app/services/mapping_service.py:49-67 | the table grows by at most one row, and by one exactly when the entry had no row; rows of other entries are untouched; some row maps the entry to the account |
| Mapping.Upsert | app/services/mapping_service.py:50-67 | the mappings become the upsert and the returned row maps the entry to the account |
| TrialBalance.EntriesOf | app/services/trial_balance_service.py:25-27 | exactly the entries of the work |
| TrialBalance.OtherWorks | app/services/trial_balance_service.py:25-29 | exactly the entries of other works |
| TrialBalance.Remaining | app/services/trial_balance_service.py:28-29 | exactly the entries not yet deleted |
| TrialBalance.RemoveEntry | app/services/trial_balance_service.py:29 | exactly the entries with another id |
| TrialBalance.NewEntries | app/services/trial_balance_service.py:32-41 | one new entry per parsed row |
| TrialBalance.Rows | app/services/trial_balance_service.py:35-38 | one row per entry |
| TrialBalance.ProcessTrialBalanceUpload | app/services/trial_balance_service.py:8-46 | succeeds exactly when the work exists and the sheet parses to at least one row; otherwise 404 for an unknown work, then 400 for an empty parse, both leaving entries unchanged; on success the work's old entries are replaced by the parsed rows, other tables are untouched and the count is the number of rows |
| TrialBalance.AddEntries | app/services/trial_balance_service.py:32-43 | appends one entry per row with fresh ids, keeping the table constraints |
| TrialBalance.DeleteWorkEntries | app/services/trial_balance_service.py:25-29 | the loop leaves exactly the other works' entries, in order |
| TrialBalance.DeleteStep | app/services/trial_balance_service.py:28-29 | deleting the next existing entry extends the deleted set by its id |
| TrialBalance.IdsNext | app/services/trial_balance_service.py:28 | the ids seen grow by one per turn |
| TrialBalance.SameIdSameEntry | app/models/domain.py:96 | with unique ids, one id names one entry |
| TrialBalance.RemoveFromRemaining | app/services/trial_balance_service.py:29 | deleting an entry of the work removes it from what remains |
| TrialBalance.NothingDeleted | app/services/trial_balance_service.py:25-27 | before the loop nothing is deleted |
| TrialBalance.RemainingAll | app/services/trial_balance_service.py:28-29 | once all of the work's ids are deleted, the other works' entries remain |
| TrialBalance.DeletedAll | app/services/trial_balance_service.py:28-29 | after the last turn exactly the other works' entries remain |
| TrialBalance.OtherWorksUnique | app/models/domain.py:96 | deleting entries keeps ids unique |
| TrialBalance.OtherWorksKeepsValid | app/models/domain.py:96 | deleting entries keeps ids unique and below the counter |
| TrialBalance.NewEntriesFresh | app/services/trial_balance_service.py:32-43 | the new entries belong to the work with fresh consecutive ids |
| TrialBalance.ValidAfterAppend | app/services/trial_balance_service.py:43 | adding the new entries keeps ids unique and below the advanced counter |
| TrialBalance.EntriesOfAppend | app/services/trial_balance_service.py:25-27 | selecting a work's entries distributes over concatenation |
| TrialBalance.EntriesOfOtherWorks | app/services/trial_balance_service.py:25-29 | after the delete the work has no entries and other works keep theirs |
| TrialBalance.EntriesOfNew | app/services/trial_balance_service.py:32-41 | every new entry belongs to the uploading work |
| TrialBalance.RowsOfNew | app/services/trial_balance_service.py:35-38 | the new entries carry the parsed rows' name, debit, credit and closing balance |
| TrialBalance.UploadReplacesWork | app/services/trial_balance_service.py:25-43 | after the upload the work's entries are exactly the parsed rows, in order |
| TrialBalance.UploadKeepsOtherWorks | app/services/trial_balance_service.py:25-29 | every other work keeps exactly its entries |
| TrialBalance.UploadDropsPrior | app/services/trial_balance_service.py:25-29 | no earlier entry of the work survives |
| TrialBalance.Uploaded | app/services/trial_balance_service.py:25-46 | as many entries as the other works kept plus one per parsed row, and every entry of another work was there before |
| Accounts.FindByKey | app/api/accounts.py:36-42 | the found account has the key, and none is found exactly when no account has it |
| Accounts.Ensured | app/api/accounts.py:45-54 | the table only grows, by one account exactly when none had the key, and that account has the key, the next id and the asked category |
| Accounts.FindByKeySnoc | app/api/accounts.py:45-54 | a new account changes the lookup of its own key only, when that key was absent |
| Accounts.EnsuredIdempotent | app/api/accounts.py:32-58 | after the ensure the key is found, and ensuring it again changes nothing |
| Accounts.EnsuredGrows | app/api/accounts.py:45-54 | ensuring a key keeps every found account and keeps keys unique |
| Accounts.CategoryNotInKey | app/api/accounts.py:29-42 | an existing match is returned unchanged whatever category is asked for |
| Accounts.GrowsTransitive | app/api/accounts.py:91-137 | found accounts stay found across successive ensures |
| Accounts.EnsuredFinds | app/api/accounts.py:36-54 | after the ensure the key finds the stored account, or the new one |
| Accounts.CacheAfterEnsure | app/api/accounts.py:57-58 | the cache still agrees with the table after the key is cached |
| Accounts.GetOrCreateAccount | app/api/accounts.py:17-60 | returns the cached or stored account with the key, else one new account with the key, the asked category and the next id, which then advances; an account is added exactly when none had the key; the cache maps the key to the account returned |
| Accounts.AddAccount | app/api/accounts.py:45-54 | appends one account with the next id, keeping the table constraints |
| Accounts.NewAccountKeepsValid | app/api/accounts.py:52-53 | a new account with the next id keeps ids unique |
| Accounts.RootName | app/api/accounts.py:99-106 | an unknown category falls back to its title case |
| Accounts.KnownRootName | app/api/accounts.py:99-106 | a known category type gets its own display name as root |
| Accounts.KnownRootsDistinct | app/api/accounts.py:99-106 | different category types get different roots |
| Accounts.PluralCategoryShares | app/api/accounts.py:99-106 | "ASSETS" lands under the same root as "ASSET" |
| Accounts.RowEnsuredGrows | app/api/accounts.py:91-137 | a row's chain once stored stays stored |
| Accounts.SubHeadCount | app/api/accounts.py:90-137 | the count is at most the number of rows |
| Accounts.SheetTextsRead | app/api/accounts.py:91-94 | each row's category has no lower-case letter, its head has no surrounding whitespace, a missing head reads "nan" and a missing sub-head names none |
| Accounts.RowTextsRead | app/api/accounts.py:91-94 | the same facts for the texts of one row |
| Accounts.StrippedHeader | app/api/accounts.py:81 | one name per header column, each the stripped column name |
| Accounts.BulkUploadAccounts | app/api/accounts.py:64-144 | succeeds exactly when the name ends in .csv and the stripped header has the required columns; otherwise 400 for a non-csv name, then 400 for missing columns, neither writing anything; on success the accounts and the next id are those of the row loop over the sheet's rows, every row's root, head and named sub-head exist, no found account changes, keys stay unique, and the count is the number of rows naming a sub-head |
| Accounts.ImportRows | app/api/accounts.py:88-137 | the accounts and the next id become those of the row loop over all rows, every row's chain is stored, and the count is the number of rows naming a sub-head |
| Accounts.ImportRow | app/api/accounts.py:91-137 | one turn extends the row loop over the first rows by the next row, and extends the count by that row |
| Accounts.RowsStillEnsured | app/api/accounts.py:91-137 | earlier rows stay ensured after a later row is processed |
| Accounts.CountStep | app/api/accounts.py:128-137 | the count grows by one exactly for a row naming a sub-head |
| Accounts.EnsureRow | app/api/accounts.py:92-137 | the table becomes the root ensure, then the head ensure under the root returned, then, only when a sub-head is named, the sub-head ensure under the head returned; the row counts exactly when it names a sub-head |
| Accounts.RowImportedMeans | app/api/accounts.py:108-137 | one pass stores the row's chain, keeps every account found before, adds at most three accounts, all with the row's category, and keeps keys unique |
| Accounts.RowImportedEnsures | app/api/accounts.py:108-137 | one pass stores the row's chain and keeps every account found before |
| Accounts.ImportedGrows | app/api/accounts.py:90-137 | the whole loop keeps every account found before, only appends, and keeps keys unique |
| Accounts.ImportedEnsures | app/api/accounts.py:90-137 | after the whole loop every row's chain is stored |
| Accounts.ImportedSnoc | app/api/accounts.py:91-137 | the loop over one more row is one more pass over the loop so far |
| Accounts.CategoryAcross | app/api/accounts.py:108-136 | accounts added by successive ensures with the same category all carry that category |
| Accounts.EnsureStep | app/api/accounts.py:108-136 | the account returned by one ensure is the one found for its key afterwards |
| Accounts.FoundStays | app/api/accounts.py:108-136 | an account found before a later ensure is still found |
| Accounts.RowEnsuredIntro | app/api/accounts.py:108-136 | root, head and sub-head found for a row make the row ensured |
| Accounts.CreateAccount | app/api/accounts.py:146-163 | 404 "Parent account not found" exactly for a truthy parent id that does not exist, with nothing created; otherwise one account is added |
| Accounts.MissingSubHeadSkipped | app/api/accounts.py:94-128 | a blank sub-head cell is not ensured and not counted |
| Accounts.MissingHeadIsNan | app/api/accounts.py:93 | a blank head cell gives the head name "nan" |
| Accounts.NanIsStripped | app/api/accounts.py:93 | stripping the text "nan" leaves it unchanged |
| Accounts.NanTrimStart | app/api/accounts.py:93 | "nan" has no leading whitespace |
| Accounts.NanTrimEnd | app/api/accounts.py:93 | "nan" has no trailing whitespace |
| Accounts.EnsuredAccount | app/api/accounts.py:32-54 | the returned account has the asked name, type and parent |
| Accounts.EnsuredAccountMeans | app/api/accounts.py:32-54 | the returned account has the key; it is a stored account when the key is found, otherwise a new one with the next id and the asked category |
| Accounts.EnsureKey | app/api/accounts.py:45-58 | the table only grows, by at most one account, and the next id advances by the number added |
| Accounts.RowImported | app/api/accounts.py:108-137 | one row adds at most three accounts, keeps every earlier one, and advances the next id by the number added |
| Accounts.Imported | app/api/accounts.py:90-137 | the loop adds at most three accounts per row, keeps every earlier one, and advances the next id by the number added |
| Accounts.IsCsvName | app/api/accounts.py:73-74 | accepted exactly when the file name ends in .csv |
| Accounts.HasRequiredColumns | app/api/accounts.py:82-84 | accepted exactly when Category, HEAD and Sub head are all among the columns |
| Accounts.SubHeadPresent | app/api/accounts.py:128 | a sub-head is ensured exactly when it is non-empty and not the letters nan in any case |
| Accounts.NanInAnyCase | app/api/accounts.py:128 | lower-casing gives nan exactly for the three letters n, a, n in either case |
| Accounts.RowCategory | app/api/accounts.py:92 | the category text has no lower-case letter and no surrounding whitespace |
| Accounts.RowHead | app/api/accounts.py:93 | the head text has no surrounding whitespace, and a missing cell reads nan |
| Accounts.RowSubHead | app/api/accounts.py:94 | the sub-head text has no surrounding whitespace, and a missing cell reads nan, which names no sub-head |
| CsvParser.PointIndex | app/utils/csv_parser.py:28 | finds the first point, or reports none |
| CsvParser.ParseDecimal | app/utils/csv_parser.py:27-28 | a parsed decimal is well formed and negative exactly when the text starts with a minus |
| CsvParser.Cents | app/utils/csv_parser.py:28 | two fraction digits |
| CsvParser.CleanCurrency | app/utils/csv_parser.py:6-30 | 0 for NaN, for a lone dash after stripping, and for text that does not parse once quotes, commas and spaces are removed |
| CsvParser.ParseRendered | app/utils/csv_parser.py:27-28 | parsing the text of a decimal gives the decimal back |
| CsvParser.ReadsFormattedAmount | app/utils/csv_parser.py:6-30 | reading back a non-negative amount formatted with Indian grouping gives the amount |
| CsvParser.ReadsParsed | app/utils/csv_parser.py:18-28 | a stripped cell that parses once cleaned reads as the parsed value |
| CsvParser.CleanedGrouped | app/utils/csv_parser.py:18-25 | cleaning a grouped amount removes its commas and nothing else |
| CsvParser.HundredthsOfTwoDecimal | app/utils/csv_parser.py:28 | a two-decimal text reads as its amount |
| CsvParser.Hundredths | app/utils/csv_parser.py:28 | the amount is the truncated hundredths or one more, exactly the truncated value for at most two fraction digits, and carries the literal's sign |
| CsvParser.ParenthesizedReadsZero | app/utils/csv_parser.py:27-30 | a negative amount in parentheses does not parse and reads as 0 |
| CsvParser.NotANumber | app/utils/csv_parser.py:27-30 | text starting with a parenthesis does not parse |
| CsvParser.ReadsNegatedAmount | app/utils/csv_parser.py:12-28 | a minus followed by a grouped amount reads as the negated amount |
| CsvParser.CleanAfterStrip | app/utils/csv_parser.py:18 | cells equal after stripping read the same |
| CsvParser.NegativeLakhExample | app/utils/csv_parser.py:12 | "-1,37,890.49" reads as -137890.49 |
| CsvParser.SpacedThousandsExample | app/utils/csv_parser.py:10 | " 13,110.00 " reads as 13110.00 |
| CsvParser.ReadsStrippedAmount | app/utils/csv_parser.py:18-30 | text whose strip is the rendering of a non-negative amount reads as that amount |
| CsvParser.ReadsGrouped | app/utils/csv_parser.py:18-30 | the unsigned grouped rendering of an amount reads back as the amount |
| CsvParser.DashExample | app/utils/csv_parser.py:11-22 | " -   " reads as 0 |
| CsvParser.ColumnIndex | app/utils/csv_parser.py:56-63 | finds a column by name, or reports none exactly when it is absent |
| CsvParser.Lines | app/utils/csv_parser.py:54-75 | one line per row, each as LinesAt states |
| CsvParser.Present | app/utils/csv_parser.py:70-75 | no more rows kept than lines |
| CsvParser.TrialBalanceRows | app/utils/csv_parser.py:43-51 | no rows when no column is named "account name" after stripping and lower-casing |
| CsvParser.PresentMembership | app/utils/csv_parser.py:59-75 | a row is kept exactly when some line holds it |
| CsvParser.KeptRowsMembership | app/utils/csv_parser.py:54-75 | a row is in the result exactly when it comes from an input row whose name is not skipped |
| CsvParser.KeptRowShape | app/utils/csv_parser.py:59-68 | every kept row has a name that is neither blank nor TOTAL and a closing balance of debit minus credit |
| CsvParser.PresentAppend | app/utils/csv_parser.py:54-75 | kept rows distribute over concatenation, so input order is kept |
| CsvParser.KeptRowsAppend | app/utils/csv_parser.py:54-75 | the kept rows of two sheets in sequence are the kept rows of each, in order |
| CsvParser.ParseTrialBalance | app/utils/csv_parser.py:32-77 | the loop returns exactly the trial balance rows of the sheet |
| CsvParser.ReadLine | app/utils/csv_parser.py:56-75 | no line for a skipped row, otherwise the row's name, cleaned debit and credit, and their difference |
| CsvParser.IsSkipped | app/utils/csv_parser.py:59 | a name is skipped exactly when it is blank or spells total in any mix of cases |
| CsvParser.TotalInAnyCase | app/utils/csv_parser.py:59 | upper-casing gives TOTAL exactly for the letters of total in any mix of cases |
| CsvParser.RowOf | app/utils/csv_parser.py:62-68 | the closing balance is debit minus credit, and a missing debit or credit cell reads as 0 |
| CsvParser.LinesAt | app/utils/csv_parser.py:54-75 | each line is what the loop makes of its row |
| CsvParser.LinesAppend | app/utils/csv_parser.py:54-75 | the lines of two sheets in sequence are the lines of each, in order |
| CsvParser.LineKept | app/utils/csv_parser.py:62-75 | a row with a kept name yields exactly its cleaned fields |
| CsvParser.LineSkipped | app/utils/csv_parser.py:59-60 | a row with a blank or TOTAL name yields nothing |
| CsvParser.PresentStep | app/utils/csv_parser.py:54-75 | each turn appends its row exactly when the row is kept |
| CsvParser.CellText | app/utils/csv_parser.py:18 | the text is nan exactly for a missing cell or a cell holding nan |
| CsvParser.Cleaned | app/utils/csv_parser.py:25 | no quote, comma or space is left, and nothing is added |
| CsvParser.NormalizedHeader | app/utils/csv_parser.py:43 | one name per header column, each the stripped column name in lower case |
| CsvParser.Field | app/utils/csv_parser.py:56-63 | a column that is absent gives the default |
| CsvParser.FieldMeans | app/utils/csv_parser.py:56-63 | a present column gives the cell under its first occurrence, or a missing cell when the row is shorter |
| CsvParser.RowName | app/utils/csv_parser.py:56 | the name has no surrounding whitespace, and is empty without an account name column |
| CsvParser.LineOf | app/utils/csv_parser.py:54-75 | a kept line carries the row's name |
| CsvParser.KeptRows | app/utils/csv_parser.py:54-75 | no more rows kept than rows read |
| Validators.ValidateUdin | app/utils/validators.py:10-11 | None and the empty string are refused |
| Validators.MatchFromMeans | app/utils/validators.py:14-16 | the pattern run from a position accepts exactly the texts whose characters fit the remaining classes, ending there or with one newline |
| Validators.MatchFrom | app/utils/validators.py:14-16 | an accepted rest of the text has exactly the remaining number of characters, or one more |
| Validators.MatchFromSound | app/utils/validators.py:14-16 | what the pattern accepts from a position fits the remaining classes and ends there or with one newline |
| Validators.MatchFromComplete | app/utils/validators.py:14-16 | every text that fits the remaining classes, ending there or with one newline, is accepted from that position |
| Validators.ValidateMeans | app/utils/validators.py:4-16 | a text is accepted exactly when it is 8 digits then 10 of A-Z or 0-9, optionally followed by one newline |
| Validators.AcceptedLength | app/utils/validators.py:14 | an accepted UDIN is 18 characters, not counting a final newline |
| Validators.LowerCaseRefused | app/utils/validators.py:14 | a lowercase letter in the 18 positions is refused |
| Validators.NonDigitPrefixRefused | app/utils/validators.py:14 | a non-digit in the first 8 positions is refused |
| Validators.TrailingNewline | app/utils/validators.py:14-16 | a valid token followed by one newline is accepted, and followed by two is refused |
| Validators.SampleAccepted | app/utils/validators.py:14-16 | a sample UDIN is accepted |

## Left out

- HTTP routing, authentication, the HTML/PDF/Excel renderers and the other CRUD endpoints are not part of this model.
- pandas reading is not modelled. That covers `read_csv`, the four skipped metadata rows, type inference and `na_values`. Sheets arrive as a header and rows of optional cell strings.
- The `except Exception` path of `parse_trial_balance` (app/utils/csv_parser.py:78-80) is left out. Within the modelled inputs no step raises. The one case that reaches it in the code, two header columns that normalise to the same name, is not modelled; see CsvParser.Field below.
- CsvParser.Field: reads a column that occurs twice in the normalised header (for example `Debit` and `DEBIT ` both becoming `debit`) as its first occurrence. In the code, `row.get` then returns a pandas Series, `pd.isna` on it raises ValueError inside `clean_currency`, the `except` at app/utils/csv_parser.py:78-80 returns no rows, and the upload answers 400. A duplicated `account name` column would instead give the Series' printed text as the name. Duplicate normalised column names are not modelled.
- Accounts.RowCategory: reads the first `Category` column when the stripped header holds it twice (for example `Category` and `Category `). In the code, `str(row['Category'])` at app/api/accounts.py:92 then renders the whole pandas Series, so the row carries that text instead of the cell's value. The same holds for Accounts.RowHead and Accounts.RowSubHead. Duplicate stripped column names are not modelled.
- CsvParser.CleanCurrency models `float()` as the signed decimal grammar only: an optional `-` or `+`, then digits with an optional point and fraction digits. Exponents, `inf`, `nan` and underscores read as 0 here, while Python would parse them. Fractions beyond two digits are rounded half away from zero to hundredths as soon as a cell is read. The code keeps the unrounded float, and how the stored `Numeric(15,2)` column rounds depends on the database backend (SQLite by default, app/core/config.py:4).
- CsvParser.RowOf: debit and credit are each rounded to hundredths before the closing balance is taken as their difference. app/utils/csv_parser.py:62-68 subtracts the unrounded floats, and only the stored value is rounded. So inputs with more than two fraction digits can move the closing balance by one hundredth: debit `0.006` and credit `0.004` give 0.01 here, while the code's 0.002 is stored as 0.00.
- CsvParser.ReadLine: builds its row with CsvParser.RowOf, so its closing balance carries the same early rounding.
- Rollup.BalanceRollup.GetBalance: Python's recursion limit is not modelled. `get_balance` (app/services/statement_generation_service.py:54-64) recurses once per chart level. A parent chain deeper than the interpreter's limit, about 1000 frames, raises RecursionError and fails the request. The model returns a balance at any depth.
- Notes.NoteRef: a template's `note_ref` is modelled as a string or an integer only. JSON booleans and floats are not modelled. In the code, `5.0` shares the number-map key of `5` but renders as "5.0" under `str()`, and `true` shares the key of `1` but renders as "True".
- Unicode case mapping and Unicode digits are not modelled. `\d`, `.upper()`, `.lower()` and `.title()` act on ASCII letters and ASCII digits only. `.strip()` is modelled with Python's full `str.isspace` set, including the Unicode spaces and separators.
- Floating point is not modelled. Sums, `abs(val) < 0.01` and `"{:.2f}"` are exact on hundredths.
- Session mechanics (flush, refresh, commit and rollback timing) are not modelled. Each service is atomic on the in-memory tables, and a failure in the bulk upload leaves the tables as they were.
- TrialBalance.ProcessTrialBalanceUpload does not model the foreign-key effect of deleting entries that still have mappings. The mappings table is left as it was.
- Accounts.BulkUploadAccounts does not model errors raised inside the row loop other than the missing-columns check. The order of the set in the missing-columns detail is fixed to one order.
- The company record that `get_report_data` returns is left out. The work's status and the template, balances, notes and note map are kept.
- `_calculate_derived_balances` mutates the caller's dictionary in place. DerivedMetrics.CalculateDerivedBalances returns the updated map instead, so aliasing of that dictionary is not modelled.
- `get_or_create_account` also mutates its cache dictionary in place. Accounts.GetOrCreateAccount returns the updated cache. The code's `if cache and key in cache` skips an empty cache, which has the same effect as a missing key.
- Notes.NoteStep: the note's custom text is looked up by `str(note_ref)`, the corrected lookup, rather than by the raw `note_ref` that app/services/report_service.py:227 uses; see the Findings row. Notes.CustomTextAsWritten and Notes.NumericRefLosesCustomText model the code as written.
- Notes.NoteOf: the note's custom text is looked up by `str(note_ref)`, the corrected lookup, rather than by the raw `note_ref` that app/services/report_service.py:227 uses; see the Findings row. Notes.CustomTextAsWritten models the code as written.
- Notes.CustomText: looks the custom text up by `str(note_ref)`, the corrected lookup, rather than by the raw `note_ref` that app/services/report_service.py:227 uses; see the Findings row. For a text reference both agree; Notes.CustomTextAsWritten and Notes.NumericRefLosesCustomText model the code as written.
- Notes.NumberNotes: built on Notes.NoteStep, so it shows the corrected custom text for a numeric reference where the code shows an empty one.
- Report.GetReportData: its notes come from Notes.NumberNotes and carry the same corrected custom-text lookup.
- Template JSON parsing and the configuration's JSON are given already parsed. A note block's `label` is taken as text; a missing label, which would crash `.strip()`, is not modelled.

## Findings

| source | as written | input that shows it | evidently intended | confidence | as-written member | corrected member |
|---|---|---|---|---|---|---|
| app/services/report_service.py:227 | custom text is looked up with the raw `note_ref`, while line 203 tests `str(note_ref)`; stored custom notes are a JSON object, so their keys are strings | a block with `note_ref` 5 (a JSON number) and custom notes `{"5": "See schedule"}`: the note is emitted for its custom text but shows an empty custom text | look the custom text up by `str(note_ref)`, as the emit test does | not executed | Notes.NumericRefLosesCustomText | Notes.CustomTextShown |

=== FILE: accounts.dfy ===
/** The chart-of-accounts endpoints: get-or-create by the key (name, type, parent) with a
    per-request cache, the bulk import that ensures a category root, a head and a sub-head per
    sheet row, and the parent check of a single create. */
module Accounts {
  import opened Wrappers
  import opened Text
  import opened Domain
  import opened CsvParser

  /** What an account is looked up by. The category is not part of it. */
  datatype AccountKey = AccountKey(name: string, accountType: string, parentId: Option<int>)

  function KeyOf(a: Account): AccountKey {
    AccountKey(a.name, a.accountType, a.parentId)
  }

  /** The first stored account with the key (the query's `.first()`); a null parent matches a
      null parent only. */
  function FindByKey(accounts: seq<Account>, key: AccountKey): (r: Option<Account>)
    ensures r.Some? ==> r.value in accounts && KeyOf(r.value) == key
    ensures r.None? <==> forall a :: a in accounts ==> KeyOf(a) != key
  {
    if accounts == [] then None
    else if KeyOf(accounts[0]) == key then Some(accounts[0])
    else FindByKey(accounts[1..], key)
  }

  /** No two stored accounts share a key. */
  predicate KeysUnique(accounts: seq<Account>) {
    forall i, j :: 0 <= i < j < |accounts| ==> KeyOf(accounts[i]) != KeyOf(accounts[j])
  }

  /** Every cached account is the one the query would return for its key. */
  predicate CacheAgrees(cache: map<AccountKey, Account>, accounts: seq<Account>) {
    forall k :: k in cache ==> FindByKey(accounts, k) == Some(cache[k])
  }

  /** Every account found by key in `before` is still the one found in `after`. */
  ghost predicate Grows(before: seq<Account>, after: seq<Account>) {
    forall k :: FindByKey(before, k).Some? ==> FindByKey(after, k) == FindByKey(before, k)
  }

  /** The account table once the key is ensured: unchanged when an account has the key,
      otherwise with one new account carrying the key, the category and the next id. */
  function Ensured(accounts: seq<Account>, key: AccountKey, catType: string, newId: int): (r: seq<Account>)
    ensures accounts <= r && |r| <= |accounts| + 1
    ensures |r| == |accounts| + 1 <==> FindByKey(accounts, key).None?
    ensures |r| == |accounts| + 1 ==>
      KeyOf(r[|accounts|]) == key && r[|accounts|].id == newId && r[|accounts|].categoryType == catType
  {
    if FindByKey(accounts, key).Some? then accounts
    else accounts + [Account(newId, key.name, key.accountType, catType, key.parentId)]
  }

  /** Appending an account changes the lookup of its own key only, and only when the key was
      absent before. */
  lemma FindByKeySnoc(accounts: seq<Account>, a: Account, key: AccountKey)
    ensures FindByKey(accounts + [a], key) ==
      if FindByKey(accounts, key).None? && KeyOf(a) == key then Some(a) else FindByKey(accounts, key)
  {
    var all := accounts + [a];
    if accounts != [] {
      assert all[0] == accounts[0] && all[1..] == accounts[1..] + [a];
      FindByKeySnoc(accounts[1..], a, key);
    } else {
      assert all == [a];
    }
  }

  /** After the key is ensured it is found, and by the same account on every later try: a
      second ensure changes nothing, whatever category or id it would have used. */
  lemma EnsuredIdempotent(accounts: seq<Account>, key: AccountKey, catType: string, newId: int, catType2: string, newId2: int)
    ensures FindByKey(Ensured(accounts, key, catType, newId), key).Some?
    ensures Ensured(Ensured(accounts, key, catType, newId), key, catType2, newId2) == Ensured(accounts, key, catType, newId)
  {
    if FindByKey(accounts, key).None? {
      FindByKeySnoc(accounts, Account(newId, key.name, key.accountType, catType, key.parentId), key);
    }
  }

  /** Ensuring a key keeps every account found by any key, and keeps keys unique. */
  lemma EnsuredGrows(accounts: seq<Account>, key: AccountKey, catType: string, newId: int)
    ensures Grows(accounts, Ensured(accounts, key, catType, newId))
    ensures accounts <= Ensured(accounts, key, catType, newId)
    ensures KeysUnique(accounts) ==> KeysUnique(Ensured(accounts, key, catType, newId))
  {
    if FindByKey(accounts, key).None? {
      var a := Account(newId, key.name, key.accountType, catType, key.parentId);
      forall k | FindByKey(accounts, k).Some?
        ensures FindByKey(accounts + [a], k) == FindByKey(accounts, k)
      {
        FindByKeySnoc(accounts, a, k);
      }
      if KeysUnique(accounts) {
        var all := accounts + [a];
        forall i, j | 0 <= i < j < |all| ensures KeyOf(all[i]) != KeyOf(all[j]) {
          if j == |accounts| {
            assert all[i] in accounts;
          }
        }
      }
    }
  }

  /** The category is not part of the key: when an account has the key, ensuring it with any
      category finds that account, with the category it was stored with. */
  lemma CategoryNotInKey(accounts: seq<Account>, key: AccountKey, catType1: string, catType2: string, newId: int)
    requires FindByKey(accounts, key).Some?
    ensures FindByKey(Ensured(accounts, key, catType1, newId), key) == FindByKey(Ensured(accounts, key, catType2, newId), key)
    ensures FindByKey(Ensured(accounts, key, catType1, newId), key).value.categoryType ==
            FindByKey(accounts, key).value.categoryType
  {
    EnsuredFinds(accounts, key, catType1, newId);
    EnsuredFinds(accounts, key, catType2, newId);
  }

  lemma GrowsTransitive(a: seq<Account>, b: seq<Account>, c: seq<Account>)
    requires Grows(a, b) && Grows(b, c)
    requires a <= b && b <= c
    ensures Grows(a, c) && a <= c
  {
    assert c[..|a|] == c[..|b|][..|a|];
  }

  /** The account the ensure finds: the stored one with the key, or the new one. */
  lemma EnsuredFinds(accounts: seq<Account>, key: AccountKey, catType: string, newId: int)
    ensures FindByKey(Ensured(accounts, key, catType, newId), key) ==
      Some(FindByKey(accounts, key).GetOr(Account(newId, key.name, key.accountType, catType, key.parentId)))
  {
    if FindByKey(accounts, key).None? {
      FindByKeySnoc(accounts, Account(newId, key.name, key.accountType, catType, key.parentId), key);
    }
  }

  /** The cache still agrees with the table once the key is ensured and cached. */
  lemma CacheAfterEnsure(cache: map<AccountKey, Account>, accounts: seq<Account>, key: AccountKey, catType: string, newId: int)
    requires CacheAgrees(cache, accounts)
    ensures CacheAgrees(cache[key := FindByKey(accounts, key).GetOr(Account(newId, key.name, key.accountType, catType, key.parentId))],
                        Ensured(accounts, key, catType, newId))
  {
    EnsuredFinds(accounts, key, catType, newId);
    EnsuredGrows(accounts, key, catType, newId);
  }

  /** get_or_create_account: the cached account for the key if any, else the first stored
      one, else a new account with the key and the category; the cache then maps the key to
      the account returned. The dictionary updated in place is modelled as the map returned. */
  method GetOrCreateAccount(db: Database, name: string, accType: string, catType: string, parentId: Option<int>,
                            cache: map<AccountKey, Account>)
    returns (account: Account, cache': map<AccountKey, Account>)
    requires db.Valid() && CacheAgrees(cache, db.accounts)
    modifies db
    ensures db.Valid() && CacheAgrees(cache', db.accounts)
    ensures Table(db.accounts, db.nextAccountId) ==
      EnsureKey(Table(old(db.accounts), old(db.nextAccountId)), AccountKey(name, accType, parentId), catType)
    ensures account == EnsuredAccount(Table(old(db.accounts), old(db.nextAccountId)), AccountKey(name, accType, parentId), catType)
    ensures cache' == cache[AccountKey(name, accType, parentId) := account]
    ensures db.works == old(db.works) && db.entries == old(db.entries) && db.mappings == old(db.mappings)
    ensures db.nextEntryId == old(db.nextEntryId) && db.nextMappingId == old(db.nextMappingId)
  {
    var key := AccountKey(name, accType, parentId);
    ghost var newId := db.nextAccountId;
    EnsuredFinds(db.accounts, key, catType, newId);
    CacheAfterEnsure(cache, db.accounts, key, catType, newId);
    if key in cache {
      return cache[key], cache;
    }
    var found := FindByKey(db.accounts, key);
    if found.None? {
      account := AddAccount(db, name, accType, catType, parentId);
    } else {
      account := found.value;
    }
    cache' := cache[key := account];
  }

  /** db.add and flush of a new account: it takes the next id. */
  method AddAccount(db: Database, name: string, accType: string, catType: string, parentId: Option<int>)
    returns (account: Account)
    requires db.Valid()
    modifies db
    ensures db.Valid()
    ensures account == Account(old(db.nextAccountId), name, accType, catType, parentId)
    ensures db.accounts == old(db.accounts) + [account] && db.nextAccountId == old(db.nextAccountId) + 1
    ensures db.works == old(db.works) && db.entries == old(db.entries) && db.mappings == old(db.mappings)
    ensures db.nextEntryId == old(db.nextEntryId) && db.nextMappingId == old(db.nextMappingId)
  {
    account := Account(db.nextAccountId, name, accType, catType, parentId);
    NewAccountKeepsValid(db.accounts, account, db.nextAccountId);
    db.accounts := db.accounts + [account];
    db.nextAccountId := db.nextAccountId + 1;
  }

  /** A new account with the next id keeps the ids distinct and below the sequence. */
  lemma NewAccountKeepsValid(accounts: seq<Account>, a: Account, nextId: int)
    requires AccountIdsUnique(accounts) && forall x :: x in accounts ==> 1 <= x.id < nextId
    requires a.id == nextId && 1 <= nextId
    ensures AccountIdsUnique(accounts + [a])
    ensures forall x :: x in accounts + [a] ==> 1 <= x.id < nextId + 1
  {
    var all := accounts + [a];
    forall i, j | 0 <= i < j < |all| ensures all[i].id != all[j].id {
      if j == |accounts| {
        assert all[i] in accounts;
      }
    }
  }

  /** The display name of a category root. */
  function DisplayName(t: CategoryType): string {
    match t
    case Asset => "Assets"
    case Liability => "Liabilities"
    case Equity => "Equity"
    case Income => "Income"
    case Expense => "Expenses"
  }

  /** The root's name for a category string: the display name of a known category, otherwise
      the string in title case. */
  function RootName(category: string): (r: string)
    ensures ParseCategoryType(category).None? ==> r == Title(category)
  {
    match ParseCategoryType(category)
    case Some(t) => DisplayName(t)
    case None => Title(category)
  }

  /** The five known categories get five different roots. */
  lemma KnownRootsDistinct(t1: CategoryType, t2: CategoryType)
    requires t1 != t2
    ensures RootName(t1.Name()) != RootName(t2.Name())
  {
  }

  /** A known category gets its display name. */
  lemma KnownRootName(t: CategoryType)
    ensures RootName(t.Name()) == DisplayName(t)
  {
  }

  /** An unknown category whose title case is a display name shares that category's root:
      rows with "ASSETS" land under the root of "ASSET". */
  lemma PluralCategoryShares()
    ensures RootName("ASSETS") == RootName("ASSET")
  {
    assert ParseCategoryType("ASSETS").None?;
    AssetsTitle();
  }

  lemma AssetsTitle()
    ensures Title("ASSETS") == "Assets"
  {
    assert TitleFrom("S", true) == "s";
    assert TitleFrom("TS", true) == "ts";
    assert TitleFrom("ETS", true) == "ets";
    assert TitleFrom("SETS", true) == "sets";
    assert TitleFrom("SSETS", true) == "ssets";
  }

  /** The sub-head is ensured only for a name that is neither blank nor "nan" in any case. */
  predicate SubHeadPresent(name: string)
    ensures SubHeadPresent(name) <==> name != "" && !NanLetters(name)
  {
    NanInAnyCase(name);
    name != "" && Lower(name) != "nan"
  }

  /** The three letters of nan, each in either case. */
  predicate NanLetters(name: string) {
    |name| == 3 && name[0] in "nN" && name[1] in "aA" && name[2] in "nN"
  }

  /** Lower-casing gives "nan" exactly for the letters of nan in any mix of cases. */
  lemma NanInAnyCase(name: string)
    ensures Lower(name) == "nan" <==> NanLetters(name)
  {
    if NanLetters(name) {
      var l := Lower(name);
      forall k | 0 <= k < 3 ensures l[k] == "nan"[k] {
        if IsAsciiUpper(name[k]) {
          assert IsAsciiLower(l[k]) && UpperChar(l[k]) == name[k];
        }
      }
    }
    if Lower(name) == "nan" {
      var l := Lower(name);
      forall k | 0 <= k < 3 ensures name[k] in ["nan"[k], UpperChar("nan"[k])] {
        if IsAsciiUpper(name[k]) {
          assert UpperChar(l[k]) == name[k];
        }
      }
    }
  }

  /** The three stripped texts of a sheet row; the category is also upper-cased, and a
      missing cell reads "nan". */
  function RowCategory(columns: seq<string>, row: seq<Cell>): (r: string)
    ensures forall i :: 0 <= i < |r| ==> !IsAsciiLower(r[i])
    ensures r == [] || (!IsSpace(r[0]) && !IsSpace(r[|r| - 1]))
  {
    var t := Strip(CellText(Field(columns, row, "Category", None)));
    UpperKeepsSpaces(t);
    Upper(t)
  }

  function RowHead(columns: seq<string>, row: seq<Cell>): (r: string)
    ensures r == [] || (!IsSpace(r[0]) && !IsSpace(r[|r| - 1]))
    ensures Field(columns, row, "HEAD", None) == None ==> r == "nan"
  {
    NanIsStripped();
    Strip(CellText(Field(columns, row, "HEAD", None)))
  }

  function RowSubHead(columns: seq<string>, row: seq<Cell>): (r: string)
    ensures r == [] || (!IsSpace(r[0]) && !IsSpace(r[|r| - 1]))
    ensures Field(columns, row, "Sub head", None) == None ==> r == "nan" && !SubHeadPresent(r)
  {
    NanIsStripped();
    assert NanLetters("nan");
    Strip(CellText(Field(columns, row, "Sub head", None)))
  }

  function RootKey(category: string): AccountKey {
    AccountKey(RootName(category), Category.Name(), None)
  }

  /** The three texts the loop reads from a row: the category, the head and the sub-head. */
  datatype RowTexts = RowTexts(category: string, head: string, subHead: string)

  function RowTextsOf(columns: seq<string>, row: seq<Cell>): RowTexts {
    RowTexts(RowCategory(columns, row), RowHead(columns, row), RowSubHead(columns, row))
  }

  /** The texts of every row, in sheet order. SheetTextsRead says what they hold. */
  function SheetTexts(columns: seq<string>, rows: seq<seq<Cell>>): (r: seq<RowTexts>)
    ensures |r| == |rows|
  {
    seq(|rows|, k requires 0 <= k < |rows| => RowTextsOf(columns, rows[k]))
  }

  /** What the loop reads from a row: a category with no lower-case letter, a head with no
      surrounding whitespace, and "nan" for a missing head, which is kept, or a missing
      sub-head, which names none. */
  lemma SheetTextsRead(columns: seq<string>, rows: seq<seq<Cell>>, k: nat)
    requires k < |rows|
    ensures var t := SheetTexts(columns, rows)[k];
      && (forall i :: 0 <= i < |t.category| ==> !IsAsciiLower(t.category[i]))
      && (t.head == [] || (!IsSpace(t.head[0]) && !IsSpace(t.head[|t.head| - 1])))
      && (Field(columns, rows[k], "HEAD", None) == None ==> t.head == "nan")
      && (Field(columns, rows[k], "Sub head", None) == None ==> !SubHeadPresent(t.subHead))
  {
    var row := rows[k];
    assert SheetTexts(columns, rows)[k] == RowTextsOf(columns, row);
    RowTextsRead(columns, row);
  }

  lemma RowTextsRead(columns: seq<string>, row: seq<Cell>)
    ensures var t := RowTextsOf(columns, row);
      && (forall i :: 0 <= i < |t.category| ==> !IsAsciiLower(t.category[i]))
      && (t.head == [] || (!IsSpace(t.head[0]) && !IsSpace(t.head[|t.head| - 1])))
      && (Field(columns, row, "HEAD", None) == None ==> t.head == "nan")
      && (Field(columns, row, "Sub head", None) == None ==> !SubHeadPresent(t.subHead))
  {
    if Field(columns, row, "HEAD", None) == None {
      MissingHeadIsNan(columns, row);
    }
    if Field(columns, row, "Sub head", None) == None {
      MissingSubHeadSkipped(columns, row);
    }
  }

  /** The chain a row asks for is stored: its category root, its head under that root, and,
      when the row names one, its sub-head under that head. */
  predicate RowEnsured(accounts: seq<Account>, t: RowTexts) {
    match FindByKey(accounts, RootKey(t.category))
    case None => false
    case Some(root) =>
      match FindByKey(accounts, AccountKey(t.head, Head.Name(), Some(root.id)))
      case None => false
      case Some(head) =>
        !SubHeadPresent(t.subHead)
        || FindByKey(accounts, AccountKey(t.subHead, SubHead.Name(), Some(head.id))).Some?
  }

  lemma RowEnsuredGrows(a: seq<Account>, b: seq<Account>, t: RowTexts)
    requires Grows(a, b) && RowEnsured(a, t)
    ensures RowEnsured(b, t)
  {
    var root := FindByKey(a, RootKey(t.category)).value;
    var head := FindByKey(a, AccountKey(t.head, Head.Name(), Some(root.id))).value;
    if SubHeadPresent(t.subHead) {
      assert FindByKey(a, AccountKey(t.subHead, SubHead.Name(), Some(head.id))).Some?;
    }
  }

  /** The account table together with the id the next new account takes. */
  datatype Table = Table(accounts: seq<Account>, nextId: int)

  /** The account get_or_create_account returns for the key. */
  function EnsuredAccount(tbl: Table, key: AccountKey, catType: string): (r: Account)
    ensures KeyOf(r) == key
  {
    FindByKey(tbl.accounts, key).GetOr(Account(tbl.nextId, key.name, key.accountType, catType, key.parentId))
  }

  /** The account returned has the key: the stored one when there is one, otherwise a new one
      with the next id and the asked category. */
  lemma EnsuredAccountMeans(tbl: Table, key: AccountKey, catType: string)
    ensures var r := EnsuredAccount(tbl, key, catType);
      && KeyOf(r) == key
      && (FindByKey(tbl.accounts, key).Some? ==> r in tbl.accounts)
      && (FindByKey(tbl.accounts, key).None? ==> r.id == tbl.nextId && r.categoryType == catType)
  {
  }

  /** The table after get_or_create_account for the key: the id advances only when an account
      is added. */
  function EnsureKey(tbl: Table, key: AccountKey, catType: string): (r: Table)
    ensures tbl.accounts <= r.accounts && |r.accounts| <= |tbl.accounts| + 1
    ensures r.nextId == tbl.nextId + (|r.accounts| - |tbl.accounts|)
  {
    Table(Ensured(tbl.accounts, key, catType, tbl.nextId),
          if FindByKey(tbl.accounts, key).Some? then tbl.nextId else tbl.nextId + 1)
  }

  /** The table after one pass of the row loop: the category root is ensured, then the head
      under the root found or made, then, when the row names one, the sub-head under the head
      found or made; all three with the row's category. */
  function RowImported(tbl: Table, t: RowTexts): (r: Table)
    ensures tbl.accounts <= r.accounts && |r.accounts| <= |tbl.accounts| + 3
    ensures r.nextId == tbl.nextId + (|r.accounts| - |tbl.accounts|)
  {
    var rootKey := RootKey(t.category);
    var root := EnsuredAccount(tbl, rootKey, t.category);
    var t1 := EnsureKey(tbl, rootKey, t.category);
    var headKey := AccountKey(t.head, Head.Name(), Some(root.id));
    var head := EnsuredAccount(t1, headKey, t.category);
    var t2 := EnsureKey(t1, headKey, t.category);
    if SubHeadPresent(t.subHead) then
      EnsureKey(t2, AccountKey(t.subHead, SubHead.Name(), Some(head.id)), t.category)
    else t2
  }

  /** The table after the row loop over the given rows, in order. */
  function Imported(tbl: Table, texts: seq<RowTexts>): (r: Table)
    ensures tbl.accounts <= r.accounts && |r.accounts| <= |tbl.accounts| + 3 * |texts|
    ensures r.nextId == tbl.nextId + (|r.accounts| - |tbl.accounts|)
    decreases |texts|
  {
    if texts == [] then tbl
    else RowImported(Imported(tbl, texts[..|texts| - 1]), texts[|texts| - 1])
  }

  /** One pass of the loop stores the row's chain, keeps every account found before, adds at
      most three accounts, all with the row's category, and keeps keys unique. */
  lemma RowImportedMeans(tbl: Table, t: RowTexts)
    ensures var r := RowImported(tbl, t);
      && RowEnsured(r.accounts, t)
      && tbl.accounts <= r.accounts && Grows(tbl.accounts, r.accounts)
      && |r.accounts| <= |tbl.accounts| + 3
      && (forall k :: |tbl.accounts| <= k < |r.accounts| ==> r.accounts[k].categoryType == t.category)
      && (KeysUnique(tbl.accounts) ==> KeysUnique(r.accounts))
  {
    var rootKey := RootKey(t.category);
    var root := EnsuredAccount(tbl, rootKey, t.category);
    var t1 := EnsureKey(tbl, rootKey, t.category);
    EnsureStep(tbl, rootKey, t.category);
    var headKey := AccountKey(t.head, Head.Name(), Some(root.id));
    var head := EnsuredAccount(t1, headKey, t.category);
    var t2 := EnsureKey(t1, headKey, t.category);
    EnsureStep(t1, headKey, t.category);
    FoundStays(t1.accounts, t2.accounts, rootKey, root);
    GrowsTransitive(tbl.accounts, t1.accounts, t2.accounts);
    CategoryAcross(tbl.accounts, t1.accounts, t2.accounts, t.category);
    if SubHeadPresent(t.subHead) {
      var subKey := AccountKey(t.subHead, SubHead.Name(), Some(head.id));
      var t3 := EnsureKey(t2, subKey, t.category);
      EnsureStep(t2, subKey, t.category);
      FoundStays(t2.accounts, t3.accounts, rootKey, root);
      FoundStays(t2.accounts, t3.accounts, headKey, head);
      RowEnsuredIntro(t3.accounts, t, root, head);
      GrowsTransitive(tbl.accounts, t2.accounts, t3.accounts);
      CategoryAcross(tbl.accounts, t2.accounts, t3.accounts, t.category);
    } else {
      RowEnsuredIntro(t2.accounts, t, root, head);
    }
  }

  lemma RowImportedEnsures(tbl: Table, t: RowTexts)
    ensures RowEnsured(RowImported(tbl, t).accounts, t) && Grows(tbl.accounts, RowImported(tbl, t).accounts)
  {
    RowImportedMeans(tbl, t);
  }

  /** The loop over the rows keeps every account found before, only appends, and keeps keys
      unique. */
  lemma {:induction false} ImportedGrows(tbl: Table, texts: seq<RowTexts>)
    ensures var r := Imported(tbl, texts);
      tbl.accounts <= r.accounts && Grows(tbl.accounts, r.accounts)
      && (KeysUnique(tbl.accounts) ==> KeysUnique(r.accounts))
    decreases |texts|
  {
    if texts != [] {
      var n := |texts| - 1;
      var mid := Imported(tbl, texts[..n]);
      var r := RowImported(mid, texts[n]);
      ImportedGrows(tbl, texts[..n]);
      RowImportedMeans(mid, texts[n]);
      GrowsTransitive(tbl.accounts, mid.accounts, r.accounts);
    }
  }

  /** The loop over the rows stores every row's chain. */
  lemma {:induction false} ImportedEnsures(tbl: Table, texts: seq<RowTexts>)
    ensures forall j :: 0 <= j < |texts| ==> RowEnsured(Imported(tbl, texts).accounts, texts[j])
    decreases |texts|
  {
    if texts != [] {
      var n := |texts| - 1;
      var mid := Imported(tbl, texts[..n]);
      var fin := Imported(tbl, texts);
      assert fin == RowImported(mid, texts[n]);
      ImportedEnsures(tbl, texts[..n]);
      RowImportedEnsures(mid, texts[n]);
      RowsStillEnsured(mid.accounts, fin.accounts, texts, n);
    }
  }

  /** Rows whose chains were stored stay stored when the table grows. */
  lemma RowsStillEnsured(a: seq<Account>, b: seq<Account>, texts: seq<RowTexts>, n: nat)
    requires n < |texts| && Grows(a, b) && RowEnsured(b, texts[n])
    requires forall j :: 0 <= j < n ==> RowEnsured(a, texts[..n][j])
    ensures forall j :: 0 <= j <= n ==> RowEnsured(b, texts[j])
  {
    forall j | 0 <= j < n ensures RowEnsured(b, texts[j]) {
      assert texts[..n][j] == texts[j];
      RowEnsuredGrows(a, b, texts[j]);
    }
  }

  /** Accounts added in two steps with the same category all carry it. */
  lemma CategoryAcross(a: seq<Account>, b: seq<Account>, c: seq<Account>, cat: string)
    requires a <= b <= c
    requires forall k :: |a| <= k < |b| ==> b[k].categoryType == cat
    requires forall k :: |b| <= k < |c| ==> c[k].categoryType == cat
    ensures forall k :: |a| <= k < |c| ==> c[k].categoryType == cat
  {
    forall k | |a| <= k < |b| ensures c[k].categoryType == cat {
      assert c[k] == b[k];
    }
  }

  /** The number of rows that name a sub-head. */
  function SubHeadCount(texts: seq<RowTexts>): (r: nat)
    ensures r <= |texts|
  {
    if texts == [] then 0
    else
      var n := |texts| - 1;
      SubHeadCount(texts[..n]) + if SubHeadPresent(texts[n].subHead) then 1 else 0
  }

  /** The header names stripped (not lower-cased): one per column, in order. */
  function StrippedHeader(header: seq<string>): (r: seq<string>)
    ensures |r| == |header|
    ensures forall k :: 0 <= k < |header| ==> r[k] == Strip(header[k])
  {
    seq(|header|, k requires 0 <= k < |header| => Strip(header[k]))
  }

  const RequiredColumns: set<string> := {"Category", "HEAD", "Sub head"}

  /** required_cols.issubset(df.columns). */
  predicate HasRequiredColumns(columns: seq<string>)
    ensures HasRequiredColumns(columns) <==> RequiredColumns <= set c | c in columns
  {
    "Category" in columns && "HEAD" in columns && "Sub head" in columns
  }

  /** filename.endswith('.csv'). */
  predicate IsCsvName(filename: string)
    ensures IsCsvName(filename) <==> exists stem :: filename == stem + ".csv"
  {
    if |filename| >= 4 && filename[|filename| - 4..] == ".csv" then
      assert filename == filename[..|filename| - 4] + ".csv";
      true
    else
      false
  }

  /** The detail of the 400 raised for missing columns, as the handler re-raises it: the
      exception's text is "400: " and its own detail. */
  const MissingColumnsDetail := "Error processing CSV: 400: CSV must contain columns: {'Category', 'HEAD', 'Sub head'}"

  /** bulk_upload_accounts, with the file already split into a sheet: a non-.csv name and a
      sheet without the three columns are refused before anything is written; otherwise the
      rows are imported in order and the number of rows that name a sub-head is returned. */
  method BulkUploadAccounts(db: Database, filename: string, sheet: Sheet) returns (r: Result<nat>)
    requires db.Valid()
    modifies db
    ensures db.Valid()
    ensures db.works == old(db.works) && db.entries == old(db.entries) && db.mappings == old(db.mappings)
    ensures db.nextEntryId == old(db.nextEntryId) && db.nextMappingId == old(db.nextMappingId)
    ensures !IsCsvName(filename) ==> r == Failure(HttpError(400, "Only CSV files are allowed"))
    ensures IsCsvName(filename) && !HasRequiredColumns(StrippedHeader(sheet.header)) ==>
      r == Failure(HttpError(400, MissingColumnsDetail))
    ensures r.Success? <==> IsCsvName(filename) && HasRequiredColumns(StrippedHeader(sheet.header))
    ensures r.Failure? ==> db.accounts == old(db.accounts) && db.nextAccountId == old(db.nextAccountId)
    ensures r.Success? ==>
      var texts := SheetTexts(StrippedHeader(sheet.header), sheet.rows);
      && Table(db.accounts, db.nextAccountId) == Imported(Table(old(db.accounts), old(db.nextAccountId)), texts)
      && r.value == SubHeadCount(texts)
      && (forall t :: t in texts ==> RowEnsured(db.accounts, t))
      && old(db.accounts) <= db.accounts && Grows(old(db.accounts), db.accounts)
      && (KeysUnique(old(db.accounts)) ==> KeysUnique(db.accounts))
  {
    if !IsCsvName(filename) {
      return Failure(HttpError(400, "Only CSV files are allowed"));
    }
    var columns := StrippedHeader(sheet.header);
    if !HasRequiredColumns(columns) {
      return Failure(HttpError(400, MissingColumnsDetail));
    }
    var count := ImportRows(db, SheetTexts(columns, sheet.rows));
    return Success(count);
  }

  /** The row loop of bulk_upload_accounts over the rows' texts, threading the cache and
      counting the rows that name a sub-head. */
  method ImportRows(db: Database, texts: seq<RowTexts>) returns (count: nat)
    requires db.Valid()
    modifies db
    ensures db.Valid()
    ensures db.works == old(db.works) && db.entries == old(db.entries) && db.mappings == old(db.mappings)
    ensures db.nextEntryId == old(db.nextEntryId) && db.nextMappingId == old(db.nextMappingId)
    ensures Table(db.accounts, db.nextAccountId) == Imported(Table(old(db.accounts), old(db.nextAccountId)), texts)
    ensures count == SubHeadCount(texts)
    ensures forall t :: t in texts ==> RowEnsured(db.accounts, t)
    ensures old(db.accounts) <= db.accounts && Grows(old(db.accounts), db.accounts)
    ensures KeysUnique(old(db.accounts)) ==> KeysUnique(db.accounts)
  {
    ghost var start := Table(db.accounts, db.nextAccountId);
    var cache: map<AccountKey, Account> := map[];
    count := 0;
    for i := 0 to |texts|
      invariant db.Valid() && CacheAgrees(cache, db.accounts)
      invariant db.works == old(db.works) && db.entries == old(db.entries) && db.mappings == old(db.mappings)
      invariant db.nextEntryId == old(db.nextEntryId) && db.nextMappingId == old(db.nextMappingId)
      invariant count == SubHeadCount(texts[..i])
      invariant Table(db.accounts, db.nextAccountId) == Imported(start, texts[..i])
    {
      cache, count := ImportRow(db, texts, i, cache, count, start);
    }
    assert texts[..|texts|] == texts;
    ImportedGrows(start, texts);
    ImportedEnsures(start, texts);
  }

  /** One pass of the row loop: the table becomes the row's import of it, and the count goes
      up by one when the row names a sub-head. */
  method ImportRow(db: Database, texts: seq<RowTexts>, i: nat,
                   cache: map<AccountKey, Account>, count: nat, ghost start: Table)
    returns (cache': map<AccountKey, Account>, count': nat)
    requires i < |texts| && db.Valid() && CacheAgrees(cache, db.accounts)
    requires count == SubHeadCount(texts[..i])
    requires Table(db.accounts, db.nextAccountId) == Imported(start, texts[..i])
    modifies db
    ensures db.Valid() && CacheAgrees(cache', db.accounts)
    ensures db.works == old(db.works) && db.entries == old(db.entries) && db.mappings == old(db.mappings)
    ensures db.nextEntryId == old(db.nextEntryId) && db.nextMappingId == old(db.nextMappingId)
    ensures count' == SubHeadCount(texts[..i + 1])
    ensures Table(db.accounts, db.nextAccountId) == Imported(start, texts[..i + 1])
  {
    ghost var before := Table(db.accounts, db.nextAccountId);
    var subHead;
    cache', subHead := EnsureRow(db, texts[i], cache);
    ImportedSnoc(start, texts, i, before, Table(db.accounts, db.nextAccountId));
    CountStep(texts, i, subHead);
    count' := if subHead then count + 1 else count;
  }

  lemma ImportedSnoc(start: Table, texts: seq<RowTexts>, i: nat, before: Table, after: Table)
    requires i < |texts| && before == Imported(start, texts[..i]) && after == RowImported(before, texts[i])
    ensures after == Imported(start, texts[..i + 1])
  {
    assert texts[..i + 1][..i] == texts[..i];
  }

  lemma CountStep(texts: seq<RowTexts>, i: nat, counted: bool)
    requires i < |texts| && counted == SubHeadPresent(texts[i].subHead)
    ensures counted ==> SubHeadCount(texts[..i + 1]) == SubHeadCount(texts[..i]) + 1
    ensures !counted ==> SubHeadCount(texts[..i + 1]) == SubHeadCount(texts[..i])
  {
    assert texts[..i + 1][..i] == texts[..i];
  }

  /** The loop body for one row: the root, then the head under it, then the sub-head under
      the head when the row names one, each by get_or_create_account with the row's category. */
  method EnsureRow(db: Database, t: RowTexts, cache: map<AccountKey, Account>)
    returns (cache': map<AccountKey, Account>, subHead: bool)
    requires db.Valid() && CacheAgrees(cache, db.accounts)
    modifies db
    ensures db.Valid() && CacheAgrees(cache', db.accounts)
    ensures Table(db.accounts, db.nextAccountId) == RowImported(Table(old(db.accounts), old(db.nextAccountId)), t)
    ensures subHead == SubHeadPresent(t.subHead)
    ensures db.works == old(db.works) && db.entries == old(db.entries) && db.mappings == old(db.mappings)
    ensures db.nextEntryId == old(db.nextEntryId) && db.nextMappingId == old(db.nextMappingId)
  {
    var category := t.category;
    ghost var t0 := Table(db.accounts, db.nextAccountId);
    ghost var rootKey := RootKey(category);
    var root;
    root, cache' := GetOrCreateAccount(db, RootName(category), Category.Name(), category, None, cache);
    ghost var t1 := Table(db.accounts, db.nextAccountId);
    ghost var headKey := AccountKey(t.head, Head.Name(), Some(root.id));
    var head;
    head, cache' := GetOrCreateAccount(db, t.head, Head.Name(), category, Some(root.id), cache');
    ghost var t2 := Table(db.accounts, db.nextAccountId);
    subHead := t.subHead != "" && Lower(t.subHead) != "nan";
    if subHead {
      var sub;
      sub, cache' := GetOrCreateAccount(db, t.subHead, SubHead.Name(), category, Some(head.id), cache');
    }
  }

  /** What one get-or-create leaves: the account it returns is the one found by the key, and
      the table grew. */
  lemma EnsureStep(tbl: Table, key: AccountKey, catType: string)
    ensures var r := EnsureKey(tbl, key, catType);
      && FindByKey(r.accounts, key) == Some(EnsuredAccount(tbl, key, catType))
      && Grows(tbl.accounts, r.accounts) && tbl.accounts <= r.accounts
      && |r.accounts| <= |tbl.accounts| + 1
      && (forall k :: |tbl.accounts| <= k < |r.accounts| ==> r.accounts[k].categoryType == catType)
      && (KeysUnique(tbl.accounts) ==> KeysUnique(r.accounts))
  {
    EnsuredFinds(tbl.accounts, key, catType, tbl.nextId);
    EnsuredGrows(tbl.accounts, key, catType, tbl.nextId);
  }

  lemma FoundStays(a: seq<Account>, b: seq<Account>, key: AccountKey, account: Account)
    requires Grows(a, b) && FindByKey(a, key) == Some(account)
    ensures FindByKey(b, key) == Some(account)
  {
  }

  lemma RowEnsuredIntro(accounts: seq<Account>, t: RowTexts, root: Account, head: Account)
    requires FindByKey(accounts, RootKey(t.category)) == Some(root)
    requires FindByKey(accounts, AccountKey(t.head, Head.Name(), Some(root.id))) == Some(head)
    requires SubHeadPresent(t.subHead) ==>
      FindByKey(accounts, AccountKey(t.subHead, SubHead.Name(), Some(head.id))).Some?
    ensures RowEnsured(accounts, t)
  {
  }

  /** create_account: a truthy parent id must name a stored account (404 otherwise, nothing
      written); the new account takes the next id. A parent id of 0 is falsy and skips the
      check. */
  method CreateAccount(db: Database, name: string, accType: string, catType: string, parentId: Option<int>)
    returns (r: Result<Account>)
    requires db.Valid()
    modifies db
    ensures db.Valid()
    ensures db.works == old(db.works) && db.entries == old(db.entries) && db.mappings == old(db.mappings)
    ensures db.nextEntryId == old(db.nextEntryId) && db.nextMappingId == old(db.nextMappingId)
    ensures r.Failure? <==> parentId.Some? && parentId.value != 0 && FindAccount(old(db.accounts), parentId.value).None?
    ensures r.Failure? ==>
      && r.error == HttpError(404, "Parent account not found")
      && db.accounts == old(db.accounts) && db.nextAccountId == old(db.nextAccountId)
    ensures r.Success? ==>
      && r.value == Account(old(db.nextAccountId), name, accType, catType, parentId)
      && db.accounts == old(db.accounts) + [r.value]
      && db.nextAccountId == old(db.nextAccountId) + 1
  {
    if parentId.Some? && parentId.value != 0 {
      var parent := FindAccount(db.accounts, parentId.value);
      if parent.None? {
        return Failure(HttpError(404, "Parent account not found"));
      }
    }
    var account := AddAccount(db, name, accType, catType, parentId);
    return Success(account);
  }

  /** A blank sub-head cell is read as NaN, prints as "nan" and names no sub-head. */
  lemma MissingSubHeadSkipped(columns: seq<string>, row: seq<Cell>)
    requires Field(columns, row, "Sub head", None) == None
    ensures !SubHeadPresent(RowSubHead(columns, row))
  {
    NanIsStripped();
    assert NanLetters("nan");
  }

  /** A blank head cell is not skipped: the head is ensured under the name "nan". */
  lemma MissingHeadIsNan(columns: seq<string>, row: seq<Cell>)
    requires Field(columns, row, "HEAD", None) == None
    ensures RowHead(columns, row) == "nan"
  {
    NanIsStripped();
  }

  lemma NanIsStripped()
    ensures Strip("nan") == "nan"
  {
    NanTrimStart();
    NanTrimEnd();
  }

  lemma NanTrimStart()
    ensures TrimStart("nan") == "nan"
  {
    assert !IsSpace("nan"[0]);
  }

  lemma NanTrimEnd()
    ensures TrimEnd("nan") == "nan"
  {
    assert !IsSpace("nan"[2]);
  }
}

=== FILE: chart.dfy ===
/** The chart of accounts as the engine indexes it: accounts by id, the parent-to-children
    index and the roots. */
module Chart {
  import opened Wrappers
  import opened Domain

  function AccountIds(accounts: seq<Account>): set<int> {
    set a | a in accounts :: a.id
  }

  // ---------------------------------------------------------------------------------------
  // The account index (account_map)
  // ---------------------------------------------------------------------------------------

  /** Every fetched account by its id; a later row with the same id would replace an earlier one. */
  function AccountIndex(accounts: seq<Account>): (m: map<int, Account>)
    ensures m.Keys == AccountIds(accounts)
    ensures forall id :: id in m ==> m[id] in accounts && m[id].id == id
  {
    if accounts == [] then map[]
    else
      var init, last := accounts[..|accounts| - 1], accounts[|accounts| - 1];
      assert accounts == init + [last];
      AccountIndex(init)[last.id := last]
  }

  /** The index maps an account's id to that very account when no later row has the same id
      (in particular when ids are unique). */
  lemma {:induction false} AccountIndexFindsEachAccount(accounts: seq<Account>, i: int)
    requires 0 <= i < |accounts|
    requires forall j :: i < j < |accounts| ==> accounts[j].id != accounts[i].id
    ensures AccountIndex(accounts)[accounts[i].id] == accounts[i]
  {
    var n := |accounts|;
    if i < n - 1 {
      var init := accounts[..n - 1];
      assert init[i] == accounts[i];
      AccountIndexFindsEachAccount(init, i);
    }
  }

  // ---------------------------------------------------------------------------------------
  // The children index (children_map) and the roots
  // ---------------------------------------------------------------------------------------

  /** The ids of the accounts whose parent is `p`, in table order. */
  function ChildIds(accounts: seq<Account>, p: int): (r: seq<int>)
    ensures |r| <= |accounts|
    ensures forall c :: c in r <==>
      exists i :: 0 <= i < |accounts| && accounts[i].id == c && accounts[i].parentId == Some(p)
  {
    if accounts == [] then []
    else
      var init, last := accounts[..|accounts| - 1], accounts[|accounts| - 1];
      assert forall i :: 0 <= i < |init| ==> init[i] == accounts[i];
      ChildIds(init, p) + (if last.parentId == Some(p) then [last.id] else [])
  }

  /** The parent ids that are truthy (not 0) and referenced by some account. */
  function ParentRefs(accounts: seq<Account>): set<int> {
    set a | a in accounts && a.parentId.Some? && a.parentId.value != 0 :: a.parentId.value
  }

  /** The children index as a value: one key per referenced truthy parent id. */
  function ChildrenIndex(accounts: seq<Account>): map<int, seq<int>> {
    map p | p in ParentRefs(accounts) :: ChildIds(accounts, p)
  }

  /** The ids of the accounts with no parent, in table order. */
  function RootIds(accounts: seq<Account>): (r: seq<int>)
    ensures forall x :: x in r <==>
      exists i :: 0 <= i < |accounts| && accounts[i].id == x && accounts[i].parentId == None
  {
    if accounts == [] then []
    else
      var init, last := accounts[..|accounts| - 1], accounts[|accounts| - 1];
      assert forall i :: 0 <= i < |init| ==> init[i] == accounts[i];
      RootIds(init) + (if last.parentId == None then [last.id] else [])
  }

  /** The children index holds a key exactly for each truthy parent id that some account
      names, and under it exactly the ids of that parent's children, in table order. */
  lemma ChildrenIndexShape(accounts: seq<Account>, p: int)
    ensures p in ChildrenIndex(accounts) <==> p != 0 && ChildIds(accounts, p) != []
    ensures p in ChildrenIndex(accounts) ==> ChildrenIndex(accounts)[p] == ChildIds(accounts, p)
  {
    if p != 0 && ChildIds(accounts, p) != [] {
      var c := ChildIds(accounts, p)[0];
      assert c in ChildIds(accounts, p);
      var i :| 0 <= i < |accounts| && accounts[i].id == c && accounts[i].parentId == Some(p);
      assert accounts[i] in accounts;
    }
  }

  /** Appending an account with a truthy parent appends its id under that parent, creating
      the key when it is new; any other account leaves the index as it was. */
  lemma ChildrenIndexSnoc(accounts: seq<Account>, a: Account)
    ensures ChildrenIndex(accounts + [a]) ==
      if a.parentId.Some? && a.parentId.value != 0 then
        ChildrenIndex(accounts)[a.parentId.value := ChildIdsOrEmpty(ChildrenIndex(accounts), a.parentId.value) + [a.id]]
      else ChildrenIndex(accounts)
  {
    var all := accounts + [a];
    var before, after := ChildrenIndex(accounts), ChildrenIndex(all);
    var hasParent := a.parentId.Some? && a.parentId.value != 0;
    var expected := if hasParent then before[a.parentId.value := ChildIdsOrEmpty(before, a.parentId.value) + [a.id]]
                    else before;
    ParentRefsSnoc(accounts, a);
    assert after.Keys == expected.Keys;
    forall p | p in after
      ensures after[p] == expected[p]
    {
      ChildIdsSnoc(accounts, a, p);
      ChildrenIndexShape(accounts, p);
    }
  }

  lemma ParentRefsSnoc(accounts: seq<Account>, a: Account)
    ensures ParentRefs(accounts + [a]) ==
      ParentRefs(accounts) + (if a.parentId.Some? && a.parentId.value != 0 then {a.parentId.value} else {})
  {
    var all := accounts + [a];
    assert forall x :: x in all <==> x in accounts || x == a;
  }

  lemma ChildIdsSnoc(accounts: seq<Account>, a: Account, p: int)
    ensures ChildIds(accounts + [a], p) == ChildIds(accounts, p) + (if a.parentId == Some(p) then [a.id] else [])
  {
    assert (accounts + [a])[..|accounts|] == accounts;
  }

  function ChildIdsOrEmpty(children: map<int, seq<int>>, p: int): seq<int> {
    if p in children then children[p] else []
  }

  /** Builds children_map with one pass over the accounts, appending each account's id under
      its parent when the parent id is truthy. */
  method BuildChildrenMap(accounts: seq<Account>) returns (children: map<int, seq<int>>)
    ensures children == ChildrenIndex(accounts)
  {
    children := map[];
    for i := 0 to |accounts|
      invariant children == ChildrenIndex(accounts[..i])
    {
      var acc := accounts[i];
      assert accounts[..i + 1] == accounts[..i] + [acc];
      ChildrenIndexSnoc(accounts[..i], acc);
      if acc.parentId.Some? && acc.parentId.value != 0 {
        var p := acc.parentId.value;
        if p !in children {
          children := children[p := []];
        }
        children := children[p := children[p] + [acc.id]];
      }
    }
    assert accounts[..|accounts|] == accounts;
  }
}

=== FILE: csv_parser.dfy ===
/** clean_currency and the row loop of parse_trial_balance: ledger cells cleaned into amounts in
    hundredths, and the rows of an uploaded sheet filtered into trial-balance rows whose closing
    balance is recomputed as debit minus credit. */
module CsvParser {
  import opened Wrappers
  import opened Text
  import opened ReportFormat

  /** A cell as the CSV reader yields it: its text, or None for a missing value (NaN). */
  type Cell = Option<string>

  /** str() of a cell: a missing value prints as "nan". */
  function CellText(c: Cell): (r: string)
    ensures r == "nan" <==> c == None || c == Some("nan")
  {
    match c
    case None => "nan"
    case Some(s) => s
  }

  /** A decimal literal: its sign, its integer digits and its fraction digits. */
  datatype Decimal = Decimal(negative: bool, whole: string, fraction: string)

  predicate WellFormed(d: Decimal) {
    AllDigits(d.whole) && AllDigits(d.fraction) && (d.whole != [] || d.fraction != [])
  }

  /** The literal written out with a point. */
  function Render(d: Decimal): string {
    if d.negative then "-" + d.whole + "." + d.fraction else d.whole + "." + d.fraction
  }

  /** The position of the first point in `s`, if any. */
  function PointIndex(s: string): (r: Option<nat>)
    ensures r.Some? ==> r.value < |s| && s[r.value] == '.' && '.' !in s[..r.value]
    ensures r.None? ==> '.' !in s
  {
    if s == [] then None
    else if s[0] == '.' then Some(0)
    else
      match PointIndex(s[1..])
      case None => None
      case Some(i) => assert s[..i + 1] == [s[0]] + s[1..][..i]; Some(i + 1)
  }

  /** float() on the signed decimal grammar: an optional sign, then digits with an optional
      point and fraction digits, or a point and at least one fraction digit. */
  function ParseDecimal(s: string): (r: Option<Decimal>)
    ensures r.Some? ==> WellFormed(r.value)
    ensures r.Some? ==> (r.value.negative <==> s != [] && s[0] == '-')
  {
    var negative := s != [] && s[0] == '-';
    var body := if s != [] && (s[0] == '-' || s[0] == '+') then s[1..] else s;
    var whole := match PointIndex(body) case None => body case Some(i) => body[..i];
    var fraction := match PointIndex(body) case None => "" case Some(i) => body[i + 1..];
    if AllDigits(whole) && AllDigits(fraction) && (whole != [] || fraction != []) then
      Some(Decimal(negative, whole, fraction))
    else None
  }

  /** The first two fraction digits, padded with zeros. */
  function Cents(fraction: string): (r: string)
    requires AllDigits(fraction)
    ensures |r| == 2 && AllDigits(r)
  {
    var padded := fraction + "00";
    assert forall k :: 0 <= k < 2 ==> IsDigit(padded[k]);
    padded[..2]
  }

  /** The literal's value in hundredths, rounded half away from zero at the third fraction
      digit (the column keeps two decimals). */
  function Hundredths(d: Decimal): (r: int)
    requires WellFormed(d)
    ensures var cents := DecimalValue(d.whole) * 100 + DecimalValue(Cents(d.fraction));
      && (Abs(r) == cents || Abs(r) == cents + 1)
      && (|d.fraction| <= 2 ==> Abs(r) == cents)
    ensures d.negative ==> r <= 0
    ensures !d.negative ==> r >= 0
  {
    var truncated := DecimalValue(d.whole) * 100 + DecimalValue(Cents(d.fraction));
    var magnitude := if |d.fraction| > 2 && DigitValue(d.fraction[2]) >= 5 then truncated + 1 else truncated;
    if d.negative then -magnitude else magnitude
  }

  /** The text clean_currency hands to float(): stripped, then rid of double quotes, commas and
      spaces. */
  function Cleaned(s: string): (r: string)
    ensures '"' !in r && ',' !in r && ' ' !in r && |r| <= |s|
  {
    var a := RemoveChar(s, '"');
    var b := RemoveChar(a, ',');
    var r := RemoveChar(b, ' ');
    RemoveCharKeeps(a, ',');
    RemoveCharKeeps(b, ' ');
    assert multiset(a)['"'] == 0 && multiset(b)[','] == 0;
    assert multiset(r)['"'] == 0 && multiset(r)[','] == 0;
    r
  }

  /** clean_currency: 0 for a missing cell and for a lone dash; otherwise the amount the cleaned
      text spells, or 0 when it spells none (float() strips surrounding whitespace itself). */
  function CleanCurrency(c: Cell): (r: int)
    ensures c.None? ==> r == 0
    ensures c.Some? && Strip(c.value) == "-" ==> r == 0
    ensures c.Some? && Strip(c.value) != "-" && ParseDecimal(Strip(Cleaned(Strip(c.value)))).None? ==> r == 0
  {
    match c
    case None => 0
    case Some(v) =>
      var s := Strip(v);
      if s == "-" || s == " - " then 0
      else
        match ParseDecimal(Strip(Cleaned(s)))
        case None => 0
        case Some(d) => Hundredths(d)
  }

  /** A well-formed literal written out with its point reads back as itself. */
  lemma ParseRendered(d: Decimal)
    requires WellFormed(d)
    ensures ParseDecimal(Render(d)) == Some(d)
  {
    var s := Render(d);
    var body := d.whole + "." + d.fraction;
    PointAfterDigits(d.whole, d.fraction);
    assert body[..|d.whole|] == d.whole && body[|d.whole| + 1..] == d.fraction;
    if d.negative {
      assert s == "-" + body;
      assert s[1..] == body;
    } else {
      assert s == body;
      if d.whole != [] {
        assert s[0] == d.whole[0] && IsDigit(d.whole[0]);
      }
    }
  }

  /** In digits followed by a point, the first point is the one after the digits. */
  lemma {:induction false} PointAfterDigits(whole: string, fraction: string)
    requires AllDigits(whole)
    ensures PointIndex(whole + "." + fraction) == Some(|whole|)
  {
    var s := whole + "." + fraction;
    if whole != [] {
      assert IsDigit(whole[0]) && s[0] == whole[0];
      assert s[1..] == whole[1..] + "." + fraction;
      PointAfterDigits(whole[1..], fraction);
    }
  }

  lemma DigitsHaveNoPoint(s: string)
    requires AllDigits(s)
    ensures '.' !in s
  {
    forall k | 0 <= k < |s| ensures s[k] != '.' {
      assert IsDigit(s[k]);
    }
  }

  /** Reading a non-negative amount back from its report rendering ("12,34,567.89") gives the
      amount: the report's grouping commas are among the characters clean_currency drops. */
  lemma ReadsFormattedAmount(h: nat)
    ensures CleanCurrency(Some(IndianCurrency(Some(h)))) == h
  {
    var shown := Grouped(h);
    var d := Decimal(false, IntegerPart(h), FractionPart(h));
    assert IndianCurrency(Some(h)) == shown;
    CleanedGrouped(h);
    assert shown != "-" by {
      assert |shown| >= 4;
    }
    ParseRendered(d);
    HundredthsOfTwoDecimal(h);
    ReadsParsed(shown, d);
  }

  /** Text that is its own strip, is not the dash, and cleans to a literal reads as that
      literal's value. */
  lemma ReadsParsed(s: string, d: Decimal)
    requires Strip(s) == s && s != "-"
    requires WellFormed(d) && ParseDecimal(Strip(Cleaned(s))) == Some(d)
    ensures CleanCurrency(Some(s)) == Hundredths(d)
  {
    assert s != " - " by {
      assert IsSpace(" - "[0]);
    }
  }

  /** The grouped rendering is its own strip, and cleaning it leaves "{:.2f}". */
  lemma CleanedGrouped(h: nat)
    ensures Strip(Grouped(h)) == Grouped(h)
    ensures Strip(Cleaned(Grouped(h))) == Render(Decimal(false, IntegerPart(h), FractionPart(h)))
  {
    var amount, fraction := IntegerPart(h), FractionPart(h);
    GroupedChars(h);
    StripCommas(amount, fraction);
    PlainChars(amount, fraction);
    CleanedNumeric(Grouped(h), amount + "." + fraction);
  }

  /** Text made of digits, commas and points has no whitespace to strip, and cleaning it only
      drops its commas. */
  lemma CleanedNumeric(s: string, plain: string)
    requires forall k :: 0 <= k < |s| ==> NumericChar(s[k])
    requires forall k :: 0 <= k < |plain| ==> NumericChar(plain[k])
    requires RemoveChar(s, ',') == plain
    ensures Strip(s) == s && Strip(Cleaned(s)) == plain
  {
    NumericHasNoSpace(s);
    NumericHasNoSpace(plain);
    RemoveAbsentChar(s, '"');
    RemoveAbsentChar(plain, ' ');
  }

  /** The value of "{:.2f}" of h, read back in hundredths, is h. */
  lemma HundredthsOfTwoDecimal(h: nat)
    ensures Hundredths(Decimal(false, IntegerPart(h), FractionPart(h))) == h
  {
    TwoDecimalValue(h);
    var fraction := FractionPart(h);
    assert Cents(fraction) == fraction by {
      assert (fraction + "00")[..2] == fraction;
    }
  }

  /** Every character of the grouped rendering is a digit, a comma or the point. */
  lemma GroupedChars(h: nat)
    ensures forall k :: 0 <= k < |Grouped(h)| ==> NumericChar(Grouped(h)[k])
  {
    var amount := IntegerPart(h);
    var gs := Groups(amount);
    GroupsAreDigits(gs, amount);
    JoinNumeric(gs);
    var fraction := FractionPart(h);
    var s := Join(gs, ",") + "." + fraction;
    forall k | 0 <= k < |s| ensures NumericChar(s[k]) {
      var j := |Join(gs, ",")|;
      if k < j {
        assert s[k] == Join(gs, ",")[k];
      } else if k > j {
        assert s[k] == fraction[k - j - 1];
      }
    }
  }

  predicate NumericChar(c: char) {
    IsDigit(c) || c == ',' || c == '.' || c == '-'
  }

  lemma {:induction false} JoinNumeric(parts: seq<string>)
    requires forall k :: 0 <= k < |parts| ==> AllDigits(parts[k])
    ensures forall k :: 0 <= k < |Join(parts, ",")| ==> NumericChar(Join(parts, ",")[k])
  {
    var n := |parts|;
    if n == 1 {
      assert AllDigits(parts[0]);
    } else if n > 1 {
      var init, last := parts[..n - 1], parts[n - 1];
      JoinNumeric(init);
      var s := Join(init, ",") + "," + last;
      assert AllDigits(last);
      forall k | 0 <= k < |s| ensures NumericChar(s[k]) {
        var j := |Join(init, ",")|;
        if k < j {
          assert s[k] == Join(init, ",")[k];
        } else if k > j {
          assert s[k] == last[k - j - 1];
        }
      }
    }
  }

  lemma NumericHasNoSpace(s: string)
    requires forall k :: 0 <= k < |s| ==> NumericChar(s[k])
    ensures '"' !in s && ' ' !in s && forall k :: 0 <= k < |s| ==> !IsSpace(s[k])
  {
    forall k | 0 <= k < |s| ensures s[k] != '"' && s[k] != ' ' && !IsSpace(s[k]) {
      assert NumericChar(s[k]);
    }
  }

  lemma PlainChars(amount: string, fraction: string)
    requires AllDigits(amount) && AllDigits(fraction)
    ensures forall k :: 0 <= k < |amount + "." + fraction| ==> NumericChar((amount + "." + fraction)[k])
  {
    var s := amount + "." + fraction;
    forall k | 0 <= k < |s| ensures NumericChar(s[k]) {
      if k < |amount| {
        assert s[k] == amount[k];
      } else if k > |amount| {
        assert s[k] == fraction[k - |amount| - 1];
      }
    }
  }

  /** A negative amount's report rendering is in parentheses, which clean_currency does not
      remove: it reads back as 0, not as the amount. */
  lemma ParenthesizedReadsZero(v: int)
    requires v < 0
    ensures CleanCurrency(Some(IndianCurrency(Some(v)))) == 0
  {
    var shown := IndianCurrency(Some(v));
    assert shown[0] == '(';
    assert !IsSpace('(');
    StripKeepsFirst(shown);
    var s := Strip(shown);
    assert s[0] == '(';
    RemoveCharKeepsFirst(s, '"');
    RemoveCharKeepsFirst(RemoveChar(s, '"'), ',');
    RemoveCharKeepsFirst(RemoveChar(RemoveChar(s, '"'), ','), ' ');
    var c := Cleaned(s);
    assert c[0] == '(';
    StripKeepsFirst(c);
    NotANumber(Strip(c));
  }

  /** Strip keeps a first character that is not whitespace. */
  lemma StripKeepsFirst(s: string)
    requires s != [] && !IsSpace(s[0])
    ensures Strip(s) != [] && Strip(s)[0] == s[0]
  {
    assert TrimStart(s) == s;
    var t := TrimEnd(s);
  }

  /** Removing a character other than the first keeps the first. */
  lemma RemoveCharKeepsFirst(s: string, c: char)
    requires s != [] && s[0] != c
    ensures RemoveChar(s, c) != [] && RemoveChar(s, c)[0] == s[0]
  {
  }

  /** Text that starts with a parenthesis spells no number. */
  lemma NotANumber(s: string)
    requires s != [] && s[0] == '('
    ensures ParseDecimal(s).None?
  {
    var i := PointIndex(s);
    if i.Some? {
      assert i.value > 0;
      assert s[..i.value][0] == '(';
    }
  }

  /** A minus sign ahead of the grouped rendering reads back as the negated amount. */
  lemma ReadsNegatedAmount(h: nat)
    ensures CleanCurrency(Some("-" + Grouped(h))) == -(h as int)
  {
    var shown := "-" + Grouped(h);
    var d := Decimal(true, IntegerPart(h), FractionPart(h));
    CleanedNegated(h);
    assert shown != "-" by {
      assert |Grouped(h)| >= 4;
    }
    ParseRendered(d);
    HundredthsOfTwoDecimal(h);
    ReadsParsed(shown, d);
  }

  /** The minus-signed rendering is its own strip, and cleaning it leaves "-" and "{:.2f}". */
  lemma CleanedNegated(h: nat)
    ensures Strip("-" + Grouped(h)) == "-" + Grouped(h)
    ensures Strip(Cleaned("-" + Grouped(h))) == Render(Decimal(true, IntegerPart(h), FractionPart(h)))
  {
    var amount, fraction := IntegerPart(h), FractionPart(h);
    var shown := "-" + Grouped(h);
    var plain := amount + "." + fraction;
    GroupedChars(h);
    StripCommas(amount, fraction);
    PlainChars(amount, fraction);
    SignedNumeric(Grouped(h));
    SignedNumeric(plain);
    RemoveCharAppend("-", Grouped(h), ',');
    assert RemoveChar("-", ',') == "-";
    CleanedNumeric(shown, "-" + plain);
    RenderNegative(amount, fraction);
  }

  /** A minus sign ahead of digits, commas and points keeps them numeric text. */
  lemma SignedNumeric(s: string)
    requires forall k :: 0 <= k < |s| ==> NumericChar(s[k])
    ensures forall k :: 0 <= k < |"-" + s| ==> NumericChar(("-" + s)[k])
  {
    forall k | 0 <= k < |"-" + s| ensures NumericChar(("-" + s)[k]) {
      if k > 0 {
        assert ("-" + s)[k] == s[k - 1];
      }
    }
  }

  lemma RenderNegative(whole: string, fraction: string)
    ensures Render(Decimal(true, whole, fraction)) == "-" + (whole + "." + fraction)
  {
  }

  /** clean_currency looks at its text only after stripping it. */
  lemma CleanAfterStrip(a: string, b: string)
    requires Strip(a) == Strip(b)
    ensures CleanCurrency(Some(a)) == CleanCurrency(Some(b))
  {
  }

  /** The cleaning examples of the docstring: "-1,37,890.49" reads as -137890.49. */
  lemma NegativeLakhExample()
    ensures CleanCurrency(Some("-1,37,890.49")) == -13789049
  {
    NegativeLakhRendering();
    ReadsNegatedAmount(13789049);
  }

  lemma NegativeLakhRendering()
    ensures "-" + Grouped(13789049) == "-1,37,890.49"
  {
    NegativeLakhDigits();
    NegativeLakhGroups();
  }

  lemma NegativeLakhDigits()
    ensures IntegerPart(13789049) == "137890" && FractionPart(13789049) == "49"
  {
    assert 13789049 / 100 == 137890 && 13789049 % 100 / 10 == 4 && 13789049 % 10 == 9;
    assert NatToDecimal(1) == "1";
    assert NatToDecimal(13) == "13";
    assert NatToDecimal(137) == "137";
    assert NatToDecimal(1378) == "1378";
    assert NatToDecimal(13789) == "13789";
    assert NatToDecimal(137890) == "137890";
  }

  lemma NegativeLakhGroups()
    ensures Join(Groups("137890"), ",") == "1,37,890"
  {
    NegativeLakhPairs();
    assert "137890"[..3] == "137" && "137890"[3..] == "890";
    assert Groups("137890") == ["1", "37", "890"];
    NegativeLakhJoin();
  }

  lemma NegativeLakhPairs()
    ensures PairsFromRight("137") == ["1", "37"]
  {
    assert "137"[..1] == "1" && "137"[1..] == "37";
  }

  lemma NegativeLakhJoin()
    ensures Join(["1", "37", "890"], ",") == "1,37,890"
  {
    assert Join(["1"], ",") == "1";
    assert Join(["1", "37"], ",") == "1,37";
  }

  /** " 13,110.00 " reads as 13110.00. */
  lemma SpacedThousandsExample()
    ensures CleanCurrency(Some(" 13,110.00 ")) == 1311000
  {
    ThousandsRendering();
    SpacedThousandsStrip();
    ReadsStrippedAmount(" 13,110.00 ", 1311000);
  }

  /** Text that strips to the rendering of a non-negative amount reads as that amount. */
  lemma ReadsStrippedAmount(a: string, h: nat)
    requires Strip(a) == Grouped(h)
    ensures CleanCurrency(Some(a)) == h
  {
    CleanedGrouped(h);
    ReadsGrouped(h);
    ReadsLikeStripped(a, Grouped(h), h);
  }

  lemma ReadsGrouped(h: nat)
    ensures CleanCurrency(Some(Grouped(h))) == h
  {
    ReadsFormattedAmount(h);
    assert IndianCurrency(Some(h)) == Grouped(h);
  }

  lemma ReadsLikeStripped(a: string, b: string, v: int)
    requires Strip(a) == b && Strip(b) == b && CleanCurrency(Some(b)) == v
    ensures CleanCurrency(Some(a)) == v
  {
    CleanAfterStrip(a, b);
  }

  lemma ThousandsRendering()
    ensures Grouped(1311000) == "13,110.00"
  {
    ThousandsDigits();
    ThousandsGroups();
  }

  lemma ThousandsGroups()
    ensures Join(Groups("13110"), ",") == "13,110"
  {
    assert "13110"[..2] == "13" && "13110"[2..] == "110";
    assert PairsFromRight("13") == ["13"];
    assert Groups("13110") == ["13", "110"];
    assert Join(["13"], ",") == "13";
    assert Join(["13", "110"], ",") == "13,110";
  }

  lemma ThousandsDigits()
    ensures IntegerPart(1311000) == "13110" && FractionPart(1311000) == "00"
  {
    assert 1311000 / 100 == 13110 && 1311000 % 100 / 10 == 0 && 1311000 % 10 == 0;
    assert NatToDecimal(1) == "1";
    assert NatToDecimal(13) == "13";
    assert NatToDecimal(131) == "131";
    assert NatToDecimal(1311) == "1311";
    assert NatToDecimal(13110) == "13110";
  }

  lemma SpacedThousandsStrip()
    ensures Strip(" 13,110.00 ") == "13,110.00"
  {
    ThousandsTrimStart();
    ThousandsTrimEnd();
  }

  lemma ThousandsTrimStart()
    ensures TrimStart(" 13,110.00 ") == "13,110.00 "
  {
    var s := " 13,110.00 ";
    assert IsSpace(s[0]) && s[1..] == "13,110.00 ";
    assert !IsSpace('1');
  }

  lemma ThousandsTrimEnd()
    ensures TrimEnd("13,110.00 ") == "13,110.00"
  {
    assert "13,110.00 "[..9] == "13,110.00" && !IsSpace('0');
  }

  /** The dash used for zero reads as 0. */
  lemma DashExample()
    ensures CleanCurrency(Some(" -   ")) == 0
  {
    DashTrimStart();
    DashTrimEnd();
  }

  lemma DashTrimStart()
    ensures TrimStart(" -   ") == "-   "
  {
    var s := " -   ";
    assert IsSpace(s[0]) && s[1..] == "-   ";
    assert !IsSpace('-');
  }

  lemma DashTrimEnd()
    ensures TrimEnd("-   ") == "-"
  {
    assert "-   "[..3] == "-  " && "-  "[..2] == "- " && "- "[..1] == "-";
  }

  /** One row of the parsed trial balance. */
  datatype ParsedRow = ParsedRow(accountName: string, debit: int, credit: int, closingBalance: int)

  /** The sheet as the CSV reader yields it once the metadata rows above the header are
      skipped: the header and the rows of cells. */
  datatype Sheet = Sheet(header: seq<string>, rows: seq<seq<Cell>>)

  /** The header with every name stripped and lower-cased. */
  function NormalizedHeader(header: seq<string>): (r: seq<string>)
    ensures |r| == |header|
    ensures forall k :: 0 <= k < |header| ==> r[k] == Lower(Strip(header[k]))
  {
    seq(|header|, k requires 0 <= k < |header| => Lower(Strip(header[k])))
  }

  /** The position of the first column called `name`. */
  function ColumnIndex(columns: seq<string>, name: string): (r: Option<nat>)
    ensures r.Some? ==> r.value < |columns| && columns[r.value] == name
    ensures r.None? <==> name !in columns
    ensures r.Some? ==> name !in columns[..r.value]
  {
    if columns == [] then None
    else if columns[0] == name then Some(0)
    else
      match ColumnIndex(columns[1..], name)
      case None => None
      case Some(i) => Some(i + 1)
  }

  /** row.get(name, default): the row's cell under the column, or the default when the sheet
      has no such column. */
  function Field(columns: seq<string>, row: seq<Cell>, name: string, default: Cell): (r: Cell)
    ensures name !in columns ==> r == default
  {
    match ColumnIndex(columns, name)
    case None => default
    case Some(i) => if i < |row| then row[i] else None
  }

  /** For a column the sheet has, the cell read is the row's cell under the first column of that
      name, or a missing cell when the row is short. */
  lemma FieldMeans(columns: seq<string>, row: seq<Cell>, name: string, default: Cell)
    ensures name in columns ==>
      exists i :: && 0 <= i < |columns| && columns[i] == name && name !in columns[..i]
                  && Field(columns, row, name, default) == (if i < |row| then row[i] else None)
  {
    if name in columns {
      var i := ColumnIndex(columns, name).value;
      assert columns[i] == name && name !in columns[..i];
    }
  }

  /** The row's account name: the cell's text, stripped (a missing cell reads "nan"). */
  function RowName(columns: seq<string>, row: seq<Cell>): (r: string)
    ensures r == [] || (!IsSpace(r[0]) && !IsSpace(r[|r| - 1]))
    ensures "account name" !in columns ==> r == ""
  {
    Strip(CellText(Field(columns, row, "account name", Some(""))))
  }

  /** A blank name or a TOTAL line in any letter case is skipped. No character outside ASCII
      upper-cases to one of the letters of TOTAL, so the ASCII case mapping decides alike. */
  predicate IsSkipped(name: string)
    ensures IsSkipped(name) <==> name == "" || TotalLetters(name)
  {
    TotalInAnyCase(name);
    name == "" || Upper(name) == "TOTAL"
  }

  /** The five letters of "total", each in either case. */
  predicate TotalLetters(name: string) {
    && |name| == 5 && name[0] in "tT" && name[1] in "oO" && name[2] in "tT" && name[3] in "aA"
    && name[4] in "lL"
  }

  /** Upper-casing gives TOTAL exactly for the five letters of total in any mix of cases. */
  lemma TotalInAnyCase(name: string)
    ensures Upper(name) == "TOTAL" <==> TotalLetters(name)
  {
    if TotalLetters(name) {
      var u := Upper(name);
      forall k | 0 <= k < 5 ensures u[k] == "TOTAL"[k] {
        if IsAsciiLower(name[k]) {
          assert IsAsciiUpper(u[k]) && LowerChar(u[k]) == name[k];
        }
      }
    }
    if Upper(name) == "TOTAL" {
      var u := Upper(name);
      forall k | 0 <= k < 5 ensures name[k] in ["TOTAL"[k], LowerChar("TOTAL"[k])] {
        if IsAsciiLower(name[k]) {
          assert LowerChar(u[k]) == name[k];
        }
      }
    }
  }

  /** The row kept for a ledger line: the cleaned debit and credit, and the closing balance
      recomputed from them (a closing-balance column of the sheet is never read). */
  function RowOf(columns: seq<string>, row: seq<Cell>): (r: ParsedRow)
    ensures r.closingBalance == r.debit - r.credit
    ensures Field(columns, row, "debit", Some("0")) == None ==> r.debit == 0
    ensures Field(columns, row, "credit", Some("0")) == None ==> r.credit == 0
  {
    var debit := CleanCurrency(Field(columns, row, "debit", Some("0")));
    var credit := CleanCurrency(Field(columns, row, "credit", Some("0")));
    ParsedRow(RowName(columns, row), debit, credit, debit - credit)
  }

  /** What the loop makes of one line of the sheet: nothing when it is skipped, otherwise its
      row. */
  function LineOf(columns: seq<string>, row: seq<Cell>): (r: Option<ParsedRow>)
    ensures r.Some? ==> r.value.accountName == RowName(columns, row)
  {
    if IsSkipped(RowName(columns, row)) then None else Some(RowOf(columns, row))
  }

  /** What the loop makes of each line of the sheet, in order. */
  function Lines(columns: seq<string>, rows: seq<seq<Cell>>): (r: seq<Option<ParsedRow>>)
    ensures |r| == |rows|
  {
    MapEach(Reader(columns), rows)
  }

  lemma LinesAt(columns: seq<string>, rows: seq<seq<Cell>>, i: nat)
    requires i < |rows|
    ensures Lines(columns, rows)[i] == LineOf(columns, rows[i])
  {
  }

  /** LineOf for the given header, as a function of the row. */
  function Reader(columns: seq<string>): seq<Cell> -> Option<ParsedRow> {
    row => LineOf(columns, row)
  }

  /** The function applied to each element, in order. */
  function MapEach<T, U>(f: T -> U, s: seq<T>): (r: seq<U>)
    ensures |r| == |s| && forall i :: 0 <= i < |s| ==> r[i] == f(s[i])
  {
    seq(|s|, i requires 0 <= i < |s| => f(s[i]))
  }

  lemma MapEachAppend<T, U>(f: T -> U, a: seq<T>, b: seq<T>)
    ensures MapEach(f, a + b) == MapEach(f, a) + MapEach(f, b)
  {
    var whole, parts := MapEach(f, a + b), MapEach(f, a) + MapEach(f, b);
    forall i | 0 <= i < |a + b| ensures whole[i] == parts[i] {
      if i < |a| {
        assert (a + b)[i] == a[i];
      } else {
        assert (a + b)[i] == b[i - |a|];
      }
    }
  }

  /** The rows present in a sequence of optional rows, in order. */
  function Present(lines: seq<Option<ParsedRow>>): (r: seq<ParsedRow>)
    ensures |r| <= |lines|
  {
    if lines == [] then []
    else
      var init := Present(lines[..|lines| - 1]);
      match lines[|lines| - 1]
      case None => init
      case Some(x) => init + [x]
  }

  /** The rows the loop keeps, in sheet order. */
  function KeptRows(columns: seq<string>, rows: seq<seq<Cell>>): (r: seq<ParsedRow>)
    ensures |r| <= |rows|
  {
    Present(Lines(columns, rows))
  }

  /** parse_trial_balance from the sheet on: no rows at all without an "account name" column,
      otherwise the kept rows. */
  function TrialBalanceRows(sheet: Sheet): (r: seq<ParsedRow>)
    ensures "account name" !in NormalizedHeader(sheet.header) ==> r == []
  {
    var columns := NormalizedHeader(sheet.header);
    if "account name" !in columns then [] else KeptRows(columns, sheet.rows)
  }

  /** A row is present exactly when some line holds it. */
  lemma {:induction false} PresentMembership(lines: seq<Option<ParsedRow>>, x: ParsedRow)
    ensures x in Present(lines) <==> exists i :: 0 <= i < |lines| && lines[i] == Some(x)
  {
    if lines != [] {
      var n := |lines| - 1;
      var init := lines[..n];
      PresentMembership(init, x);
      if x in Present(init) {
        var i :| 0 <= i < |init| && init[i] == Some(x);
        assert lines[i] == init[i];
      }
      if exists i :: 0 <= i < |lines| && lines[i] == Some(x) {
        var i :| 0 <= i < |lines| && lines[i] == Some(x);
        if i < n {
          assert lines[i] == init[i];
        }
      }
    }
  }

  /** A row is kept exactly when it comes from a line whose name is neither blank nor TOTAL. */
  lemma KeptRowsMembership(columns: seq<string>, rows: seq<seq<Cell>>, x: ParsedRow)
    ensures x in KeptRows(columns, rows) <==>
      exists i :: 0 <= i < |rows| && !IsSkipped(RowName(columns, rows[i])) && x == RowOf(columns, rows[i])
  {
    var lines := Lines(columns, rows);
    PresentMembership(lines, x);
    forall i | 0 <= i < |rows|
      ensures lines[i] == Some(x) <==> !IsSkipped(RowName(columns, rows[i])) && x == RowOf(columns, rows[i])
    {
      LinesAt(columns, rows, i);
    }
  }

  /** A kept row carries its line's name, which is neither blank nor TOTAL, and a closing
      balance equal to its debit minus its credit. */
  lemma KeptRowShape(columns: seq<string>, rows: seq<seq<Cell>>, x: ParsedRow)
    requires x in KeptRows(columns, rows)
    ensures !IsSkipped(x.accountName) && x.closingBalance == x.debit - x.credit
  {
    KeptRowsMembership(columns, rows, x);
    var i :| 0 <= i < |rows| && !IsSkipped(RowName(columns, rows[i])) && x == RowOf(columns, rows[i]);
  }

  /** The rows of two stretches of lines are the rows of each, one after the other: the loop
      keeps the sheet's order. */
  lemma {:induction false} PresentAppend(a: seq<Option<ParsedRow>>, b: seq<Option<ParsedRow>>)
    ensures Present(a + b) == Present(a) + Present(b)
  {
    if b == [] {
      assert a + b == a;
    } else {
      var n := |b| - 1;
      PresentAppend(a, b[..n]);
      var ab := a + b;
      assert ab[..|ab| - 1] == a + b[..n];
      assert ab[|ab| - 1] == b[n];
      match b[n]
      case None =>
      case Some(x) =>
        assert Present(a) + Present(b[..n]) + [x] == Present(a) + (Present(b[..n]) + [x]);
    }
  }

  /** The kept rows of two stretches of the sheet are those of each, one after the other. */
  lemma KeptRowsAppend(columns: seq<string>, a: seq<seq<Cell>>, b: seq<seq<Cell>>)
    ensures KeptRows(columns, a + b) == KeptRows(columns, a) + KeptRows(columns, b)
  {
    LinesAppend(columns, a, b);
    PresentAppend(Lines(columns, a), Lines(columns, b));
  }

  lemma LinesAppend(columns: seq<string>, a: seq<seq<Cell>>, b: seq<seq<Cell>>)
    ensures Lines(columns, a + b) == Lines(columns, a) + Lines(columns, b)
  {
    MapEachAppend(Reader(columns), a, b);
  }

  /** The row loop of parse_trial_balance over the sheet's rows. */
  method ParseTrialBalance(sheet: Sheet) returns (results: seq<ParsedRow>)
    ensures results == TrialBalanceRows(sheet)
  {
    var columns := NormalizedHeader(sheet.header);
    if "account name" !in columns {
      return [];
    }
    results := [];
    for i := 0 to |sheet.rows|
      invariant results == Present(Lines(columns, sheet.rows)[..i])
    {
      var line := ReadLine(columns, sheet.rows[i]);
      LinesAt(columns, sheet.rows, i);
      PresentStep(Lines(columns, sheet.rows), i);
      if line.Some? {
        results := results + [line.value];
      }
    }
    AllLines(sheet, columns);
  }

  lemma AllLines(sheet: Sheet, columns: seq<string>)
    requires columns == NormalizedHeader(sheet.header) && "account name" in columns
    ensures TrialBalanceRows(sheet) == Present(Lines(columns, sheet.rows)[..|sheet.rows|])
  {
    assert Lines(columns, sheet.rows)[..|sheet.rows|] == Lines(columns, sheet.rows);
  }

  /** The loop body for one line: a blank or TOTAL name skips it; otherwise the row is the
      cleaned debit and credit with the closing balance recomputed from them. */
  method ReadLine(columns: seq<string>, row: seq<Cell>) returns (line: Option<ParsedRow>)
    ensures line == LineOf(columns, row)
  {
    var name := Strip(CellText(Field(columns, row, "account name", Some(""))));
    if IsSkipped(name) {
      LineSkipped(columns, row, name);
      return None;
    }
    var debit := CleanCurrency(Field(columns, row, "debit", Some("0")));
    var credit := CleanCurrency(Field(columns, row, "credit", Some("0")));
    var closingBalance := debit - credit;
    line := Some(ParsedRow(name, debit, credit, closingBalance));
    LineKept(columns, row, line.value);
  }

  lemma LineKept(columns: seq<string>, row: seq<Cell>, x: ParsedRow)
    requires x.accountName == RowName(columns, row) && !IsSkipped(x.accountName)
    requires x.debit == CleanCurrency(Field(columns, row, "debit", Some("0")))
    requires x.credit == CleanCurrency(Field(columns, row, "credit", Some("0")))
    requires x.closingBalance == x.debit - x.credit
    ensures LineOf(columns, row) == Some(x)
  {
    LineOfKept(columns, row);
    RowOfFields(columns, row, x);
  }

  lemma LineSkipped(columns: seq<string>, row: seq<Cell>, name: string)
    requires name == RowName(columns, row) && IsSkipped(name)
    ensures LineOf(columns, row) == None
  {
  }

  lemma LineOfKept(columns: seq<string>, row: seq<Cell>)
    requires !IsSkipped(RowName(columns, row))
    ensures LineOf(columns, row) == Some(RowOf(columns, row))
  {
  }

  lemma RowOfFields(columns: seq<string>, row: seq<Cell>, x: ParsedRow)
    requires x.accountName == RowName(columns, row)
    requires x.debit == CleanCurrency(Field(columns, row, "debit", Some("0")))
    requires x.credit == CleanCurrency(Field(columns, row, "credit", Some("0")))
    requires x.closingBalance == x.debit - x.credit
    ensures RowOf(columns, row) == x
  {
  }

  /** One more line adds its row, if it has one, after the rows before it. */
  lemma PresentStep(lines: seq<Option<ParsedRow>>, i: nat)
    requires i < |lines|
    ensures lines[i].None? ==> Present(lines[..i + 1]) == Present(lines[..i])
    ensures lines[i].Some? ==> Present(lines[..i + 1]) == Present(lines[..i]) + [lines[i].value]
  {
    assert lines[..i + 1][..i] == lines[..i];
  }
}

=== FILE: derived_metrics.dfy ===
/** _calculate_derived_balances: the fixed statement figures written into the balance map
    under reserved keys, computed from the totals of fixed account heads. */
module DerivedMetrics {
  import opened Rollup

  // The account heads the figures read (an absent head reads as 0).
  const TotalAssets := 1
  const TotalLiabilities := 61
  const TotalEquity := 81
  const TotalIncome := 4
  const TotalExpenses := 11
  const Depreciation := 9991
  const InterestExpense := 38
  const InterestIncome := 6
  const Taxes := 9995
  const PurchaseOfFixedAssets := 55
  const SaleOfFixedAssets := 9996
  const LongTermBorrowings := 9902
  const ShortTermBorrowings := 88

  // The working-capital heads whose changes enter the cash generated from operations.
  const TradeReceivables := 62
  const Inventories := 52
  const OtherCurrentAssets := 57
  const TradePayables := 74

  // The keys the figures are written under.
  const EquityAndLiabilities := 999
  const AssetsTotal := 1000
  const IncomeTotal := 1001
  const ExpensesTotal := 1002
  const ProfitBeforeTax := 1003
  const OperatingProfit := 2001
  const CashFromOperationsBeforeTax := 2002
  const NetCashFromOperations := 2003
  const NetCashFromInvesting := 2004
  const NetCashFromFinancing := 2005
  const NetCashFlow := 2006

  /** The reserved keys: 999, 1000 to 1003 and 2001 to 2006. */
  predicate IsDerivedKey(k: int)
    ensures IsDerivedKey(k) ==> !IsInputKey(k)
  {
    k == 999 || 1000 <= k <= 1003 || 2001 <= k <= 2006
  }

  /** The heads the figures read. */
  predicate IsInputKey(k: int) {
    k in {1, 61, 81, 4, 11, 9991, 38, 6, 62, 52, 57, 74, 9995, 55, 9996, 9902, 88}
  }

  /** The reference definition: each figure written out directly in terms of the input heads. */
  function Figure(b: map<int, int>, k: int): (r: int)
    requires IsDerivedKey(k)
    ensures b == map[] ==> r == 0
  {
    var pbt := Get(b, TotalIncome) + Get(b, TotalExpenses);
    var wc := Get(b, TradeReceivables) + Get(b, Inventories) + Get(b, OtherCurrentAssets) + Get(b, TradePayables);
    var operating := pbt + Get(b, Depreciation) + Get(b, InterestExpense) - Get(b, InterestIncome);
    var investing := Get(b, SaleOfFixedAssets) + Get(b, InterestIncome) - Get(b, PurchaseOfFixedAssets);
    var financing := Get(b, LongTermBorrowings) + Get(b, ShortTermBorrowings) - Get(b, InterestExpense);
    if k == EquityAndLiabilities then Get(b, TotalEquity) + Get(b, TotalLiabilities)
    else if k == AssetsTotal then Get(b, TotalAssets)
    else if k == IncomeTotal then Get(b, TotalIncome)
    else if k == ExpensesTotal then Get(b, TotalExpenses)
    else if k == ProfitBeforeTax then pbt
    else if k == OperatingProfit then operating
    else if k == CashFromOperationsBeforeTax then operating + wc
    else if k == NetCashFromOperations then operating + wc - Get(b, Taxes)
    else if k == NetCashFromInvesting then investing
    else if k == NetCashFromFinancing then financing
    else operating + wc - Get(b, Taxes) + investing + financing
  }

  /** The balance map after the figures are written into it. */
  function WithDerived(b: map<int, int>): (r: map<int, int>)
    ensures forall k :: k in r <==> k in b || IsDerivedKey(k)
  {
    map k | k in b.Keys + {999, 1000, 1001, 1002, 1003, 2001, 2002, 2003, 2004, 2005, 2006} :: if IsDerivedKey(k) then Figure(b, k) else b[k]
  }

  /** _calculate_derived_balances: reads the input heads and writes the figures one key at a
      time, later figures built on earlier ones. The dictionary updated in place is modelled as
      the map returned. */
  method CalculateDerivedBalances(balances: map<int, int>) returns (updated: map<int, int>)
    ensures forall k :: k in updated <==> k in balances || IsDerivedKey(k)
    ensures forall k :: k in balances && !IsDerivedKey(k) ==> updated[k] == balances[k]
    ensures forall k :: IsDerivedKey(k) ==> updated[k] == Figure(balances, k)
  {
    updated := balances;
    var totalAssets := Get(updated, 1);
    var totalLiabilities := Get(updated, 61);
    var totalEquity := Get(updated, 81);
    var totalIncome := Get(updated, 4);
    var totalExpenses := Get(updated, 11);

    updated := updated[999 := totalEquity + totalLiabilities];
    updated := updated[1000 := totalAssets];
    updated := updated[1001 := totalIncome];
    updated := updated[1002 := totalExpenses];
    var pbt := totalIncome + totalExpenses;
    updated := updated[1003 := pbt];

    var depreciation := Get(updated, 9991);
    var interestExp := Get(updated, 38);
    var interestInc := Get(updated, 6);
    var opProfit := pbt + depreciation + interestExp - interestInc;
    updated := updated[2001 := opProfit];

    var wcChanges := Get(updated, 62) + Get(updated, 52) + Get(updated, 57) + Get(updated, 74);
    var cashGen := opProfit + wcChanges;
    updated := updated[2002 := cashGen];

    var taxes := Get(updated, 9995);
    updated := updated[2003 := cashGen - taxes];

    var purchaseFa := Get(updated, 55);
    var saleFa := Get(updated, 9996);
    updated := updated[2004 := saleFa + interestInc - purchaseFa];

    var longTermBor := Get(updated, 9902);
    var shortTermBor := Get(updated, 88);
    updated := updated[2005 := longTermBor + shortTermBor - interestExp];

    updated := updated[2006 := updated[2003] + updated[2004] + updated[2005]];
    FiguresAt(balances, updated);
  }

  /** The figures, computed one after another, agree with the reference definition. */
  lemma FiguresAt(b: map<int, int>, u: map<int, int>)
    requires 999 in u && 1000 in u && 1001 in u && 1002 in u && 1003 in u
    requires 2001 in u && 2002 in u && 2003 in u && 2004 in u && 2005 in u && 2006 in u
    requires u[999] == Get(b, 81) + Get(b, 61) && u[1000] == Get(b, 1)
    requires u[1001] == Get(b, 4) && u[1002] == Get(b, 11) && u[1003] == Get(b, 4) + Get(b, 11)
    requires u[2001] == u[1003] + Get(b, 9991) + Get(b, 38) - Get(b, 6)
    requires u[2002] == u[2001] + Get(b, 62) + Get(b, 52) + Get(b, 57) + Get(b, 74)
    requires u[2003] == u[2002] - Get(b, 9995)
    requires u[2004] == Get(b, 9996) + Get(b, 6) - Get(b, 55)
    requires u[2005] == Get(b, 9902) + Get(b, 88) - Get(b, 38)
    requires u[2006] == u[2003] + u[2004] + u[2005]
    ensures forall k :: IsDerivedKey(k) ==> k in u && u[k] == Figure(b, k)
  {
  }

  /** A map that meets the method's postcondition is the reference map: the lemmas about
      WithDerived below apply to the method's result. */
  lemma ResultIsWithDerived(b: map<int, int>, u: map<int, int>)
    requires forall k :: k in u <==> k in b || IsDerivedKey(k)
    requires forall k :: k in b && !IsDerivedKey(k) ==> u[k] == b[k]
    requires forall k :: IsDerivedKey(k) ==> u[k] == Figure(b, k)
    ensures u == WithDerived(b)
  {
    var w := WithDerived(b);
    forall k | k in u ensures k in w && u[k] == w[k] {
    }
    assert u.Keys == w.Keys;
  }

  /** Only the reserved keys are written: every other key keeps its presence and its value. */
  lemma OtherKeysUnchanged(b: map<int, int>, k: int)
    requires !IsDerivedKey(k)
    ensures k in WithDerived(b) <==> k in b
    ensures k in b ==> WithDerived(b)[k] == b[k]
  {
  }

  /** No input head is a reserved key, so writing the figures a second time changes nothing. */
  lemma DerivedIdempotent(b: map<int, int>)
    ensures WithDerived(WithDerived(b)) == WithDerived(b)
  {
    var once := WithDerived(b);
    var twice := WithDerived(once);
    forall k | IsInputKey(k) ensures Get(once, k) == Get(b, k) {
      OtherKeysUnchanged(b, k);
    }
    forall k | k in twice ensures twice[k] == once[k] {
      if IsDerivedKey(k) {
        SameInputsSameFigure(once, b, k);
      }
    }
  }

  /** A figure depends on the input heads only. */
  lemma SameInputsSameFigure(b1: map<int, int>, b2: map<int, int>, k: int)
    requires IsDerivedKey(k)
    requires forall h :: IsInputKey(h) ==> Get(b1, h) == Get(b2, h)
    ensures Figure(b1, k) == Figure(b2, k)
  {
    assert Get(b1, 1) == Get(b2, 1) && Get(b1, 61) == Get(b2, 61) && Get(b1, 81) == Get(b2, 81);
    assert Get(b1, 4) == Get(b2, 4) && Get(b1, 11) == Get(b2, 11) && Get(b1, 9991) == Get(b2, 9991);
    assert Get(b1, 38) == Get(b2, 38) && Get(b1, 6) == Get(b2, 6) && Get(b1, 62) == Get(b2, 62);
    assert Get(b1, 52) == Get(b2, 52) && Get(b1, 57) == Get(b2, 57) && Get(b1, 74) == Get(b2, 74);
    assert Get(b1, 9995) == Get(b2, 9995) && Get(b1, 55) == Get(b2, 55) && Get(b1, 9996) == Get(b2, 9996);
    assert Get(b1, 9902) == Get(b2, 9902) && Get(b1, 88) == Get(b2, 88);
  }

  /** With every input head at zero (or absent), every figure is zero. */
  lemma ZeroHeadsZeroFigures(b: map<int, int>, k: int)
    requires IsDerivedKey(k)
    requires forall h :: IsInputKey(h) ==> Get(b, h) == 0
    ensures Figure(b, k) == 0
  {
    SameInputsSameFigure(b, map[], k);
  }

  /** The cash-flow figures chain as the statement lays them out: operating profit from profit
      before tax, cash generated after working-capital changes, and the net cash flow as the sum
      of the operating, investing and financing sections. */
  lemma CashFlowChain(b: map<int, int>)
    ensures var d := WithDerived(b);
      && d[1003] == d[1001] + d[1002]
      && d[2001] == d[1003] + Get(b, Depreciation) + Get(b, InterestExpense) - Get(b, InterestIncome)
      && d[2002] == d[2001] + Get(b, TradeReceivables) + Get(b, Inventories) + Get(b, OtherCurrentAssets)
                        + Get(b, TradePayables)
      && d[2003] == d[2002] - Get(b, Taxes)
      && d[2006] == d[2003] + d[2004] + d[2005]
  {
  }

  /** Interest is counted twice over and cancels: it is added back in the operating section and
      moved to the investing and financing sections, so it leaves the net cash flow. */
  lemma InterestCancels(b: map<int, int>, i: int, e: int)
    requires InterestIncome !in b && InterestExpense !in b
    ensures WithDerived(b[InterestIncome := i][InterestExpense := e])[NetCashFlow] == WithDerived(b)[NetCashFlow]
  {
  }

  /** With books that balance (assets + liabilities + equity == 0 under the debit-minus-credit
      sign convention), the equity-and-liabilities figure is the negated assets figure. */
  lemma BalancedBooks(b: map<int, int>)
    requires Get(b, TotalAssets) + Get(b, TotalLiabilities) + Get(b, TotalEquity) == 0
    ensures WithDerived(b)[EquityAndLiabilities] == -WithDerived(b)[AssetsTotal]
  {
  }

  /** A map without any of the input heads yields zero for every figure. */
  lemma AbsentHeadsReadZero(b: map<int, int>)
    requires forall k :: IsInputKey(k) ==> k !in b
    ensures forall k :: IsDerivedKey(k) ==> WithDerived(b)[k] == 0
  {
  }
}

=== FILE: domain.dfy ===
/** The enums and tables of the data model: accounts in a self-referential chart, financial
    works, trial-balance entries and the mapping rows that link an entry to a sub-head account.
    Amounts are integers in hundredths (the columns are Numeric(15,2)). */
module Domain {
  import opened Wrappers

  datatype WorkStatus = Pending | InProgress | Completed {
    function Name(): string {
      match this
      case Pending => "PENDING"
      case InProgress => "IN_PROGRESS"
      case Completed => "COMPLETED"
    }
  }

  datatype AccountType = Category | Head | SubHead {
    function Name(): string {
      match this
      case Category => "CATEGORY"
      case Head => "HEAD"
      case SubHead => "SUB_HEAD"
    }
  }

  datatype CategoryType = Asset | Liability | Equity | Income | Expense {
    function Name(): string {
      match this
      case Asset => "ASSET"
      case Liability => "LIABILITY"
      case Equity => "EQUITY"
      case Income => "INCOME"
      case Expense => "EXPENSE"
    }
  }

  /** The status value a work is created with. */
  const DefaultWorkStatus: WorkStatus := Pending

  /** Looks a stored status string up among the enum's values. */
  function ParseWorkStatus(s: string): (r: Option<WorkStatus>)
    ensures r.Some? <==> s in {"PENDING", "IN_PROGRESS", "COMPLETED"}
    ensures r.Some? ==> r.value.Name() == s
    ensures forall st: WorkStatus :: st.Name() == s ==> r == Some(st)
  {
    if s == "PENDING" then Some(Pending)
    else if s == "IN_PROGRESS" then Some(InProgress)
    else if s == "COMPLETED" then Some(Completed)
    else None
  }

  /** Looks a stored account-type string up among the enum's values. */
  function ParseAccountType(s: string): (r: Option<AccountType>)
    ensures r.Some? <==> s in {"CATEGORY", "HEAD", "SUB_HEAD"}
    ensures r.Some? ==> r.value.Name() == s
    ensures forall t: AccountType :: t.Name() == s ==> r == Some(t)
  {
    if s == "CATEGORY" then Some(Category)
    else if s == "HEAD" then Some(Head)
    else if s == "SUB_HEAD" then Some(SubHead)
    else None
  }

  /** Looks a stored category string up among the enum's values. */
  function ParseCategoryType(s: string): (r: Option<CategoryType>)
    ensures r.Some? <==> s in {"ASSET", "LIABILITY", "EQUITY", "INCOME", "EXPENSE"}
    ensures r.Some? ==> r.value.Name() == s
    ensures forall t: CategoryType :: t.Name() == s ==> r == Some(t)
  {
    if s == "ASSET" then Some(Asset)
    else if s == "LIABILITY" then Some(Liability)
    else if s == "EQUITY" then Some(Equity)
    else if s == "INCOME" then Some(Income)
    else if s == "EXPENSE" then Some(Expense)
    else None
  }

  datatype FinancialWork = FinancialWork(id: int, companyId: int, status: string)

  /** A node of the chart of accounts. The type and category are stored as strings (the
      columns are plain String); roots have no parent. */
  datatype Account = Account(id: int, name: string, accountType: string, categoryType: string,
                             parentId: Option<int>)

  /** One uploaded ledger line; it belongs to exactly one work. */
  datatype TrialBalanceEntry = TrialBalanceEntry(id: int, workId: int, accountName: string,
                                                 debit: int, credit: int, closingBalance: int)

  /** The link from one trial-balance entry to one account (by id, never null). */
  datatype MappedLedgerEntry = MappedLedgerEntry(id: int, entryId: int, accountId: int)

  predicate AccountIdsUnique(accounts: seq<Account>) {
    forall i, j :: 0 <= i < j < |accounts| ==> accounts[i].id != accounts[j].id
  }

  predicate EntryIdsUnique(entries: seq<TrialBalanceEntry>) {
    forall i, j :: 0 <= i < j < |entries| ==> entries[i].id != entries[j].id
  }

  predicate MappingIdsUnique(mappings: seq<MappedLedgerEntry>) {
    forall i, j :: 0 <= i < j < |mappings| ==> mappings[i].id != mappings[j].id
  }

  /** The unique constraint on the mapping's entry reference: at most one mapping per entry. */
  predicate MappingEntryRefsUnique(mappings: seq<MappedLedgerEntry>) {
    forall i, j :: 0 <= i < j < |mappings| ==> mappings[i].entryId != mappings[j].entryId
  }

  /** The position of the first mapping row whose entry reference is `entryId`, if any. */
  function FindMapping(mappings: seq<MappedLedgerEntry>, entryId: int): (r: Option<nat>)
    ensures r.Some? ==> r.value < |mappings| && mappings[r.value].entryId == entryId
    ensures r.Some? ==> forall j :: 0 <= j < r.value ==> mappings[j].entryId != entryId
    ensures r.None? ==> forall j :: 0 <= j < |mappings| ==> mappings[j].entryId != entryId
  {
    if mappings == [] then None
    else if mappings[0].entryId == entryId then Some(0)
    else
      match FindMapping(mappings[1..], entryId)
      case None => None
      case Some(k) => Some(k + 1)
  }

  /** The first work with the given id, as the query's `.first()` returns it. */
  function FindWork(works: seq<FinancialWork>, id: int): (r: Option<FinancialWork>)
    ensures r.Some? ==> r.value in works && r.value.id == id
    ensures r.None? <==> forall w :: w in works ==> w.id != id
  {
    if works == [] then None
    else if works[0].id == id then Some(works[0])
    else FindWork(works[1..], id)
  }

  /** The first account with the given id. */
  function FindAccount(accounts: seq<Account>, id: int): (r: Option<Account>)
    ensures r.Some? ==> r.value in accounts && r.value.id == id
    ensures r.None? <==> forall a :: a in accounts ==> a.id != id
  {
    if accounts == [] then None
    else if accounts[0].id == id then Some(accounts[0])
    else FindAccount(accounts[1..], id)
  }

  /** The first trial-balance entry with the given id. */
  function FindEntry(entries: seq<TrialBalanceEntry>, id: int): (r: Option<TrialBalanceEntry>)
    ensures r.Some? ==> r.value in entries && r.value.id == id
    ensures r.None? <==> forall e :: e in entries ==> e.id != id
  {
    if entries == [] then None
    else if entries[0].id == id then Some(entries[0])
    else FindEntry(entries[1..], id)
  }

  /** The account an entry is mapped to (the entry's one-to-one `mapping` relationship). */
  function TargetOf(mappings: seq<MappedLedgerEntry>, entryId: int): (r: Option<int>)
    ensures r.None? <==> forall m :: m in mappings ==> m.entryId != entryId
    ensures r.Some? ==> exists m :: m in mappings && m.entryId == entryId && m.accountId == r.value
  {
    match FindMapping(mappings, entryId)
    case None => None
    case Some(i) => assert mappings[i] in mappings; Some(mappings[i].accountId)
  }

  /** Appending a mapping row changes the target of its own entry only, and only when that
      entry had no row before. */
  lemma TargetOfSnoc(mappings: seq<MappedLedgerEntry>, m: MappedLedgerEntry, entryId: int)
    ensures TargetOf(mappings + [m], entryId) ==
      if TargetOf(mappings, entryId).None? && m.entryId == entryId then Some(m.accountId)
      else TargetOf(mappings, entryId)
  {
    var all := mappings + [m];
    var r := FindMapping(all, entryId);
    var r0 := FindMapping(mappings, entryId);
    if r0.Some? {
      assert all[r0.value] == mappings[r0.value];
      assert r.Some? && r.value <= r0.value;
      assert r.value == r0.value;
    } else if m.entryId == entryId {
      assert all[|mappings|] == m;
      assert r == Some(|mappings|);
    } else {
      assert forall j :: 0 <= j < |all| ==> all[j].entryId != entryId;
    }
  }

  /** The tables of the database. The `next...Id` fields are the identity sequences: every
      stored id lies below them and a new row takes the next one. */
  class Database {
    var works: seq<FinancialWork>
    var accounts: seq<Account>
    var entries: seq<TrialBalanceEntry>
    var mappings: seq<MappedLedgerEntry>
    var nextAccountId: int
    var nextEntryId: int
    var nextMappingId: int

    ghost predicate Valid()
      reads this
    {
      && 1 <= nextAccountId && 1 <= nextEntryId && 1 <= nextMappingId
      && AccountIdsUnique(accounts)
      && (forall a :: a in accounts ==> 1 <= a.id < nextAccountId)
      && EntryIdsUnique(entries)
      && (forall e :: e in entries ==> 1 <= e.id < nextEntryId)
      && MappingIdsUnique(mappings)
      && MappingEntryRefsUnique(mappings)
      && (forall m :: m in mappings ==> 1 <= m.id < nextMappingId && m.entryId < nextEntryId)
    }

    constructor ()
      ensures Valid()
      ensures works == [] && accounts == [] && entries == [] && mappings == []
    {
      works, accounts, entries, mappings := [], [], [], [];
      nextAccountId, nextEntryId, nextMappingId := 1, 1, 1;
    }
  }
}

=== FILE: leaf_sums.dfy ===
/** The own balances of the accounts for one work: the grouped sum of the closing balances of
    the mapped entries, read into a map that starts at 0 for every account. */
module LeafSums {
  import opened Wrappers
  import opened Domain
  import opened Chart

  // ---------------------------------------------------------------------------------------
  // Leaf sums: SUM(closing_balance) of mapped entries of one work, grouped by target account
  // ---------------------------------------------------------------------------------------

  /** The inner side of the join for one mapping row: closing balances of the entries of work
      `w` whose id is `entryId`. */
  function MatchSum(entries: seq<TrialBalanceEntry>, entryId: int, w: int): (r: int)
    ensures (forall k :: 0 <= k < |entries| ==> entries[k].id != entryId || entries[k].workId != w) ==> r == 0
  {
    if entries == [] then 0
    else
      var e := entries[|entries| - 1];
      MatchSum(entries[..|entries| - 1], entryId, w)
        + (if e.id == entryId && e.workId == w then e.closingBalance else 0)
  }

  /** The aggregate of the group of account `a`: the join of mapping rows with entries of work
      `w`, summed over the rows that target `a`. */
  function JoinSum(entries: seq<TrialBalanceEntry>, mappings: seq<MappedLedgerEntry>, w: int, a: int): (r: int)
    ensures (forall k :: 0 <= k < |mappings| ==> mappings[k].accountId != a) ==> r == 0
  {
    if mappings == [] then 0
    else
      var m := mappings[|mappings| - 1];
      JoinSum(entries, mappings[..|mappings| - 1], w, a)
        + (if m.accountId == a then MatchSum(entries, m.entryId, w) else 0)
  }

  /** A mapping row takes part in the join when some entry of work `w` has its entry id. */
  predicate Joins(entries: seq<TrialBalanceEntry>, m: MappedLedgerEntry, w: int) {
    exists e :: e in entries && e.id == m.entryId && e.workId == w
  }

  /** The groups the query returns: targets of mapping rows that join some entry of work `w`. */
  function JoinedAccounts(entries: seq<TrialBalanceEntry>, mappings: seq<MappedLedgerEntry>, w: int): set<int> {
    set m | m in mappings && Joins(entries, m, w) :: m.accountId
  }

  /** The groups in the order of their first joined mapping row: each group once. */
  function JoinedTargets(entries: seq<TrialBalanceEntry>, mappings: seq<MappedLedgerEntry>, w: int): (r: seq<int>)
    ensures forall i, j :: 0 <= i < j < |r| ==> r[i] != r[j]
    ensures forall a :: a in r <==> a in JoinedAccounts(entries, mappings, w)
  {
    if mappings == [] then []
    else
      var ms, m := mappings[..|mappings| - 1], mappings[|mappings| - 1];
      var prev := JoinedTargets(entries, ms, w);
      assert mappings == ms + [m];
      assert JoinedAccounts(entries, mappings, w) ==
        JoinedAccounts(entries, ms, w) + (if Joins(entries, m, w) then {m.accountId} else {});
      if Joins(entries, m, w) && m.accountId !in prev then prev + [m.accountId] else prev
  }

  /** The rows of the grouped query: one (account, sum) row per group. */
  function QueryRows(entries: seq<TrialBalanceEntry>, mappings: seq<MappedLedgerEntry>, w: int): (rows: seq<(int, int)>)
    ensures forall i, j :: 0 <= i < j < |rows| ==> rows[i].0 != rows[j].0
    ensures forall a :: (exists k :: 0 <= k < |rows| && rows[k].0 == a) <==> a in JoinedAccounts(entries, mappings, w)
    ensures forall k :: 0 <= k < |rows| ==> rows[k].1 == JoinSum(entries, mappings, w, rows[k].0)
  {
    var targets := JoinedTargets(entries, mappings, w);
    var rows := seq(|targets|, k requires 0 <= k < |targets| => (targets[k], JoinSum(entries, mappings, w, targets[k])));
    assert forall k :: 0 <= k < |rows| ==> rows[k].0 == targets[k];
    assert forall a :: (exists k :: 0 <= k < |rows| && rows[k].0 == a) <==> a in targets;
    rows
  }

  /** The value a loop over `rows` leaves for account `a` when it starts from 0 and each row
      overwrites its account's value: the total of the last row for `a`, or 0. */
  function RowTotal(rows: seq<(int, int)>, a: int): (r: int)
    ensures (forall k :: 0 <= k < |rows| ==> rows[k].0 != a) ==> r == 0
    ensures r != 0 ==> exists k :: 0 <= k < |rows| && rows[k] == (a, r)
  {
    if rows == [] then 0
    else if rows[|rows| - 1].0 == a then rows[|rows| - 1].1
    else RowTotal(rows[..|rows| - 1], a)
  }

  /** With one row per account, an account's row total is its row's value, or 0 without a row. */
  lemma {:induction false} RowTotalOfDistinct(rows: seq<(int, int)>, a: int)
    requires forall i, j :: 0 <= i < j < |rows| ==> rows[i].0 != rows[j].0
    ensures forall k :: 0 <= k < |rows| && rows[k].0 == a ==> RowTotal(rows, a) == rows[k].1
    ensures (forall k :: 0 <= k < |rows| ==> rows[k].0 != a) ==> RowTotal(rows, a) == 0
  {
    if rows != [] {
      var init := rows[..|rows| - 1];
      RowTotalOfDistinct(init, a);
      forall k | 0 <= k < |init| ensures init[k] == rows[k] { }
    }
  }

  /** The reference definition of an account's own balance: every entry of work `w` whose
      mapping targets `a` contributes its closing balance, and no other entry contributes. */
  function EntrySum(entries: seq<TrialBalanceEntry>, mappings: seq<MappedLedgerEntry>, w: int, a: int): (r: int)
    ensures (forall k :: 0 <= k < |entries| ==> entries[k].workId != w) ==> r == 0
    ensures (forall k :: 0 <= k < |entries| ==> TargetOf(mappings, entries[k].id) != Some(a)) ==> r == 0
  {
    if entries == [] then 0
    else
      var e := entries[|entries| - 1];
      EntrySum(entries[..|entries| - 1], mappings, w, a)
        + (if e.workId == w && TargetOf(mappings, e.id) == Some(a) then e.closingBalance else 0)
  }

  lemma {:induction false} EntrySumNoMappings(entries: seq<TrialBalanceEntry>, w: int, a: int)
    ensures EntrySum(entries, [], w, a) == 0
  {
    if entries != [] {
      EntrySumNoMappings(entries[..|entries| - 1], w, a);
    }
  }

  /** Appending a mapping row for an entry id no earlier row maps adds that row's group share. */
  lemma {:induction false} EntrySumSnocMapping(entries: seq<TrialBalanceEntry>, ms: seq<MappedLedgerEntry>,
                                               m: MappedLedgerEntry, w: int, a: int)
    requires forall j :: 0 <= j < |ms| ==> ms[j].entryId != m.entryId
    ensures EntrySum(entries, ms + [m], w, a) ==
      EntrySum(entries, ms, w, a) + (if m.accountId == a then MatchSum(entries, m.entryId, w) else 0)
  {
    if entries != [] {
      var e := entries[|entries| - 1];
      EntrySumSnocMapping(entries[..|entries| - 1], ms, m, w, a);
      TargetOfSnoc(ms, m, e.id);
    }
  }

  /** The join-and-group sum equals the reference definition when each entry has at most one
      mapping row (the unique constraint on the entry reference). */
  lemma {:induction false} JoinSumIsEntrySum(entries: seq<TrialBalanceEntry>, mappings: seq<MappedLedgerEntry>,
                                             w: int, a: int)
    requires MappingEntryRefsUnique(mappings)
    ensures JoinSum(entries, mappings, w, a) == EntrySum(entries, mappings, w, a)
  {
    if mappings == [] {
      EntrySumNoMappings(entries, w, a);
    } else {
      var ms, m := mappings[..|mappings| - 1], mappings[|mappings| - 1];
      assert mappings == ms + [m];
      JoinSumIsEntrySum(entries, ms, w, a);
      EntrySumSnocMapping(entries, ms, m, w, a);
    }
  }

  lemma {:induction false} MatchSumNoMatch(entries: seq<TrialBalanceEntry>, entryId: int, w: int)
    requires forall e :: e in entries ==> !(e.id == entryId && e.workId == w)
    ensures MatchSum(entries, entryId, w) == 0
  {
    if entries != [] {
      MatchSumNoMatch(entries[..|entries| - 1], entryId, w);
    }
  }

  /** An account that no joined mapping row targets has sum 0. */
  lemma {:induction false} JoinSumOutsideGroups(entries: seq<TrialBalanceEntry>, mappings: seq<MappedLedgerEntry>,
                                                w: int, a: int)
    requires a !in JoinedAccounts(entries, mappings, w)
    ensures JoinSum(entries, mappings, w, a) == 0
  {
    if mappings != [] {
      var ms, m := mappings[..|mappings| - 1], mappings[|mappings| - 1];
      assert forall x :: x in ms ==> x in mappings;
      assert JoinedAccounts(entries, ms, w) <= JoinedAccounts(entries, mappings, w);
      JoinSumOutsideGroups(entries, ms, w, a);
      if m.accountId == a {
        MatchSumNoMatch(entries, m.entryId, w);
      }
    }
  }

  /** Reading the query rows with default 0 gives the reference own balance of every account. */
  lemma LeafTotalIsEntrySum(entries: seq<TrialBalanceEntry>, mappings: seq<MappedLedgerEntry>, w: int, a: int)
    requires MappingEntryRefsUnique(mappings)
    ensures RowTotal(QueryRows(entries, mappings, w), a) == EntrySum(entries, mappings, w, a)
  {
    var rows := QueryRows(entries, mappings, w);
    JoinSumIsEntrySum(entries, mappings, w, a);
    RowTotalOfDistinct(rows, a);
    if a !in JoinedAccounts(entries, mappings, w) {
      JoinSumOutsideGroups(entries, mappings, w, a);
    } else {
      var k :| 0 <= k < |rows| && rows[k].0 == a;
    }
  }

  /** An entry with no mapping row, or of another work, never changes any own balance. */
  lemma UnmappedEntryContributesNothing(entries: seq<TrialBalanceEntry>, mappings: seq<MappedLedgerEntry>,
                                        e: TrialBalanceEntry, w: int, a: int)
    requires e.workId != w || TargetOf(mappings, e.id).None?
    ensures EntrySum(entries + [e], mappings, w, a) == EntrySum(entries, mappings, w, a)
  {
    assert (entries + [e])[..|entries|] == entries;
  }

  /** A mapped entry of the work adds exactly its closing balance to its target and nothing
      to any other account. */
  lemma MappedEntryContributesToTarget(entries: seq<TrialBalanceEntry>, mappings: seq<MappedLedgerEntry>,
                                       e: TrialBalanceEntry, w: int, t: int, a: int)
    requires e.workId == w && TargetOf(mappings, e.id) == Some(t)
    ensures EntrySum(entries + [e], mappings, w, a) ==
      EntrySum(entries, mappings, w, a) + (if a == t then e.closingBalance else 0)
  {
    assert (entries + [e])[..|entries|] == entries;
  }


  /** Initialises every account's own balance to 0, then overwrites it with the sum of each
      query row whose account is in the table. */
  method OwnBalances(accounts: seq<Account>, rows: seq<(int, int)>) returns (balances: map<int, int>)
    ensures balances.Keys == AccountIds(accounts)
    ensures forall a :: a in balances ==> balances[a] == RowTotal(rows, a)
  {
    balances := map id | id in AccountIds(accounts) :: 0;
    for k := 0 to |rows|
      invariant balances.Keys == AccountIds(accounts)
      invariant forall a :: a in balances ==> balances[a] == RowTotal(rows[..k], a)
    {
      var (accountId, total) := rows[k];
      assert rows[..k + 1][..k] == rows[..k];
      if accountId in balances {
        balances := balances[accountId := total];
      }
    }
    assert rows[..|rows|] == rows;
  }
}

=== FILE: mapping.dfy ===
/** get_unmapped_entries and map_entry_to_account: the anti-join listing a work's entries that
    have no mapping row, and the validated upsert that links one entry to one sub-head account. */
module Mapping {
  import opened Wrappers
  import opened Domain

  /** The work's entries with no mapping row, in table order (the outer join keeps exactly the
      entries whose mapping side is null). */
  function UnmappedEntries(entries: seq<TrialBalanceEntry>, mappings: seq<MappedLedgerEntry>, workId: int)
    : (r: seq<TrialBalanceEntry>)
    ensures |r| <= |entries|
    ensures forall e :: e in r <==>
      e in entries && e.workId == workId && forall m :: m in mappings ==> m.entryId != e.id
  {
    if entries == [] then []
    else
      var rest := UnmappedEntries(entries[1..], mappings, workId);
      var e := entries[0];
      assert forall x :: x in entries <==> x == e || x in entries[1..];
      if e.workId == workId && TargetOf(mappings, e.id).None? then [e] + rest else rest
  }

  /** The mapping table after the upsert: the entry's row is retargeted in place when it has
      one; otherwise a row with the next id is appended. */
  function Upserted(mappings: seq<MappedLedgerEntry>, entryId: int, accountId: int, newId: int)
    : (r: seq<MappedLedgerEntry>)
    ensures |mappings| <= |r| <= |mappings| + 1
    ensures |r| == |mappings| + 1 <==> forall j :: 0 <= j < |mappings| ==> mappings[j].entryId != entryId
    ensures forall j :: 0 <= j < |mappings| && mappings[j].entryId != entryId ==> r[j] == mappings[j]
    ensures exists j :: 0 <= j < |r| && r[j] == MappedLedgerEntry(r[j].id, entryId, accountId)
  {
    match FindMapping(mappings, entryId)
    case Some(i) =>
      var r := mappings[i := mappings[i].(accountId := accountId)];
      assert r[i] == MappedLedgerEntry(r[i].id, entryId, accountId);
      r
    case None =>
      var r := mappings + [MappedLedgerEntry(newId, entryId, accountId)];
      assert r[|mappings|] == MappedLedgerEntry(newId, entryId, accountId);
      r
  }

  /** After the upsert the entry is mapped to the given account, and every other entry keeps
      its target. */
  lemma UpsertRetargets(mappings: seq<MappedLedgerEntry>, entryId: int, accountId: int, newId: int, other: int)
    requires other != entryId
    ensures TargetOf(Upserted(mappings, entryId, accountId, newId), entryId) == Some(accountId)
    ensures TargetOf(Upserted(mappings, entryId, accountId, newId), other) == TargetOf(mappings, other)
  {
    var r := Upserted(mappings, entryId, accountId, newId);
    match FindMapping(mappings, entryId)
    case None =>
      TargetOfSnoc(mappings, MappedLedgerEntry(newId, entryId, accountId), entryId);
      TargetOfSnoc(mappings, MappedLedgerEntry(newId, entryId, accountId), other);
    case Some(i) =>
      assert FindMapping(r, entryId) == Some(i) by {
        FindMappingSame(mappings, r, entryId, i);
      }
      FindMappingOther(mappings, r, i, other);
  }

  /** Two tables that agree on the entry references up to and including position i find the
      same first row for an entry that sits at i. */
  lemma FindMappingSame(a: seq<MappedLedgerEntry>, b: seq<MappedLedgerEntry>, entryId: int, i: nat)
    requires FindMapping(a, entryId) == Some(i)
    requires |b| == |a| && forall j :: 0 <= j < |a| ==> b[j].entryId == a[j].entryId
    ensures FindMapping(b, entryId) == Some(i)
  {
    var f := FindMapping(b, entryId);
    assert b[i].entryId == entryId;
    assert f.Some? && f.value <= i;
    assert f.value == i;
  }

  /** Retargeting the row at i leaves the first row of every other entry where it was, with
      its target. */
  lemma FindMappingOther(a: seq<MappedLedgerEntry>, b: seq<MappedLedgerEntry>, i: nat, other: int)
    requires i < |a| && |b| == |a|
    requires forall j :: 0 <= j < |a| ==> b[j].entryId == a[j].entryId
    requires forall j :: 0 <= j < |a| && j != i ==> b[j] == a[j]
    requires a[i].entryId != other
    ensures TargetOf(b, other) == TargetOf(a, other)
  {
    var fa, fb := FindMapping(a, other), FindMapping(b, other);
    if fa.Some? {
      FindMappingSame(a, b, other, fa.value);
    } else {
      assert forall j :: 0 <= j < |b| ==> b[j].entryId != other;
    }
  }

  /** The table grows by one row exactly when the entry had none; rows of other entries are
      kept, and no other row is added. */
  lemma UpsertRows(mappings: seq<MappedLedgerEntry>, entryId: int, accountId: int, newId: int)
    ensures var r := Upserted(mappings, entryId, accountId, newId);
      |r| == if TargetOf(mappings, entryId).None? then |mappings| + 1 else |mappings|
    ensures var r := Upserted(mappings, entryId, accountId, newId);
      forall m: MappedLedgerEntry :: m.entryId != entryId ==> (m in r <==> m in mappings)
  {
    var r := Upserted(mappings, entryId, accountId, newId);
    match FindMapping(mappings, entryId)
    case None =>
    case Some(i) =>
      forall m: MappedLedgerEntry | m.entryId != entryId ensures m in r <==> m in mappings {
        if m in r {
          var j :| 0 <= j < |r| && r[j] == m;
          assert j != i;
        }
        if m in mappings {
          var j :| 0 <= j < |mappings| && mappings[j] == m;
          assert j != i && r[j] == m;
        }
      }
  }

  /** The upsert keeps the unique constraint on entry references, and the ids unique when the
      new id is above every stored one. */
  lemma UpsertKeepsUnique(mappings: seq<MappedLedgerEntry>, entryId: int, accountId: int, newId: int)
    requires MappingEntryRefsUnique(mappings) && MappingIdsUnique(mappings)
    requires forall m :: m in mappings ==> m.id < newId
    ensures MappingEntryRefsUnique(Upserted(mappings, entryId, accountId, newId))
    ensures MappingIdsUnique(Upserted(mappings, entryId, accountId, newId))
  {
    var r := Upserted(mappings, entryId, accountId, newId);
    match FindMapping(mappings, entryId)
    case None =>
      forall i, j | 0 <= i < j < |r| ensures r[i].entryId != r[j].entryId && r[i].id != r[j].id {
        if j == |mappings| {
          assert r[i] == mappings[i] && mappings[i] in mappings;
        }
      }
    case Some(k) =>
  }

  /** With the unique constraint in force, the entry has exactly one mapping row after the
      upsert, and that row targets the account. */
  lemma ExactlyOneMapping(mappings: seq<MappedLedgerEntry>, entryId: int, accountId: int, newId: int)
    requires MappingEntryRefsUnique(mappings) && MappingIdsUnique(mappings)
    requires forall m :: m in mappings ==> m.id < newId
    ensures var r := Upserted(mappings, entryId, accountId, newId);
      (exists i :: 0 <= i < |r| && r[i].entryId == entryId && r[i].accountId == accountId)
      && forall i, j :: 0 <= i < |r| && 0 <= j < |r| && r[i].entryId == entryId && r[j].entryId == entryId ==> i == j
  {
    var r := Upserted(mappings, entryId, accountId, newId);
    UpsertKeepsUnique(mappings, entryId, accountId, newId);
    match FindMapping(mappings, entryId)
    case None =>
      assert r[|mappings|].entryId == entryId && r[|mappings|].accountId == accountId;
    case Some(k) =>
      assert r[k].entryId == entryId && r[k].accountId == accountId;
  }

  /** Mapping the same entry to the same account twice gives the table of the first call. */
  lemma UpsertIdempotent(mappings: seq<MappedLedgerEntry>, entryId: int, accountId: int, newId: int, newId2: int)
    ensures var once := Upserted(mappings, entryId, accountId, newId);
      Upserted(once, entryId, accountId, newId2) == once
  {
    var once := Upserted(mappings, entryId, accountId, newId);
    match FindMapping(mappings, entryId)
    case None =>
      var n := |mappings|;
      assert once[n].entryId == entryId;
      var f := FindMapping(once, entryId);
      assert f == Some(n) by {
        assert f.Some? && f.value <= n;
        assert forall j :: 0 <= j < n ==> once[j].entryId != entryId;
      }
      assert once[n := once[n].(accountId := accountId)] == once;
    case Some(k) =>
      FindMappingSame(mappings, once, entryId, k);
      assert once[k := once[k].(accountId := accountId)] == once;
  }

  /** A mapped entry leaves the unmapped list; every other entry stays in it or out of it as
      before. */
  lemma UpsertLeavesUnmapped(entries: seq<TrialBalanceEntry>, mappings: seq<MappedLedgerEntry>, workId: int,
                             entryId: int, accountId: int, newId: int, e: TrialBalanceEntry)
    ensures var r := Upserted(mappings, entryId, accountId, newId);
      e in UnmappedEntries(entries, r, workId) <==> e in UnmappedEntries(entries, mappings, workId) && e.id != entryId
  {
    var r := Upserted(mappings, entryId, accountId, newId);
    if e.id == entryId {
      UpsertRetargets(mappings, entryId, accountId, newId, entryId + 1);
    } else {
      UpsertRetargets(mappings, entryId, accountId, newId, e.id);
    }
  }

  /** map_entry_to_account: the target account must exist (404) and be a sub-head (400), both
      checked before the entry is looked up (404); then the entry's mapping row is retargeted or
      a new row inserted. A failure changes nothing. */
  method MapEntryToAccount(db: Database, entryId: int, accountId: int) returns (r: Result<MappedLedgerEntry>)
    requires db.Valid()
    modifies db
    ensures db.Valid()
    ensures db.works == old(db.works) && db.accounts == old(db.accounts) && db.entries == old(db.entries)
    ensures db.nextAccountId == old(db.nextAccountId) && db.nextEntryId == old(db.nextEntryId)
    ensures FindAccount(db.accounts, accountId).None? ==>
      r == Failure(HttpError(404, "Target account not found"))
    ensures FindAccount(db.accounts, accountId).Some? && FindAccount(db.accounts, accountId).value.accountType != SubHead.Name() ==>
      r == Failure(HttpError(400, "Entries can only be mapped to SUB_HEAD accounts"))
    ensures FindAccount(db.accounts, accountId).Some? && FindAccount(db.accounts, accountId).value.accountType == SubHead.Name()
            && FindEntry(db.entries, entryId).None? ==>
      r == Failure(HttpError(404, "Trial Balance entry not found"))
    ensures r.Failure? ==> db.mappings == old(db.mappings) && db.nextMappingId == old(db.nextMappingId)
    ensures r.Success? <==>
      && FindAccount(db.accounts, accountId).Some? && FindAccount(db.accounts, accountId).value.accountType == SubHead.Name()
      && FindEntry(db.entries, entryId).Some?
    ensures r.Success? ==>
      && db.mappings == Upserted(old(db.mappings), entryId, accountId, old(db.nextMappingId))
      && r.value in db.mappings && r.value.entryId == entryId && r.value.accountId == accountId
  {
    var account := FindAccount(db.accounts, accountId);
    if account.None? {
      return Failure(HttpError(404, "Target account not found"));
    }
    if account.value.accountType != SubHead.Name() {
      return Failure(HttpError(400, "Entries can only be mapped to SUB_HEAD accounts"));
    }
    var entry := FindEntry(db.entries, entryId);
    if entry.None? {
      return Failure(HttpError(404, "Trial Balance entry not found"));
    }
    assert entry.value in db.entries;
    r := Upsert(db, entryId, accountId);
  }

  /** The create-or-update step, for an entry that exists: the entry's row gets the new target
      in place, or a row with the next id is added. */
  method Upsert(db: Database, entryId: int, accountId: int) returns (r: Result<MappedLedgerEntry>)
    requires db.Valid() && entryId < db.nextEntryId
    modifies db
    ensures db.Valid()
    ensures db.works == old(db.works) && db.accounts == old(db.accounts) && db.entries == old(db.entries)
    ensures db.nextAccountId == old(db.nextAccountId) && db.nextEntryId == old(db.nextEntryId)
    ensures db.mappings == Upserted(old(db.mappings), entryId, accountId, old(db.nextMappingId))
    ensures r.Success? && r.value in db.mappings && r.value.entryId == entryId && r.value.accountId == accountId
  {
    UpsertKeepsUnique(db.mappings, entryId, accountId, db.nextMappingId);
    var existing := FindMapping(db.mappings, entryId);
    if existing.Some? {
      var i := existing.value;
      var updated := db.mappings[i].(accountId := accountId);
      db.mappings := db.mappings[i := updated];
      assert db.mappings[i] == updated;
      r := Success(updated);
    } else {
      var created := MappedLedgerEntry(db.nextMappingId, entryId, accountId);
      db.mappings := db.mappings + [created];
      db.nextMappingId := db.nextMappingId + 1;
      assert db.mappings[|db.mappings| - 1] == created;
      r := Success(created);
    }
  }
}

=== FILE: notes.dfy ===
/** The notes to the accounts in get_report_data: one note per template line item that carries
    a note reference and has something to show, numbered from 3 in the order the references
    first appear. */
module Notes {
  import opened Wrappers
  import opened Text
  import opened Domain
  import opened Rollup
  import opened ReportFormat

  /** A note reference as the template's JSON gives it: a string or an integer. */
  datatype NoteRef = TextRef(text: string) | NumberRef(number: int)

  /** Python truthiness of a reference: the empty string and 0 are false. */
  predicate Truthy(r: NoteRef) {
    match r
    case TextRef(t) => t != []
    case NumberRef(n) => n != 0
  }

  /** str(ref). */
  function RefText(r: NoteRef): string {
    match r
    case TextRef(t) => t
    case NumberRef(n) => if n < 0 then "-" + NatToDecimal(-n) else NatToDecimal(n)
  }

  /** One block of the template definition: its type, note reference, account head and label
      (an absent key is None). */
  datatype TemplateItem = TemplateItem(itemType: Option<string>, noteRef: Option<NoteRef>,
                                       accountHeadId: Option<int>, labelText: string)

  datatype ChildDetail = ChildDetail(name: string, amount: int)

  /** One entry of notes_data. */
  datatype Note = Note(originalRef: NoteRef, ref: string, title: string, children: seq<ChildDetail>,
                       total: int, customText: string)

  /** What the loop reads besides the template: the balances after the derived figures, the
      children index, the account index and the custom note texts keyed by reference text. */
  datatype NoteContext = NoteContext(balances: map<int, int>, childrenMap: map<int, seq<int>>,
                                     accountMap: map<int, Account>, customNotes: map<string, string>)

  /** Every child the loop shows (a balance above one hundredth in size) has an account record:
      the name lookup would fail otherwise. */
  predicate ShownChildrenKnown(ctx: NoteContext) {
    forall h, c :: h in ctx.childrenMap && c in ctx.childrenMap[h] && Abs(Get(ctx.balances, c)) > 1 ==>
      c in ctx.accountMap
  }

  /** A block that may carry a note: a financial line item with a truthy note reference. */
  predicate IsNoteLine(item: TemplateItem)
    ensures IsNoteLine(item) ==> item.noteRef != Some(TextRef("")) && item.noteRef != Some(NumberRef(0))
  {
    item.itemType == Some("financial_line_item") && item.noteRef.Some? && Truthy(item.noteRef.value)
  }

  /** balances.get(account_head_id, 0). */
  function HeadBalance(item: TemplateItem, ctx: NoteContext): (r: int)
    ensures item.accountHeadId.None? ==> r == 0
    ensures item.accountHeadId.Some? && item.accountHeadId.value !in ctx.balances ==> r == 0
  {
    if item.accountHeadId.Some? then Get(ctx.balances, item.accountHeadId.value) else 0
  }

  /** children_map.get(account_head_id, []). */
  function HeadChildren(item: TemplateItem, ctx: NoteContext): seq<int> {
    if item.accountHeadId.Some? then Kids(ctx.childrenMap, item.accountHeadId.value) else []
  }

  predicate HasCustomText(item: TemplateItem, ctx: NoteContext)
    requires item.noteRef.Some?
    ensures !HasCustomText(item, ctx) ==> CustomText(item.noteRef.value, ctx.customNotes) == ""
  {
    RefText(item.noteRef.value) in ctx.customNotes
  }

  /** The children shown under a note: those whose balance is above one hundredth in size, in
      children order, with their account name. */
  function ChildDetails(ids: seq<int>, ctx: NoteContext): (r: seq<ChildDetail>)
    requires forall c :: c in ids && Abs(Get(ctx.balances, c)) > 1 ==> c in ctx.accountMap
    ensures |r| <= |ids|
    ensures forall d :: d in r ==> Abs(d.amount) > 1
    ensures r == [] <==> forall c :: c in ids ==> Abs(Get(ctx.balances, c)) <= 1
  {
    if ids == [] then []
    else
      var init, c := ids[..|ids| - 1], ids[|ids| - 1];
      assert forall x :: x in init ==> x in ids;
      var v := Get(ctx.balances, c);
      ChildDetails(init, ctx) + (if Abs(v) > 1 then [ChildDetail(ctx.accountMap[c].name, v)] else [])
  }

  /** The children whose balance is above one hundredth in size, in children order. */
  function ShownChildren(ids: seq<int>, balances: map<int, int>): (r: seq<int>)
    ensures |r| <= |ids|
    ensures forall c :: c in r <==> c in ids && Abs(Get(balances, c)) > 1
  {
    if ids == [] then []
    else
      var init, c := ids[..|ids| - 1], ids[|ids| - 1];
      assert ids == init + [c];
      ShownChildren(init, balances) + if Abs(Get(balances, c)) > 1 then [c] else []
  }

  /** The details are exactly the shown children, in order, each with its account name and
      its balance. */
  lemma {:induction false} ChildDetailsExactly(ids: seq<int>, ctx: NoteContext)
    requires forall c :: c in ids && Abs(Get(ctx.balances, c)) > 1 ==> c in ctx.accountMap
    ensures var r, shown := ChildDetails(ids, ctx), ShownChildren(ids, ctx.balances);
      && |r| == |shown|
      && forall k :: 0 <= k < |r| ==>
           shown[k] in ctx.accountMap
           && r[k] == ChildDetail(ctx.accountMap[shown[k]].name, Get(ctx.balances, shown[k]))
  {
    if ids != [] {
      var init, c := ids[..|ids| - 1], ids[|ids| - 1];
      assert ids == init + [c];
      ChildDetailsExactly(init, ctx);
      var r0, shown0 := ChildDetails(init, ctx), ShownChildren(init, ctx.balances);
      var v := Get(ctx.balances, c);
      if Abs(v) > 1 {
        assert ChildDetails(ids, ctx) == r0 + [ChildDetail(ctx.accountMap[c].name, v)];
        assert ShownChildren(ids, ctx.balances) == shown0 + [c];
      } else {
        assert ChildDetails(ids, ctx) == r0;
        assert ShownChildren(ids, ctx.balances) == shown0;
      }
    }
  }

  lemma HeadChildrenKnown(item: TemplateItem, ctx: NoteContext)
    requires ShownChildrenKnown(ctx)
    ensures forall c :: c in HeadChildren(item, ctx) && Abs(Get(ctx.balances, c)) > 1 ==> c in ctx.accountMap
  {
  }

  /** Whether the loop appends a note for the block: it is a note line; it is not skipped for a
      zero balance without custom text; and it has a child to show or custom text. */
  predicate Emits(item: TemplateItem, ctx: NoteContext)
    requires ShownChildrenKnown(ctx)
    ensures Emits(item, ctx) ==> IsNoteLine(item)
    ensures IsNoteLine(item) && HasCustomText(item, ctx) ==> Emits(item, ctx)
  {
    HeadChildrenKnown(item, ctx);
    && IsNoteLine(item)
    && !(Abs(HeadBalance(item, ctx)) < 1 && !HasCustomText(item, ctx))
    && (ChildDetails(HeadChildren(item, ctx), ctx) != [] || HasCustomText(item, ctx))
  }

  /** The blocks that produce a note, in template order. */
  function Emitting(items: seq<TemplateItem>, ctx: NoteContext): (r: seq<TemplateItem>)
    requires ShownChildrenKnown(ctx)
    ensures |r| <= |items|
    ensures forall x :: x in r ==> x in items && x.noteRef.Some? && Emits(x, ctx)
  {
    if items == [] then []
    else
      var init, x := items[..|items| - 1], items[|items| - 1];
      Emitting(init, ctx) + (if Emits(x, ctx) then [x] else [])
  }

  function RefsOf(items: seq<TemplateItem>): (r: seq<NoteRef>)
    requires forall x :: x in items ==> x.noteRef.Some?
    ensures |r| == |items| && forall k :: 0 <= k < |items| ==> r[k] == items[k].noteRef.value
  {
    if items == [] then []
    else
      RefsOf(items[..|items| - 1]) + [items[|items| - 1].noteRef.value]
  }

  /** Each reference once, in the order it first appears. */
  function FirstOccurrences(refs: seq<NoteRef>): (r: seq<NoteRef>)
    ensures forall x :: x in r <==> x in refs
  {
    if refs == [] then []
    else
      var prev, x := FirstOccurrences(refs[..|refs| - 1]), refs[|refs| - 1];
      assert forall y :: y in refs <==> y in refs[..|refs| - 1] || y == x;
      if x in prev then prev else prev + [x]
  }

  predicate NoRepeats(d: seq<NoteRef>) {
    forall i, j :: 0 <= i < j < |d| ==> d[i] != d[j]
  }

  /** No reference is listed twice. */
  lemma {:induction false} FirstOccurrencesDistinct(refs: seq<NoteRef>)
    ensures NoRepeats(FirstOccurrences(refs))
  {
    if refs != [] {
      var init, x := refs[..|refs| - 1], refs[|refs| - 1];
      FirstOccurrencesDistinct(init);
      var prev := FirstOccurrences(init);
      assert FirstOccurrences(refs) == if x in prev then prev else prev + [x];
      if x !in prev {
        var d := prev + [x];
        forall i, j | 0 <= i < j < |d| ensures d[i] != d[j] {
          assert d[i] == prev[i];
          if j == |prev| {
            assert d[j] == x;
            assert prev[i] in prev;
          } else {
            assert d[j] == prev[j];
            assert prev[i] != prev[j];
          }
        }
      }
    }
  }

  /** The numbering of the distinct references in order: the reference at position k gets
      str(3 + k) (NumberAt). */
  function Numbering(distinct: seq<NoteRef>): (m: map<NoteRef, string>)
    ensures forall x :: x in m <==> x in distinct
  {
    if distinct == [] then map[]
    else
      var n := |distinct| - 1;
      Numbering(distinct[..n])[distinct[n] := NatToDecimal(3 + n)]
  }

  /** The custom text of a note, looked up by the reference's text (see the findings in the
      README for the lookup the code performs). */
  function CustomText(r: NoteRef, customNotes: map<string, string>): (t: string)
    ensures t != "" ==> RefText(r) in customNotes
    ensures r.TextRef? ==> t == CustomTextAsWritten(r, customNotes)
  {
    if RefText(r) in customNotes then customNotes[RefText(r)] else ""
  }

  /** The note for an emitted block, given the numbering. */
  function NoteOf(item: TemplateItem, numbering: map<NoteRef, string>, ctx: NoteContext): (r: Note)
    requires ShownChildrenKnown(ctx)
    requires item.noteRef.Some? && item.noteRef.value in numbering
    ensures r.title == [] || (!IsSpace(r.title[0]) && !IsSpace(r.title[|r.title| - 1]))
    ensures forall d :: d in r.children ==> Abs(d.amount) > 1
    ensures HasCustomText(item, ctx) ==> r.customText == ctx.customNotes[RefText(item.noteRef.value)]
    ensures !HasCustomText(item, ctx) ==> r.customText == ""
  {
    HeadChildrenKnown(item, ctx);
    var r := item.noteRef.value;
    Note(r, numbering[r], Strip(item.labelText), ChildDetails(HeadChildren(item, ctx), ctx),
         HeadBalance(item, ctx), CustomText(r, ctx.customNotes))
  }

  /** The numbering the loop holds after the references `refs`: note_ref_map is the numbering
      of their first occurrences, and the counter is just past the last number. */
  ghost predicate RefsNumbered(refs: seq<NoteRef>, refMap: map<NoteRef, string>, counter: int) {
    var d := FirstOccurrences(refs);
    refMap == Numbering(d) && counter == 3 + |d|
  }

  /** One note per emitted block, each built with the current numbering. */
  ghost predicate NotesMatch(e: seq<TemplateItem>, ctx: NoteContext, notes: seq<Note>, refMap: map<NoteRef, string>)
    requires ShownChildrenKnown(ctx)
    requires forall x :: x in e ==> x.noteRef.Some?
  {
    && |notes| == |e|
    && forall j :: 0 <= j < |notes| ==>
         e[j].noteRef.value in refMap && notes[j] == NoteOf(e[j], refMap, ctx)
  }

  /** The numbering step: a reference not seen before takes the counter's number and the counter
      moves on; a reference seen before keeps its number. Earlier numbers never change. */
  lemma NumberingStep(refs: seq<NoteRef>, x: NoteRef, refMap: map<NoteRef, string>, counter: int,
                      refMap': map<NoteRef, string>, counter': int)
    requires RefsNumbered(refs, refMap, counter)
    requires x in refMap ==> refMap' == refMap && counter' == counter
    requires x !in refMap ==> refMap' == refMap[x := NatToDecimal(counter)] && counter' == counter + 1
    ensures RefsNumbered(refs + [x], refMap', counter')
    ensures x in refMap' && forall r :: r in refMap ==> r in refMap' && refMap'[r] == refMap[r]
  {
    var d := FirstOccurrences(refs);
    FirstOccurrencesSnoc(refs, x);
    if x !in refMap {
      assert (d + [x])[..|d|] == d;
    }
  }

  /** The blocks up to and including block i that produce a note: those up to block i, and
      block i itself when it produces one. */
  lemma EmittingStep(items: seq<TemplateItem>, i: int, ctx: NoteContext)
    requires ShownChildrenKnown(ctx) && 0 <= i < |items|
    ensures Emits(items[i], ctx) ==> Emitting(items[..i + 1], ctx) == Emitting(items[..i], ctx) + [items[i]]
    ensures !Emits(items[i], ctx) ==> Emitting(items[..i + 1], ctx) == Emitting(items[..i], ctx)
  {
    assert items[..i + 1][..i] == items[..i];
  }

  lemma RefsSnoc(e: seq<TemplateItem>, item: TemplateItem)
    requires forall x :: x in e ==> x.noteRef.Some?
    requires item.noteRef.Some?
    ensures forall x :: x in e + [item] ==> x.noteRef.Some?
    ensures RefsOf(e + [item]) == RefsOf(e) + [item.noteRef.value]
  {
    assert (e + [item])[..|e|] == e;
  }

  lemma FirstOccurrencesSnoc(refs: seq<NoteRef>, x: NoteRef)
    ensures FirstOccurrences(refs + [x]) ==
      if x in FirstOccurrences(refs) then FirstOccurrences(refs) else FirstOccurrences(refs) + [x]
  {
    assert (refs + [x])[..|refs|] == refs;
  }

  /** The notes built so far keep their numbers when the numbering grows. */
  lemma NotesSnoc(e: seq<TemplateItem>, item: TemplateItem, ctx: NoteContext, notes: seq<Note>,
                  refMap: map<NoteRef, string>, refMap': map<NoteRef, string>)
    requires ShownChildrenKnown(ctx)
    requires forall x :: x in e ==> x.noteRef.Some?
    requires item.noteRef.Some? && item.noteRef.value in refMap'
    requires NotesMatch(e, ctx, notes, refMap)
    requires forall r :: r in refMap ==> r in refMap' && refMap'[r] == refMap[r]
    ensures forall x :: x in e + [item] ==> x.noteRef.Some?
    ensures NotesMatch(e + [item], ctx, notes + [NoteOf(item, refMap', ctx)], refMap')
  {
    var e2, notes2 := e + [item], notes + [NoteOf(item, refMap', ctx)];
    forall j | 0 <= j < |notes2|
      ensures e2[j].noteRef.value in refMap' && notes2[j] == NoteOf(e2[j], refMap', ctx)
    {
      if j < |notes| {
        assert e2[j] == e[j];
      }
    }
  }

  /** A note line whose head balance is below one hundredth in size and that has no custom text
      produces no note. */
  lemma ZeroWithoutCustomSkipped(item: TemplateItem, ctx: NoteContext)
    requires ShownChildrenKnown(ctx) && IsNoteLine(item)
    requires Abs(HeadBalance(item, ctx)) < 1 && !HasCustomText(item, ctx)
    ensures !Emits(item, ctx)
  {
  }

  /** Past the zero-balance check, a note line produces a note exactly when it has a child to
      show or custom text. */
  lemma EmitsPastZeroCheck(item: TemplateItem, ctx: NoteContext, details: seq<ChildDetail>)
    requires ShownChildrenKnown(ctx) && IsNoteLine(item)
    requires !(Abs(HeadBalance(item, ctx)) < 1 && !HasCustomText(item, ctx))
    requires forall c :: c in HeadChildren(item, ctx) && Abs(Get(ctx.balances, c)) > 1 ==> c in ctx.accountMap
    requires details == ChildDetails(HeadChildren(item, ctx), ctx)
    ensures Emits(item, ctx) <==> details != [] || HasCustomText(item, ctx)
  {
  }

  /** An emitted block keeps the loop's invariant: its reference is numbered and its note is
      appended. */
  lemma EmitKeeps(items: seq<TemplateItem>, i: int, ctx: NoteContext, notes: seq<Note>,
                  refMap: map<NoteRef, string>, counter: int, refMap': map<NoteRef, string>, counter': int)
    requires ShownChildrenKnown(ctx) && 0 <= i < |items| && Emits(items[i], ctx)
    requires RefsNumbered(RefsOf(Emitting(items[..i], ctx)), refMap, counter)
    requires NotesMatch(Emitting(items[..i], ctx), ctx, notes, refMap)
    requires items[i].noteRef.value in refMap ==> refMap' == refMap && counter' == counter
    requires items[i].noteRef.value !in refMap ==>
      refMap' == refMap[items[i].noteRef.value := NatToDecimal(counter)] && counter' == counter + 1
    ensures items[i].noteRef.value in refMap'
    ensures RefsNumbered(RefsOf(Emitting(items[..i + 1], ctx)), refMap', counter')
    ensures NotesMatch(Emitting(items[..i + 1], ctx), ctx, notes + [NoteOf(items[i], refMap', ctx)], refMap')
  {
    var e, item := Emitting(items[..i], ctx), items[i];
    EmittingStep(items, i, ctx);
    RefsSnoc(e, item);
    NumberingStep(RefsOf(e), item.noteRef.value, refMap, counter, refMap', counter');
    NotesSnoc(e, item, ctx, notes, refMap, refMap');
  }

  /** A block that produces no note leaves the loop's invariant as it was. */
  lemma SkipKeeps(items: seq<TemplateItem>, i: int, ctx: NoteContext, notes: seq<Note>,
                  refMap: map<NoteRef, string>, counter: int)
    requires ShownChildrenKnown(ctx) && 0 <= i < |items| && !Emits(items[i], ctx)
    requires RefsNumbered(RefsOf(Emitting(items[..i], ctx)), refMap, counter)
    requires NotesMatch(Emitting(items[..i], ctx), ctx, notes, refMap)
    ensures RefsNumbered(RefsOf(Emitting(items[..i + 1], ctx)), refMap, counter)
    ensures NotesMatch(Emitting(items[..i + 1], ctx), ctx, notes, refMap)
  {
    EmittingStep(items, i, ctx);
  }

  /** The inner loop of the note loop: the details of the children shown under a note. */
  method CollectChildren(childrenIds: seq<int>, ctx: NoteContext) returns (details: seq<ChildDetail>)
    requires forall c :: c in childrenIds && Abs(Get(ctx.balances, c)) > 1 ==> c in ctx.accountMap
    ensures details == ChildDetails(childrenIds, ctx)
  {
    details := [];
    for k := 0 to |childrenIds|
      invariant details == ChildDetails(childrenIds[..k], ctx)
    {
      var childId := childrenIds[k];
      assert childrenIds[..k + 1] == childrenIds[..k] + [childId];
      var childVal := Get(ctx.balances, childId);
      if Abs(childVal) > 1 {
        details := details + [ChildDetail(ctx.accountMap[childId].name, childVal)];
      }
    }
    assert childrenIds[..|childrenIds|] == childrenIds;
  }

  /** The numbering step of the note loop: a reference not in note_ref_map takes str(counter)
      and the counter moves on; a reference already there is left as it is. */
  method AssignNumber(noteRefMap: map<NoteRef, string>, noteCounter: nat, originalRef: NoteRef)
    returns (refMap': map<NoteRef, string>, counter': nat)
    ensures originalRef in noteRefMap ==> refMap' == noteRefMap && counter' == noteCounter
    ensures originalRef !in noteRefMap ==>
      refMap' == noteRefMap[originalRef := NatToDecimal(noteCounter)] && counter' == noteCounter + 1
  {
    refMap', counter' := noteRefMap, noteCounter;
    if originalRef !in refMap' {
      refMap' := refMap'[originalRef := NatToDecimal(counter')];
      counter' := counter' + 1;
    }
  }

  /** One pass of the note loop of get_report_data over block i: it skips the block, or numbers
      its reference and appends its note. */
  method NoteStep(items: seq<TemplateItem>, i: int, ctx: NoteContext, notes: seq<Note>,
                  noteRefMap: map<NoteRef, string>, noteCounter: int)
    returns (notes': seq<Note>, noteRefMap': map<NoteRef, string>, noteCounter': int)
    requires ShownChildrenKnown(ctx) && 0 <= i < |items|
    requires RefsNumbered(RefsOf(Emitting(items[..i], ctx)), noteRefMap, noteCounter)
    requires NotesMatch(Emitting(items[..i], ctx), ctx, notes, noteRefMap)
    ensures RefsNumbered(RefsOf(Emitting(items[..i + 1], ctx)), noteRefMap', noteCounter')
    ensures NotesMatch(Emitting(items[..i + 1], ctx), ctx, notes', noteRefMap')
  {
    notes', noteRefMap', noteCounter' := notes, noteRefMap, noteCounter;
    var item := items[i];
    if !(item.itemType == Some("financial_line_item") && item.noteRef.Some? && Truthy(item.noteRef.value)) {
      SkipKeeps(items, i, ctx, notes, noteRefMap, noteCounter);
      return;
    }
    var headId := item.accountHeadId;
    var val := if headId.Some? then Get(ctx.balances, headId.value) else 0;
    var hasCustomText := RefText(item.noteRef.value) in ctx.customNotes;
    if Abs(val) < 1 && !hasCustomText {
      ZeroWithoutCustomSkipped(item, ctx);
      SkipKeeps(items, i, ctx, notes, noteRefMap, noteCounter);
      return;
    }
    var childrenIds := if headId.Some? then Kids(ctx.childrenMap, headId.value) else [];
    var childrenDetails := CollectChildren(childrenIds, ctx);
    EmitsPastZeroCheck(item, ctx, childrenDetails);
    if childrenDetails != [] || hasCustomText {
      notes', noteRefMap', noteCounter' := EmitNote(items, i, ctx, notes, noteRefMap, noteCounter, val, childrenDetails);
    } else {
      SkipKeeps(items, i, ctx, notes, noteRefMap, noteCounter);
    }
  }

  /** The emit branch of the note loop: number the block's reference when it is new, then
      append its note. */
  method EmitNote(items: seq<TemplateItem>, i: int, ctx: NoteContext, notes: seq<Note>,
                  noteRefMap: map<NoteRef, string>, noteCounter: int, val: int, childrenDetails: seq<ChildDetail>)
    returns (notes': seq<Note>, noteRefMap': map<NoteRef, string>, noteCounter': int)
    requires ShownChildrenKnown(ctx) && 0 <= i < |items| && Emits(items[i], ctx)
    requires RefsNumbered(RefsOf(Emitting(items[..i], ctx)), noteRefMap, noteCounter)
    requires NotesMatch(Emitting(items[..i], ctx), ctx, notes, noteRefMap)
    requires val == HeadBalance(items[i], ctx)
    requires childrenDetails == ChildDetails(HeadChildren(items[i], ctx), ctx)
    ensures RefsNumbered(RefsOf(Emitting(items[..i + 1], ctx)), noteRefMap', noteCounter')
    ensures NotesMatch(Emitting(items[..i + 1], ctx), ctx, notes', noteRefMap')
  {
    var item := items[i];
    var originalRef := item.noteRef.value;
    noteRefMap', noteCounter' := AssignNumber(noteRefMap, noteCounter, originalRef);
    EmitKeeps(items, i, ctx, notes, noteRefMap, noteCounter, noteRefMap', noteCounter');
    var note := Note(originalRef, noteRefMap'[originalRef], Strip(item.labelText), childrenDetails, val,
                     CustomText(originalRef, ctx.customNotes));
    assert note == NoteOf(item, noteRefMap', ctx);
    notes' := notes + [note];
  }

  /** The note-numbering loop of get_report_data. */
  method NumberNotes(items: seq<TemplateItem>, ctx: NoteContext)
    returns (notes: seq<Note>, noteRefMap: map<NoteRef, string>)
    requires ShownChildrenKnown(ctx)
    ensures NumberedNotes(items, ctx, notes, noteRefMap)
  {
    notes, noteRefMap := [], map[];
    var noteCounter := 3;
    for i := 0 to |items|
      invariant RefsNumbered(RefsOf(Emitting(items[..i], ctx)), noteRefMap, noteCounter)
      invariant NotesMatch(Emitting(items[..i], ctx), ctx, notes, noteRefMap)
    {
      notes, noteRefMap, noteCounter := NoteStep(items, i, ctx, notes, noteRefMap, noteCounter);
    }
    assert items[..|items|] == items;
  }

  // ---------------------------------------------------------------------------------------
  // Which blocks produce a note
  // ---------------------------------------------------------------------------------------

  /** A note line produces a note exactly when it has custom text, or when its balance is not
      zero and some child's balance is above one hundredth in size. */
  lemma EmitsIff(item: TemplateItem, ctx: NoteContext)
    requires ShownChildrenKnown(ctx)
    ensures Emits(item, ctx) <==>
      IsNoteLine(item) &&
      (HasCustomText(item, ctx) ||
       (Abs(HeadBalance(item, ctx)) >= 1 && exists c :: c in HeadChildren(item, ctx) && Abs(Get(ctx.balances, c)) > 1))
  {
    HeadChildrenKnown(item, ctx);
    var kids := HeadChildren(item, ctx);
    if ChildDetails(kids, ctx) != [] {
      var c :| c in kids && Abs(Get(ctx.balances, c)) > 1;
    }
  }

  // ---------------------------------------------------------------------------------------
  // The numbers
  // ---------------------------------------------------------------------------------------

  /** In a sequence without repeats, the reference at position k is numbered 3 + k. */
  lemma {:induction false} NumberAt(d: seq<NoteRef>, k: int)
    requires NoRepeats(d)
    requires 0 <= k < |d|
    ensures d[k] in Numbering(d) && Numbering(d)[d[k]] == NatToDecimal(3 + k)
  {
    var n := |d| - 1;
    if k < n {
      var init := d[..n];
      assert init[k] == d[k] && d[k] != d[n];
      NumberAt(init, k);
    }
  }

  /** Different references never share a number. */
  lemma NumbersDistinct(d: seq<NoteRef>, x: NoteRef, y: NoteRef)
    requires NoRepeats(d)
    requires x in d && y in d && x != y
    ensures Numbering(d)[x] != Numbering(d)[y]
  {
    var i :| 0 <= i < |d| && d[i] == x;
    var j :| 0 <= j < |d| && d[j] == y;
    NumberAt(d, i);
    NumberAt(d, j);
    DecimalRoundTrip(3 + i);
    DecimalRoundTrip(3 + j);
  }

  /** The first reference is the first of the distinct references. */
  lemma {:induction false} FirstOccurrencesStart(refs: seq<NoteRef>)
    requires refs != []
    ensures FirstOccurrences(refs) != [] && FirstOccurrences(refs)[0] == refs[0]
  {
    if |refs| > 1 {
      var init := refs[..|refs| - 1];
      FirstOccurrencesStart(init);
      assert init[0] == refs[0];
    }
  }

  /** The distinct references of a prefix are a prefix of the distinct references. */
  lemma {:induction false} FirstOccurrencesPrefix(refs: seq<NoteRef>, n: int)
    requires 0 <= n <= |refs|
    ensures var d, dn := FirstOccurrences(refs), FirstOccurrences(refs[..n]);
      |dn| <= |d| && d[..|dn|] == dn
  {
    if n < |refs| {
      var init := refs[..|refs| - 1];
      assert init[..n] == refs[..n];
      FirstOccurrencesPrefix(init, n);
    } else {
      assert refs[..n] == refs;
    }
  }

  /** A reference first seen at position j takes the next number: 3 plus the count of the
      distinct references before it. */
  lemma NewRefTakesNextNumber(refs: seq<NoteRef>, j: int)
    requires 0 <= j < |refs| && refs[j] !in refs[..j]
    ensures refs[j] in Numbering(FirstOccurrences(refs))
    ensures Numbering(FirstOccurrences(refs))[refs[j]] == NatToDecimal(3 + |FirstOccurrences(refs[..j])|)
  {
    var d, before := FirstOccurrences(refs), FirstOccurrences(refs[..j]);
    assert refs[..j + 1] == refs[..j] + [refs[j]];
    FirstOccurrencesSnoc(refs[..j], refs[j]);
    FirstOccurrencesPrefix(refs, j + 1);
    var m := |before|;
    assert d[..m + 1] == before + [refs[j]];
    assert d[m] == d[..m + 1][m];
    FirstOccurrencesDistinct(refs);
    NumberAt(d, m);
  }

  /** What NumberNotes returns for a template. */
  ghost predicate NumberedNotes(items: seq<TemplateItem>, ctx: NoteContext, notes: seq<Note>,
                                noteRefMap: map<NoteRef, string>)
    requires ShownChildrenKnown(ctx)
  {
    var e := Emitting(items, ctx);
    && noteRefMap == Numbering(FirstOccurrences(RefsOf(e)))
    && |notes| == |e|
    && forall j :: 0 <= j < |notes| ==>
         notes[j].originalRef == e[j].noteRef.value && e[j].noteRef.value in noteRefMap &&
         notes[j] == NoteOf(e[j], noteRefMap, ctx)
  }

  /** The first note is note 3. */
  lemma FirstNoteIsThree(items: seq<TemplateItem>, ctx: NoteContext, notes: seq<Note>,
                         noteRefMap: map<NoteRef, string>)
    requires ShownChildrenKnown(ctx)
    requires NumberedNotes(items, ctx, notes, noteRefMap) && notes != []
    ensures notes[0].ref == "3"
  {
    var e := Emitting(items, ctx);
    var refs := RefsOf(e);
    FirstOccurrencesStart(refs);
    FirstOccurrencesDistinct(refs);
    NumberAt(FirstOccurrences(refs), 0);
    assert NatToDecimal(3) == "3";
  }

  /** Two notes carry the same number exactly when they come from the same reference: a
      repeated reference reuses its number, and a new one never takes a used number. */
  lemma SameNumberIffSameRef(items: seq<TemplateItem>, ctx: NoteContext, notes: seq<Note>,
                             noteRefMap: map<NoteRef, string>, j: int, k: int)
    requires ShownChildrenKnown(ctx)
    requires NumberedNotes(items, ctx, notes, noteRefMap)
    requires 0 <= j < |notes| && 0 <= k < |notes|
    ensures notes[j].ref == notes[k].ref <==> notes[j].originalRef == notes[k].originalRef
  {
    var x, y := notes[j].originalRef, notes[k].originalRef;
    NoteNumber(items, ctx, notes, noteRefMap, j);
    NoteNumber(items, ctx, notes, noteRefMap, k);
    if x != y {
      var d := FirstOccurrences(RefsOf(Emitting(items, ctx)));
      NumbersDistinct(d, x, y);
    }
  }

  /** A note's number is its reference's number in the numbering of the distinct references. */
  lemma NoteNumber(items: seq<TemplateItem>, ctx: NoteContext, notes: seq<Note>,
                   noteRefMap: map<NoteRef, string>, j: int)
    requires ShownChildrenKnown(ctx)
    requires NumberedNotes(items, ctx, notes, noteRefMap) && 0 <= j < |notes|
    ensures var d := FirstOccurrences(RefsOf(Emitting(items, ctx)));
      && NoRepeats(d)
      && notes[j].originalRef in d && noteRefMap == Numbering(d)
      && notes[j].ref == Numbering(d)[notes[j].originalRef]
  {
    var e := Emitting(items, ctx);
    var refs := RefsOf(e);
    assert refs[j] == notes[j].originalRef;
    FirstOccurrencesDistinct(refs);
    assert notes[j] == NoteOf(e[j], noteRefMap, ctx);
  }

  /** Numbers follow template order: a note whose reference no earlier note carries is numbered
      3 plus the count of the distinct references of the earlier notes. */
  lemma NotesNumberedInOrder(items: seq<TemplateItem>, ctx: NoteContext, notes: seq<Note>,
                             noteRefMap: map<NoteRef, string>, j: int)
    requires ShownChildrenKnown(ctx)
    requires NumberedNotes(items, ctx, notes, noteRefMap) && 0 <= j < |notes|
    requires forall i :: 0 <= i < j ==> notes[i].originalRef != notes[j].originalRef
    ensures notes[j].ref == NatToDecimal(3 + |FirstOccurrences(RefsOf(Emitting(items, ctx)[..j]))|)
  {
    var e := Emitting(items, ctx);
    var refs := RefsOf(e);
    RefsOfPrefix(e, j);
    assert refs[j] !in refs[..j] by {
      forall i | 0 <= i < j ensures refs[..j][i] != refs[j] {
        assert refs[..j][i] == notes[i].originalRef;
      }
    }
    NewRefTakesNextNumber(refs, j);
    assert notes[j].ref == noteRefMap[refs[j]];
  }

  lemma RefsOfPrefix(e: seq<TemplateItem>, j: int)
    requires forall x :: x in e ==> x.noteRef.Some?
    requires 0 <= j <= |e|
    ensures forall x :: x in e[..j] ==> x.noteRef.Some?
    ensures RefsOf(e)[..j] == RefsOf(e[..j])
  {
    assert forall x :: x in e[..j] ==> x in e;
  }

  // ---------------------------------------------------------------------------------------
  // The custom text lookup
  // ---------------------------------------------------------------------------------------

  /** custom_notes.get(original_ref, "") as the code performs it: the reference itself is the
      key. The keys of the stored JSON object are strings, so a numeric reference never matches. */
  function CustomTextAsWritten(r: NoteRef, customNotes: map<string, string>): (t: string)
    ensures r.TextRef? && r.text in customNotes ==> t == customNotes[r.text]
    ensures r.NumberRef? || r.text !in customNotes ==> t == ""
  {
    match r
    case TextRef(s) => if s in customNotes then customNotes[s] else ""
    case NumberRef(_) => ""
  }

  /** As written, a numeric reference whose text has custom text produces a note (the emit
      test uses str(ref)), yet the note's custom text comes out empty. */
  lemma NumericRefLosesCustomText()
    ensures var ctx := NoteContext(map[], map[], map[], map["5" := "See schedule"]);
      var item := TemplateItem(Some("financial_line_item"), Some(NumberRef(5)), None, "Borrowings");
      && Emits(item, ctx)
      && CustomTextAsWritten(NumberRef(5), ctx.customNotes) == ""
      && CustomText(NumberRef(5), ctx.customNotes) == "See schedule"
  {
    assert NatToDecimal(5) == "5";
  }

  /** With the lookup keyed by str(ref), the note of a block with custom text shows that text;
      for a text reference this is the lookup the code performs. */
  lemma CustomTextShown(item: TemplateItem, ctx: NoteContext, numbering: map<NoteRef, string>)
    requires ShownChildrenKnown(ctx) && IsNoteLine(item) && HasCustomText(item, ctx)
    requires item.noteRef.value in numbering
    ensures Emits(item, ctx)
    ensures NoteOf(item, numbering, ctx).customText == ctx.customNotes[RefText(item.noteRef.value)]
    ensures item.noteRef.value.TextRef? ==>
      NoteOf(item, numbering, ctx).customText == CustomTextAsWritten(item.noteRef.value, ctx.customNotes)
  {
  }
}

=== FILE: report.dfy ===
/** get_report_data: the statement figures of one work with the derived figures written in, and
    the numbered notes of a template, or 404 when the work or the template is missing. */
module Report {
  import opened Wrappers
  import opened Domain
  import opened Chart
  import opened LeafSums
  import opened Rollup
  import opened StatementGeneration
  import opened DerivedMetrics
  import opened Notes

  /** What the renderers receive. The company record is not part of this model. */
  datatype ReportData = ReportData(workStatus: string, templateDef: seq<TemplateItem>, balances: map<int, int>,
                                   notes: seq<Note>, noteMap: map<NoteRef, string>)

  /** The figures calculate_statement_data promises: one per reachable account, each its own
      entries' closing balances plus its children's figures. */
  ghost predicate StatementFigures(accounts: seq<Account>, entries: seq<TrialBalanceEntry>,
                                   mappings: seq<MappedLedgerEntry>, workId: int, figures: map<int, int>) {
    && (forall a :: a in figures <==> ReachableAccount(accounts, a))
    && (forall a :: a in figures ==>
          figures[a] == EntrySum(entries, mappings, workId, a) + SumOver(figures, Kids(ChildrenIndex(accounts), a)))
  }

  /** The children index and the account index of the same accounts: every child listed has an
      account record, whatever the balances. */
  lemma ChildrenAreAccounts(accounts: seq<Account>, balances: map<int, int>, customNotes: map<string, string>)
    ensures ShownChildrenKnown(NoteContext(balances, ChildrenIndex(accounts), AccountIndex(accounts), customNotes))
  {
    var children := ChildrenIndex(accounts);
    forall h, c | h in children && c in children[h] ensures c in AccountIds(accounts) {
      ChildrenIndexShape(accounts, h);
      var i :| 0 <= i < |accounts| && accounts[i].id == c && accounts[i].parentId == Some(h);
      assert accounts[i] in accounts;
    }
  }

  /** get_report_data: 404 "Not found" when the work or the template is missing; otherwise the
      statement figures with the derived figures written in, and the notes numbered over the
      template's blocks. The template definition and the stored configuration's custom notes are
      given already parsed (None when the row is missing). */
  method GetReportData(db: Database, workId: int, template: Option<seq<TemplateItem>>,
                       config: Option<map<string, string>>)
    returns (r: Result<ReportData>)
    requires db.Valid()
    ensures r.Failure? <==> FindWork(db.works, workId).None? || template.None?
    ensures r.Failure? ==> r.error == HttpError(404, "Not found")
    ensures r.Success? ==>
      var ctx := NoteContext(r.value.balances, ChildrenIndex(db.accounts), AccountIndex(db.accounts),
                             config.GetOr(map[]));
      && r.value.workStatus == FindWork(db.works, workId).value.status
      && r.value.templateDef == template.value
      && (exists figures :: StatementFigures(db.accounts, db.entries, db.mappings, workId, figures)
                            && r.value.balances == WithDerived(figures))
      && ShownChildrenKnown(ctx)
      && NumberedNotes(template.value, ctx, r.value.notes, r.value.noteMap)
  {
    var work := FindWork(db.works, workId);
    if work.None? || template.None? {
      return Failure(HttpError(404, "Not found"));
    }
    var customNotes := if config.Some? then config.value else map[];
    var balances, accountMap, childrenMap := CalculateStatementData(db, workId);
    ghost var figures := balances;
    balances := CalculateDerivedBalances(balances);
    ResultIsWithDerived(figures, balances);
    var ctx := NoteContext(balances, childrenMap, accountMap, customNotes);
    ChildrenAreAccounts(db.accounts, balances, customNotes);
    var notes, noteRefMap := NumberNotes(template.value, ctx);
    assert StatementFigures(db.accounts, db.entries, db.mappings, workId, figures);
    r := Success(ReportData(work.value.status, template.value, balances, notes, noteRefMap));
  }
}

=== FILE: report_format.dfy ===
/** format_indian_currency: an amount in hundredths rendered with two decimals and the
    Indian lakh/crore digit grouping (the last three integer digits, then pairs). */
module ReportFormat {
  import opened Wrappers
  import opened Text

  function Abs(v: int): nat {
    if v < 0 then -v else v
  }

  /** The integer digits of "{:.2f}" applied to h hundredths. */
  function IntegerPart(h: nat): (r: string)
    ensures |r| >= 1 && AllDigits(r)
  {
    NatToDecimal(h / 100)
  }

  /** The two fraction digits of "{:.2f}" applied to h hundredths. */
  function FractionPart(h: nat): (r: string)
    ensures |r| == 2 && AllDigits(r)
  {
    [DigitChar(h % 100 / 10), DigitChar(h % 10)]
  }

  /** The two parts read back as numbers give the whole and the hundredths of h. */
  lemma TwoDecimalValue(h: nat)
    ensures DecimalValue(IntegerPart(h)) == h / 100
    ensures DecimalValue(FractionPart(h)) == h % 100
  {
    DecimalRoundTrip(h / 100);
    var tens, units := h % 100 / 10, h % 10;
    var r := FractionPart(h);
    assert DigitValue(r[0]) == tens && DigitValue(r[1]) == units;
    assert r[..1][..0] == [];
    assert DecimalValue(r[..1]) == tens;
  }

  /** "{:.2f}" applied to h hundredths. */
  function TwoDecimal(h: nat): (r: string)
    ensures |r| >= 4 && r[|r| - 3] == '.'
    ensures AllDigits(r[..|r| - 3]) && AllDigits(r[|r| - 2..])
  {
    IntegerPart(h) + "." + FractionPart(h)
  }

  /** The digits of `s` cut into groups of two from the right; only the leftmost group may
      hold a single digit. */
  function PairsFromRight(s: string): (r: seq<string>)
    ensures Concat(r) == s
    ensures forall k :: 0 <= k < |r| ==> 1 <= |r[k]| <= 2
    ensures forall k :: 0 < k < |r| ==> |r[k]| == 2
  {
    if s == [] then []
    else if |s| <= 2 then
      assert Concat([s]) == Concat([]) + s;
      [s]
    else
      var init := PairsFromRight(s[..|s| - 2]);
      assert (init + [s[|s| - 2..]])[..|init|] == init;
      assert s == s[..|s| - 2] + s[|s| - 2..];
      init + [s[|s| - 2..]]
  }

  /** The groups of an integer digit string: at most three digits stay whole; longer ones end
      with a group of three preceded by pairs from the right. */
  function Groups(amount: string): (r: seq<string>)
    ensures |r| >= 1 && Concat(r) == amount
    ensures |amount| > 3 ==> |r[|r| - 1]| == 3 && forall k :: 0 < k < |r| - 1 ==> |r[k]| == 2
    ensures |amount| > 3 ==> 1 <= |r[0]| <= 2
  {
    if |amount| <= 3 then
      assert Concat([amount]) == Concat([]) + amount;
      [amount]
    else
      var pairs := PairsFromRight(amount[..|amount| - 3]);
      assert (pairs + [amount[|amount| - 3..]])[..|pairs|] == pairs;
      assert amount == amount[..|amount| - 3] + amount[|amount| - 3..];
      pairs + [amount[|amount| - 3..]]
  }

  /** The reference rendering: the groups of the integer part joined by commas, the point and
      the two fraction digits, in parentheses when the value is negative. */
  function IndianCurrency(value: Option<int>): (r: string)
    ensures |r| >= 4
    ensures (value.Some? && value.value < 0) <==> r[0] == '('
    ensures (value.Some? && value.value < 0) <==> r[|r| - 1] == ')'
  {
    match value
    case None => "0.00"
    case Some(v) => if v < 0 then "(" + Grouped(Abs(v)) + ")" else Grouped(Abs(v))
  }

  /** The unsigned rendering of h hundredths: the groups of the integer part joined by commas,
      the point and the two fraction digits. */
  function Grouped(h: nat): (r: string)
    ensures '(' !in r && ')' !in r
    ensures |r| >= 4 && r[|r| - 3] == '.'
  {
    var gs := Groups(IntegerPart(h));
    GroupsAreDigits(gs, IntegerPart(h));
    JoinHasNoParens(gs);
    DigitsHaveNoComma(FractionPart(h));
    Join(gs, ",") + "." + FractionPart(h)
  }

  /** Joining the pairs of a non-empty digit string, as the loop builds and reverses them. */
  lemma PairsStep(remaining: string, cut: nat)
    requires remaining != [] && cut == if |remaining| >= 2 then |remaining| - 2 else 0
    ensures PairsFromRight(remaining) == PairsFromRight(remaining[..cut]) + [remaining[cut..]]
  {
  }

  /** One turn of the loop keeps the pairs of the whole text split between what remains and
      the groups taken so far. */
  lemma PeelStep(digits: string, remaining: string, groups: seq<string>, cut: nat)
    requires remaining != [] && cut == if |remaining| >= 2 then |remaining| - 2 else 0
    requires PairsFromRight(digits) == PairsFromRight(remaining) + Reversed(groups)
    ensures PairsFromRight(digits) == PairsFromRight(remaining[..cut]) + Reversed(groups + [remaining[cut..]])
  {
    PairsStep(remaining, cut);
    MoveLast(PairsFromRight(remaining[..cut]), remaining[cut..], groups);
  }

  /** Moving the last element of the front part into the reversed back part. */
  lemma MoveLast(init: seq<string>, last: string, groups: seq<string>)
    ensures (init + [last]) + Reversed(groups) == init + Reversed(groups + [last])
  {
    ReversedSnoc(groups, last);
  }

  lemma ReversedSnoc<T>(s: seq<T>, x: T)
    ensures Reversed(s + [x]) == [x] + Reversed(s)
  {
    assert (s + [x])[..|s|] == s;
  }

  /** format_indian_currency. */
  method FormatIndianCurrency(value: Option<int>) returns (r: string)
    ensures r == IndianCurrency(value)
  {
    if value.None? {
      return "0.00";
    }
    var isNegative := value.value < 0;
    var h := Abs(value.value);
    var valueStr := TwoDecimal(h);
    SplitAtPoint(h);
    var amount, fraction := valueStr[..|valueStr| - 3], valueStr[|valueStr| - 2..];
    var res := GroupIntegerDigits(amount);
    var final := res + "." + fraction;
    r := if isNegative then "(" + final + ")" else final;
  }

  /** The grouping step of format_indian_currency: at most three digits are kept as they are;
      otherwise two-digit groups are peeled off the right of all but the last three digits,
      reversed, and joined with commas ahead of the last three. */
  method GroupIntegerDigits(amount: string) returns (res: string)
    ensures res == Join(Groups(amount), ",")
  {
    if |amount| <= 3 {
      res := amount;
    } else {
      var lastThree := amount[|amount| - 3..];
      var remaining := amount[..|amount| - 3];
      var groups := PeelPairs(remaining);
      groups := Reversed(groups);
      res := Join(groups, ",") + "," + lastThree;
      JoinGroups(amount, groups);
    }
  }

  /** The while loop of the grouping step: two digits at a time are taken off the right of
      the text and appended, so the groups come out right to left. */
  method PeelPairs(digits: string) returns (groups: seq<string>)
    ensures Reversed(groups) == PairsFromRight(digits)
  {
    var remaining := digits;
    groups := [];
    while remaining != []
      invariant PairsFromRight(digits) == PairsFromRight(remaining) + Reversed(groups)
      decreases |remaining|
    {
      var cut := if |remaining| >= 2 then |remaining| - 2 else 0;
      PeelStep(digits, remaining, groups, cut);
      groups := groups + [remaining[cut..]];
      remaining := remaining[..cut];
    }
  }

  /** Splitting "{:.2f}" at its point gives the integer and the fraction digits. */
  lemma SplitAtPoint(h: nat)
    ensures var s := TwoDecimal(h); |s| >= 4 && s[..|s| - 3] == IntegerPart(h) && s[|s| - 2..] == FractionPart(h)
  {
  }

  /** The pairs of everything but the last three digits, joined and followed by those three,
      give the joined groups. */
  lemma JoinGroups(amount: string, pairs: seq<string>)
    requires |amount| > 3 && PairsFromRight(amount[..|amount| - 3]) == pairs
    ensures Join(pairs, ",") + "," + amount[|amount| - 3..] == Join(Groups(amount), ",")
  {
    assert pairs != [] by {
      assert Concat(pairs) == amount[..|amount| - 3];
    }
    JoinSnoc(pairs, amount[|amount| - 3..]);
  }

  lemma JoinSnoc(parts: seq<string>, last: string)
    requires parts != []
    ensures Join(parts + [last], ",") == Join(parts, ",") + "," + last
  {
    assert (parts + [last])[..|parts|] == parts;
  }

  /** No comma appears exactly when the integer part has at most three digits. */
  lemma {:induction false} NoCommaIffShort(v: int)
    ensures ',' !in IndianCurrency(Some(v)) <==> |IntegerPart(Abs(v))| <= 3
  {
    var h := Abs(v);
    var amount := IntegerPart(h);
    var gs := Groups(amount);
    var plain := Join(gs, ",") + "." + FractionPart(h);
    DigitsHaveNoComma(FractionPart(h));
    if |amount| <= 3 {
      DigitsHaveNoComma(amount);
      assert ',' !in plain;
    } else {
      var pairs := gs[..|gs| - 1];
      assert gs == pairs + [gs[|gs| - 1]];
      JoinSnoc(pairs, gs[|gs| - 1]);
      assert plain[|Join(pairs, ",")|] == ',';
    }
  }

  lemma DigitsHaveNoComma(s: string)
    requires AllDigits(s)
    ensures ',' !in s && '(' !in s && ')' !in s
  {
    forall k | 0 <= k < |s| ensures s[k] != ',' && s[k] != '(' && s[k] != ')' {
      assert IsDigit(s[k]);
    }
  }

  /** 1234567.89 renders as "12,34,567.89". */
  lemma LakhExample()
    ensures IndianCurrency(Some(123456789)) == "12,34,567.89"
  {
    LakhExampleDigits();
    LakhExampleGroups();
  }

  lemma LakhExampleDigits()
    ensures IntegerPart(123456789) == "1234567" && FractionPart(123456789) == "89"
  {
    assert 123456789 / 100 == 1234567 && 123456789 % 100 / 10 == 8 && 123456789 % 10 == 9;
    LakhDigits();
  }

  lemma LakhDigits()
    ensures NatToDecimal(1234567) == "1234567"
  {
    assert NatToDecimal(1) == "1";
    assert NatToDecimal(12) == "12";
    assert NatToDecimal(123) == "123";
    assert NatToDecimal(1234) == "1234";
    assert NatToDecimal(12345) == "12345";
    assert NatToDecimal(123456) == "123456";
  }

  lemma LakhExampleGroups()
    ensures Join(Groups("1234567"), ",") == "12,34,567"
  {
    LakhPairs();
    assert "1234567"[..4] == "1234" && "1234567"[4..] == "567";
    assert Groups("1234567") == ["12", "34", "567"];
    LakhJoin();
  }

  lemma LakhPairs()
    ensures PairsFromRight("1234") == ["12", "34"]
  {
    assert PairsFromRight("12") == ["12"];
    assert "1234"[..2] == "12" && "1234"[2..] == "34";
  }

  lemma LakhJoin()
    ensures Join(["12", "34", "567"], ",") == "12,34,567"
  {
    assert Join(["12"], ",") == "12";
    assert Join(["12", "34"], ",") == "12,34";
  }

  /** A negative value is its absolute value's rendering in parentheses; a missing one is
      "0.00". */
  lemma NegativeInParentheses(v: int)
    ensures v < 0 ==> IndianCurrency(Some(v)) == "(" + IndianCurrency(Some(-v)) + ")"
    ensures v >= 0 ==> '(' !in IndianCurrency(Some(v))
    ensures IndianCurrency(None) == "0.00"
  {
    var h := Abs(v);
    var gs := Groups(IntegerPart(h));
    GroupsAreDigits(gs, IntegerPart(h));
    JoinHasNoParens(gs);
    DigitsHaveNoComma(FractionPart(h));
  }

  lemma GroupsAreDigits(gs: seq<string>, amount: string)
    requires gs == Groups(amount) && AllDigits(amount)
    ensures forall k :: 0 <= k < |gs| ==> AllDigits(gs[k])
  {
    if |amount| > 3 {
      var pairs := PairsFromRight(amount[..|amount| - 3]);
      PairsAreDigits(amount[..|amount| - 3]);
      assert gs == pairs + [amount[|amount| - 3..]];
    }
  }

  lemma {:induction false} PairsAreDigits(s: string)
    requires AllDigits(s)
    ensures forall k :: 0 <= k < |PairsFromRight(s)| ==> AllDigits(PairsFromRight(s)[k])
  {
    if |s| > 2 {
      PairsAreDigits(s[..|s| - 2]);
    }
  }

  lemma {:induction false} JoinHasNoParens(parts: seq<string>)
    requires forall k :: 0 <= k < |parts| ==> AllDigits(parts[k])
    ensures '(' !in Join(parts, ",") && ')' !in Join(parts, ",")
  {
    var n := |parts|;
    if n == 1 {
      DigitsHaveNoComma(parts[0]);
    } else if n > 1 {
      JoinHasNoParens(parts[..n - 1]);
      DigitsHaveNoComma(parts[n - 1]);
    }
  }

  /** Removing the commas from the joined groups gives back the integer digits. */
  lemma UngroupDigits(amount: string)
    requires AllDigits(amount)
    ensures RemoveChar(Join(Groups(amount), ","), ',') == amount
  {
    var gs := Groups(amount);
    GroupsAreDigits(gs, amount);
    forall k | 0 <= k < |gs| ensures ',' !in gs[k] {
      DigitsHaveNoComma(gs[k]);
    }
    RemoveSeparator(gs, ',');
  }

  /** Removing the commas from the unsigned rendering gives "{:.2f}". */
  lemma StripCommas(amount: string, fraction: string)
    requires AllDigits(amount) && AllDigits(fraction)
    ensures RemoveChar(Join(Groups(amount), ",") + "." + fraction, ',') == amount + "." + fraction
  {
    UngroupDigits(amount);
    DigitsHaveNoComma(fraction);
    RemoveBeforeFraction(Join(Groups(amount), ","), amount, fraction);
  }

  lemma RemoveBeforeFraction(s: string, t: string, fraction: string)
    requires RemoveChar(s, ',') == t && ',' !in fraction
    ensures RemoveChar(s + "." + fraction, ',') == t + "." + fraction
  {
    var tail := "." + fraction;
    assert ',' !in tail;
    RemoveBeforeCleanTail(s, tail, t, ',');
    assert s + "." + fraction == s + tail;
    assert t + "." + fraction == t + tail;
  }

  lemma RemoveBeforeCleanTail(s: string, tail: string, t: string, c: char)
    requires RemoveChar(s, c) == t && c !in tail
    ensures RemoveChar(s + tail, c) == t + tail
  {
    RemoveCharAppend(s, tail, c);
    RemoveAbsentChar(tail, c);
  }

  /** Removing the commas and parentheses from the rendering gives "{:.2f}" of |value|. */
  lemma StripGroupingGivesTwoDecimal(v: int)
    ensures RemoveChar(RemoveChar(RemoveChar(IndianCurrency(Some(v)), ','), '('), ')') == TwoDecimal(Abs(v))
  {
    var h := Abs(v);
    var t := TwoDecimal(h);
    StripCommas(IntegerPart(h), FractionPart(h));
    DigitsHaveNoComma(IntegerPart(h));
    DigitsHaveNoComma(FractionPart(h));
    assert '(' !in t && ')' !in t;
    RemoveAbsentChar(t, '(');
    RemoveAbsentChar(t, ')');
    if v < 0 {
      StripParentheses(Grouped(h), t);
    }
  }

  lemma StripParentheses(g: string, t: string)
    requires RemoveChar(g, ',') == t && '(' !in t && ')' !in t
    ensures RemoveChar(RemoveChar(RemoveChar("(" + g + ")", ','), '('), ')') == t
  {
    RemoveInsideParentheses(g, ',');
    DropOpening(t);
    DropClosing(t);
  }

  lemma RemoveInsideParentheses(g: string, c: char)
    requires c != '(' && c != ')'
    ensures RemoveChar("(" + g + ")", c) == "(" + RemoveChar(g, c) + ")"
  {
    RemoveCharAppend("(" + g, ")", c);
    RemoveCharAppend("(", g, c);
  }

  lemma DropOpening(t: string)
    requires '(' !in t && ')' !in t
    ensures RemoveChar("(" + t + ")", '(') == t + ")"
  {
    var front := "(" + t;
    RemoveCharAppend(front, ")", '(');
    RemoveCharAppend("(", t, '(');
    RemoveAbsentChar(t, '(');
    RemoveAbsentChar(")", '(');
    assert RemoveChar("(", '(') == [];
    assert RemoveChar(front, '(') == t;
  }

  lemma DropClosing(t: string)
    requires ')' !in t
    ensures RemoveChar(t + ")", ')') == t
  {
    RemoveCharAppend(t, ")", ')');
    RemoveAbsentChar(t, ')');
  }
}

=== FILE: rollup.dfy ===
/** The memoised roll-up over a forest: each node's total is its own balance plus the totals
    of its children. */
module Rollup {

  /** dict.get(k, 0) on a balance map. */
  function Get(m: map<int, int>, k: int): int {
    if k in m then m[k] else 0
  }

  // ---------------------------------------------------------------------------------------
  // The roll-up
  // ---------------------------------------------------------------------------------------

  function Kids(children: map<int, seq<int>>, a: int): seq<int> {
    if a in children then children[a] else []
  }

  /** Σ m.get(c, 0) over the ids `cs`. */
  function SumOver(m: map<int, int>, cs: seq<int>): int {
    if cs == [] then 0 else SumOver(m, cs[..|cs| - 1]) + Get(m, cs[|cs| - 1])
  }

  /** `m2` keeps every entry of `m1` unchanged. */
  ghost predicate Extends(m1: map<int, int>, m2: map<int, int>) {
    forall k :: k in m1 ==> k in m2 && m2[k] == m1[k]
  }

  /** Every stored total is the account's own balance plus the stored totals of its children,
      which are all stored. */
  ghost predicate RollupConsistent(own: map<int, int>, children: map<int, seq<int>>, memo: map<int, int>) {
    forall a :: a in memo ==>
      && (forall c :: c in Kids(children, a) ==> c in memo)
      && memo[a] == Get(own, a) + SumOver(memo, Kids(children, a))
  }

  /** The shape the roll-up relies on: a child is listed under one parent only, no root is
      anyone's child, and the roots lie in a finite universe that holds the children of each
      of its nodes. */
  ghost predicate Forest(children: map<int, seq<int>>, roots: seq<int>, universe: set<int>) {
    && (forall p, q, c :: p in children && q in children && c in children[p] && c in children[q] ==> p == q)
    && (forall p, r :: p in children && r in roots ==> r !in children[p])
    && (forall r :: r in roots ==> r in universe)
    && (forall p, c :: p in universe && c in Kids(children, p) ==> c in universe)
  }

  /** A path that starts at a root and goes from each node to one of its children. */
  ghost predicate IsChain(children: map<int, seq<int>>, roots: seq<int>, chain: seq<int>) {
    && chain != []
    && chain[0] in roots
    && forall i :: 0 < i < |chain| ==> chain[i] in Kids(children, chain[i - 1])
  }

  ghost predicate Reachable(children: map<int, seq<int>>, roots: seq<int>, x: int) {
    exists chain :: IsChain(children, roots, chain) && chain[|chain| - 1] == x
  }

  lemma SumOverStable(m1: map<int, int>, m2: map<int, int>, cs: seq<int>)
    requires forall c :: c in cs ==> c in m1
    requires Extends(m1, m2)
    ensures SumOver(m1, cs) == SumOver(m2, cs)
  {
    if cs != [] {
      SumOverStable(m1, m2, cs[..|cs| - 1]);
    }
  }

  /** Adding a new total for `x` that satisfies the roll-up equation keeps the memo consistent. */
  lemma ConsistentAdd(own: map<int, int>, children: map<int, seq<int>>, memo: map<int, int>, x: int, t: int)
    requires RollupConsistent(own, children, memo)
    requires x !in memo
    requires forall c :: c in Kids(children, x) ==> c in memo
    requires t == Get(own, x) + SumOver(memo, Kids(children, x))
    ensures RollupConsistent(own, children, memo[x := t])
  {
    var memo' := memo[x := t];
    assert Extends(memo, memo');
    forall a | a in memo'
      ensures (forall c :: c in Kids(children, a) ==> c in memo')
      ensures memo'[a] == Get(own, a) + SumOver(memo', Kids(children, a))
    {
      SumOverStable(memo, memo', Kids(children, a));
    }
  }

  lemma ChainExtend(children: map<int, seq<int>>, roots: seq<int>, chain: seq<int>, c: int)
    requires IsChain(children, roots, chain)
    requires c in Kids(children, chain[|chain| - 1])
    ensures IsChain(children, roots, chain + [c])
  {
  }

  lemma ChainPrefix(children: map<int, seq<int>>, roots: seq<int>, chain: seq<int>, n: int)
    requires IsChain(children, roots, chain) && 0 < n <= |chain|
    ensures IsChain(children, roots, chain[..n])
  {
  }

  lemma {:induction false} ChainInUniverse(children: map<int, seq<int>>, roots: seq<int>, universe: set<int>,
                                           chain: seq<int>, i: int)
    requires Forest(children, roots, universe) && IsChain(children, roots, chain) && 0 <= i < |chain|
    ensures chain[i] in universe
  {
    if i > 0 {
      ChainInUniverse(children, roots, universe, chain, i - 1);
      var p, c := chain[i - 1], chain[i];
      assert c in Kids(children, p);
    } else {
      var r := chain[0];
      assert r in roots;
    }
  }

  /** No node appears twice on a chain: that is what makes the recursion terminate. */
  lemma {:induction false} ChainNoRepeat(children: map<int, seq<int>>, roots: seq<int>, universe: set<int>,
                                         chain: seq<int>, i: int, j: int)
    requires Forest(children, roots, universe) && IsChain(children, roots, chain)
    requires 0 <= i < j < |chain|
    ensures chain[i] != chain[j]
    decreases i
  {
    assert chain[j] in Kids(children, chain[j - 1]);
    if i > 0 {
      assert chain[i] in Kids(children, chain[i - 1]);
      ChainNoRepeat(children, roots, universe, chain, i - 1, j - 1);
    }
  }

  lemma {:induction false} DistinctCard(s: seq<int>)
    requires forall i, j :: 0 <= i < j < |s| ==> s[i] != s[j]
    ensures |set x | x in s| == |s|
  {
    if s != [] {
      var init := s[..|s| - 1];
      DistinctCard(init);
      assert (set x | x in s) == (set x | x in init) + {s[|s| - 1]};
      assert s[|s| - 1] !in init;
    }
  }

  lemma SubsetCard(a: set<int>, b: set<int>)
    requires a <= b
    ensures |a| <= |b|
  {
    assert b == a + (b - a);
    assert a * (b - a) == {};
  }

  /** A chain is no longer than the universe has nodes. */
  lemma ChainFits(children: map<int, seq<int>>, roots: seq<int>, universe: set<int>, chain: seq<int>)
    requires Forest(children, roots, universe) && IsChain(children, roots, chain)
    ensures |chain| <= |universe|
  {
    forall i, j | 0 <= i < j < |chain| ensures chain[i] != chain[j] {
      ChainNoRepeat(children, roots, universe, chain, i, j);
    }
    DistinctCard(chain);
    forall x | x in chain ensures x in universe {
      var i :| 0 <= i < |chain| && chain[i] == x;
      ChainInUniverse(children, roots, universe, chain, i);
    }
    SubsetCard((set x | x in chain), universe);
  }

  /** Going down from `x` to one of its children extends the chain, stays in the universe, and
      leaves room below the universe's size. */
  lemma ChildStep(children: map<int, seq<int>>, roots: seq<int>, universe: set<int>, path: seq<int>, x: int, c: int)
    requires Forest(children, roots, universe) && IsChain(children, roots, path + [x]) && x in universe
    requires c in Kids(children, x)
    ensures IsChain(children, roots, path + [x] + [c]) && c in universe
    ensures 0 <= |universe| - |path + [x]| < |universe| - |path|
  {
    ChainExtend(children, roots, path + [x], c);
    ChainFits(children, roots, universe, path + [x] + [c]);
  }

  /** The roll-up's invariant: the nodes form a forest, the stored totals are consistent, and
      only nodes of the universe are stored. */
  ghost predicate RollupInv(own: map<int, int>, children: map<int, seq<int>>, roots: seq<int>, universe: set<int>,
                            memo: map<int, int>)
  {
    && Forest(children, roots, universe)
    && RollupConsistent(own, children, memo)
    && memo.Keys <= universe
  }

  /** Storing the total of a node reached by `path + [x]`, once its children are stored, keeps
      the invariant; and x is not on the path above it. */
  lemma StoreKeepsInv(own: map<int, int>, children: map<int, seq<int>>, roots: seq<int>, universe: set<int>,
                      memo: map<int, int>, x: int, t: int, path: seq<int>)
    requires RollupInv(own, children, roots, universe, memo)
    requires IsChain(children, roots, path + [x]) && x in universe && x !in memo
    requires forall c :: c in Kids(children, x) ==> c in memo
    requires t == Get(own, x) + SumOver(memo, Kids(children, x))
    ensures RollupInv(own, children, roots, universe, memo[x := t])
    ensures x !in path
  {
    forall j | 0 <= j < |path| ensures path[j] != x {
      ChainNoRepeat(children, roots, universe, path + [x], j, |path|);
      assert (path + [x])[j] == path[j];
    }
    ConsistentAdd(own, children, memo, x, t);
  }

  /** The memoised recursion of the roll-up: `memo` is the dictionary of final balances it
      fills, `own` the accounts' own balances and `children` the children index. */
  class BalanceRollup {
    const own: map<int, int>
    const children: map<int, seq<int>>
    const roots: seq<int>
    ghost const universe: set<int>
    var memo: map<int, int>

    ghost predicate Valid()
      reads this
    {
      RollupInv(own, children, roots, universe, memo)
    }

    constructor (own: map<int, int>, children: map<int, seq<int>>, roots: seq<int>, ghost universe: set<int>)
      requires Forest(children, roots, universe)
      ensures Valid() && memo == map[]
      ensures this.own == own && this.children == children && this.roots == roots && this.universe == universe
    {
      this.own, this.children, this.roots, this.universe := own, children, roots, universe;
      memo := map[];
    }

    /** get_balance(x): the stored total if there is one; otherwise the own balance plus the
        totals of the children, computed recursively and then stored. `path` is the chain of
        ancestors from a root down to x's parent. */
    method GetBalance(x: int, ghost path: seq<int>) returns (total: int)
      requires Valid() && IsChain(children, roots, path + [x]) && x in universe
      modifies this
      ensures Valid()
      ensures x in memo && total == memo[x]
      ensures Extends(old(memo), memo)
      ensures x in old(memo) ==> memo == old(memo)
      ensures forall k :: k in memo && k !in old(memo) ==> k !in path
      decreases |universe| - |path|
    {
      if x in memo {
        return memo[x];
      }
      total := Get(own, x);
      var kids := Kids(children, x);
      var i := 0;
      while i < |kids|
        invariant 0 <= i <= |kids|
        invariant Valid()
        invariant x !in memo
        invariant Extends(old(memo), memo)
        invariant forall k :: k in memo && k !in old(memo) ==> k !in path + [x]
        invariant forall j :: 0 <= j < i ==> kids[j] in memo
        invariant total == Get(own, x) + SumOver(memo, kids[..i])
      {
        var c := kids[i];
        ChildStep(children, roots, universe, path, x, c);
        ghost var before := memo;
        var t := GetBalance(c, path + [x]);
        forall j | 0 <= j <= i ensures kids[j] in memo {
          if j < i {
            var k := kids[j];
            assert k in before;
          }
        }
        SumOverStable(before, memo, kids[..i]);
        assert kids[..i + 1] == kids[..i] + [c];
        total := total + t;
        i := i + 1;
      }
      assert kids[..|kids|] == kids;
      StoreKeepsInv(own, children, roots, universe, memo, x, total, path);
      memo := memo[x := total];
    }
  }

  /** Calls get_balance on every root, in order, starting from an empty memo, and returns
      the filled memo: consistent, within the universe, and holding every root. */
  method RollupFromRoots(own: map<int, int>, children: map<int, seq<int>>, roots: seq<int>, ghost universe: set<int>)
    returns (totals: map<int, int>)
    requires Forest(children, roots, universe)
    ensures RollupConsistent(own, children, totals)
    ensures totals.Keys <= universe
    ensures forall r :: r in roots ==> r in totals
  {
    var rollup := new BalanceRollup(own, children, roots, universe);
    for i := 0 to |roots|
      invariant rollup.Valid()
      invariant rollup.own == own && rollup.children == children && rollup.roots == roots
      invariant rollup.universe == universe
      invariant forall j :: 0 <= j < i ==> roots[j] in rollup.memo
    {
      var r := roots[i];
      assert r in roots;
      assert IsChain(children, roots, [] + [r]);
      ghost var before := rollup.memo;
      var _ := rollup.GetBalance(r, []);
      forall j | 0 <= j <= i ensures roots[j] in rollup.memo {
        if j < i {
          var k := roots[j];
          assert k in before;
        }
      }
    }
    totals := rollup.memo;
    forall r | r in roots ensures r in totals {
      var j :| 0 <= j < |roots| && roots[j] == r;
    }
  }

  /** Every node on a chain is stored once all roots are stored and the memo is consistent. */
  lemma {:induction false} ChainsAreStored(own: map<int, int>, children: map<int, seq<int>>, roots: seq<int>,
                                           memo: map<int, int>, chain: seq<int>)
    requires RollupConsistent(own, children, memo)
    requires forall r :: r in roots ==> r in memo
    requires IsChain(children, roots, chain)
    ensures chain[|chain| - 1] in memo
  {
    var n := |chain|;
    if n > 1 {
      var prefix := chain[..n - 1];
      ChainPrefix(children, roots, chain, n - 1);
      ChainsAreStored(own, children, roots, memo, prefix);
      var parent, last := chain[n - 2], chain[n - 1];
      assert prefix[n - 2] == parent;
      assert last in Kids(children, parent);
    } else {
      var r := chain[0];
      assert r in roots;
    }
  }

}

=== FILE: statement_generation.dfy ===
/** calculate_statement_data: the account index, the children index, and the rolled-up balance
    of every account reachable from a root, for one work. */
module StatementGeneration {
  import opened Wrappers
  import opened Domain
  import opened Chart
  import opened LeafSums
  import opened Rollup

  /** An account is reachable when a chain of parent links leads down to it from a root. */
  ghost predicate ReachableAccount(accounts: seq<Account>, x: int) {
    Reachable(ChildrenIndex(accounts), RootIds(accounts), x)
  }

  /** The accounts reachable from a root: the universe of the roll-up. */
  ghost function ReachableIds(accounts: seq<Account>): set<int> {
    set x | x in AccountIds(accounts) && ReachableAccount(accounts, x)
  }

  /** The last step of a chain goes from an account's parent to the account. */
  lemma ChainStepIsParentLink(accounts: seq<Account>, chain: seq<int>)
    requires IsChain(ChildrenIndex(accounts), RootIds(accounts), chain) && |chain| > 1
    ensures exists i :: 0 <= i < |accounts| && accounts[i].id == chain[|chain| - 1]
                        && accounts[i].parentId == Some(chain[|chain| - 2])
  {
    var n := |chain|;
    var p, c := chain[n - 2], chain[n - 1];
    assert c in Kids(ChildrenIndex(accounts), p);
    ChildrenIndexShape(accounts, p);
  }

  /** Every node a chain reaches is the id of an account. */
  lemma ChainEndIsAccount(accounts: seq<Account>, chain: seq<int>)
    requires IsChain(ChildrenIndex(accounts), RootIds(accounts), chain)
    ensures chain[|chain| - 1] in AccountIds(accounts)
  {
    var x := chain[|chain| - 1];
    if |chain| == 1 {
      assert x in RootIds(accounts);
      var i :| 0 <= i < |accounts| && accounts[i].id == x && accounts[i].parentId == None;
      assert accounts[i] in accounts;
    } else {
      ChainStepIsParentLink(accounts, chain);
      var i :| 0 <= i < |accounts| && accounts[i].id == x && accounts[i].parentId == Some(chain[|chain| - 2]);
      assert accounts[i] in accounts;
    }
  }

  /** A child id is listed under one parent only when account ids are unique. */
  lemma ChildOfOneParent(accounts: seq<Account>, p: int, q: int, c: int)
    requires AccountIdsUnique(accounts)
    requires p in ChildrenIndex(accounts) && q in ChildrenIndex(accounts)
    requires c in ChildrenIndex(accounts)[p] && c in ChildrenIndex(accounts)[q]
    ensures p == q
  {
    var i :| 0 <= i < |accounts| && accounts[i].id == c && accounts[i].parentId == Some(p);
    var j :| 0 <= j < |accounts| && accounts[j].id == c && accounts[j].parentId == Some(q);
    assert i == j;
  }

  /** A root is listed under no parent when account ids are unique. */
  lemma RootIsNoChild(accounts: seq<Account>, p: int, r: int)
    requires AccountIdsUnique(accounts)
    requires p in ChildrenIndex(accounts) && r in RootIds(accounts)
    ensures r !in ChildrenIndex(accounts)[p]
  {
  }

  /** The reachable accounts contain the roots and the children of each of their members. */
  lemma ReachableClosed(accounts: seq<Account>, p: int, c: int)
    requires p in ReachableIds(accounts) && c in Kids(ChildrenIndex(accounts), p)
    ensures c in ReachableIds(accounts)
  {
    var children, roots := ChildrenIndex(accounts), RootIds(accounts);
    var chain :| IsChain(children, roots, chain) && chain[|chain| - 1] == p;
    ChainExtend(children, roots, chain, c);
    ChainEndIsAccount(accounts, chain + [c]);
  }

  lemma RootReachable(accounts: seq<Account>, r: int)
    requires r in RootIds(accounts)
    ensures r in ReachableIds(accounts)
  {
    var chain := [r];
    assert IsChain(ChildrenIndex(accounts), RootIds(accounts), chain);
    ChainEndIsAccount(accounts, chain);
  }

  /** The accounts, the children index and the roots form a forest over the reachable
      accounts when account ids are unique. */
  lemma AccountsFormForest(accounts: seq<Account>)
    requires AccountIdsUnique(accounts)
    ensures Forest(ChildrenIndex(accounts), RootIds(accounts), ReachableIds(accounts))
  {
    var children, roots, reach := ChildrenIndex(accounts), RootIds(accounts), ReachableIds(accounts);
    forall p, q, c | p in children && q in children && c in children[p] && c in children[q]
      ensures p == q
    {
      ChildOfOneParent(accounts, p, q, c);
    }
    forall p, r | p in children && r in roots
      ensures r !in children[p]
    {
      RootIsNoChild(accounts, p, r);
    }
    forall r | r in roots ensures r in reach {
      RootReachable(accounts, r);
    }
    forall p, c | p in reach && c in Kids(children, p) ensures c in reach {
      ReachableClosed(accounts, p, c);
    }
  }

  /** No account of a set closed under "has its parent in the set" is reachable: this covers
      every parent cycle. */
  lemma {:induction false} ParentClosedUnreachable(accounts: seq<Account>, s: set<int>, chain: seq<int>)
    requires forall k :: 0 <= k < |accounts| && accounts[k].id in s ==>
               accounts[k].parentId.Some? && accounts[k].parentId.value in s
    ensures !(IsChain(ChildrenIndex(accounts), RootIds(accounts), chain) && chain[|chain| - 1] in s)
  {
    var children, roots := ChildrenIndex(accounts), RootIds(accounts);
    if IsChain(children, roots, chain) && chain[|chain| - 1] in s {
      var n := |chain|;
      var x := chain[n - 1];
      if n == 1 {
        assert false;
      } else {
        ChainStepIsParentLink(accounts, chain);
        var i :| 0 <= i < |accounts| && accounts[i].id == x && accounts[i].parentId == Some(chain[n - 2]);
        var prefix := chain[..n - 1];
        ChainPrefix(children, roots, chain, n - 1);
        ParentClosedUnreachable(accounts, s, prefix);
        assert false;
      }
    }
  }

  /** An account whose parent id is falsy (0) or names no account is not reachable. */
  lemma OrphanUnreachable(accounts: seq<Account>, i: int)
    requires AccountIdsUnique(accounts) && 0 <= i < |accounts|
    requires accounts[i].parentId.Some?
    requires accounts[i].parentId.value == 0 || accounts[i].parentId.value !in AccountIds(accounts)
    ensures !ReachableAccount(accounts, accounts[i].id)
  {
    var children, roots := ChildrenIndex(accounts), RootIds(accounts);
    if ReachableAccount(accounts, accounts[i].id) {
      var chain :| IsChain(children, roots, chain) && chain[|chain| - 1] == accounts[i].id;
      var n := |chain|;
      if n == 1 {
        assert false;
      } else {
        ChainStepIsParentLink(accounts, chain);
        var j :| 0 <= j < |accounts| && accounts[j].id == accounts[i].id && accounts[j].parentId == Some(chain[n - 2]);
        assert i == j;
        var prefix := chain[..n - 1];
        ChainPrefix(children, roots, chain, n - 1);
        ChainEndIsAccount(accounts, prefix);
        assert false;
      }
    }
  }

  /** calculate_statement_data: the final balances of every account reachable from a root, the
      account index and the children index. */
  method CalculateStatementData(db: Database, workId: int)
    returns (finalBalances: map<int, int>, accountMap: map<int, Account>, childrenMap: map<int, seq<int>>)
    requires db.Valid()
    ensures accountMap == AccountIndex(db.accounts)
    ensures childrenMap == ChildrenIndex(db.accounts)
    ensures forall a :: a in finalBalances <==> ReachableAccount(db.accounts, a)
    ensures forall a :: a in finalBalances ==>
      finalBalances[a] == EntrySum(db.entries, db.mappings, workId, a) + SumOver(finalBalances, Kids(childrenMap, a))
  {
    var accounts := db.accounts;
    accountMap := AccountIndex(accounts);
    childrenMap := BuildChildrenMap(accounts);
    var balances := OwnBalances(accounts, QueryRows(db.entries, db.mappings, workId));

    var roots := RootIds(accounts);
    AccountsFormForest(accounts);
    finalBalances := RollupFromRoots(balances, childrenMap, roots, ReachableIds(accounts));
    RollupValues(db.entries, db.mappings, workId, accounts, balances, finalBalances);
    RollupCoversReachable(accounts, balances, finalBalances);
    RollupStoresReachable(accounts, finalBalances);
  }

  /** Every account the roll-up stores has its reference own balance plus its children's
      totals. */
  lemma RollupValues(entries: seq<TrialBalanceEntry>, mappings: seq<MappedLedgerEntry>, w: int,
                     accounts: seq<Account>, balances: map<int, int>, finalBalances: map<int, int>)
    requires MappingEntryRefsUnique(mappings)
    requires balances.Keys == AccountIds(accounts)
    requires forall a :: a in balances ==> balances[a] == RowTotal(QueryRows(entries, mappings, w), a)
    requires RollupConsistent(balances, ChildrenIndex(accounts), finalBalances)
    requires finalBalances.Keys <= ReachableIds(accounts)
    ensures forall a :: a in finalBalances ==>
      finalBalances[a] == EntrySum(entries, mappings, w, a) + SumOver(finalBalances, Kids(ChildrenIndex(accounts), a))
  {
    forall a | a in finalBalances
      ensures finalBalances[a] == EntrySum(entries, mappings, w, a) + SumOver(finalBalances, Kids(ChildrenIndex(accounts), a))
    {
      assert a in ReachableIds(accounts);
      LeafTotalIsEntrySum(entries, mappings, w, a);
    }
  }

  /** Once every root is stored, every reachable account is stored. */
  lemma RollupCoversReachable(accounts: seq<Account>, balances: map<int, int>, finalBalances: map<int, int>)
    requires RollupConsistent(balances, ChildrenIndex(accounts), finalBalances)
    requires forall r :: r in RootIds(accounts) ==> r in finalBalances
    ensures forall a :: ReachableAccount(accounts, a) ==> a in finalBalances
  {
    var children, roots := ChildrenIndex(accounts), RootIds(accounts);
    forall a | ReachableAccount(accounts, a) ensures a in finalBalances {
      var chain :| IsChain(children, roots, chain) && chain[|chain| - 1] == a;
      ChainsAreStored(balances, children, roots, finalBalances, chain);
    }
  }

  /** The roll-up stores only reachable accounts. */
  lemma RollupStoresReachable(accounts: seq<Account>, finalBalances: map<int, int>)
    requires finalBalances.Keys <= ReachableIds(accounts)
    ensures forall a :: a in finalBalances ==> ReachableAccount(accounts, a)
  {
    forall a | a in finalBalances ensures ReachableAccount(accounts, a) {
      assert a in ReachableIds(accounts);
    }
  }
}

=== FILE: text.dfy ===
/** The few Python string operations the core relies on: strip, case mapping, title case,
    character removal, joining, and decimal digit strings. */
module Text {

  /** Characters for which Python's str.isspace() holds: the set str.strip() removes. */
  predicate IsSpace(c: char) {
    c == ' ' || ('\t' <= c <= '\r') || ('\U{1c}' <= c <= '\U{1f}') || c == '\U{85}' || c == '\U{a0}'
    || c == '\U{1680}' || ('\U{2000}' <= c <= '\U{200a}') || c == '\U{2028}' || c == '\U{2029}'
    || c == '\U{202f}' || c == '\U{205f}' || c == '\U{3000}'
  }

  /** Removes leading whitespace. */
  function TrimStart(s: string): (r: string)
    ensures |r| <= |s| && r == s[|s| - |r|..]
    ensures forall k :: 0 <= k < |s| - |r| ==> IsSpace(s[k])
    ensures r == [] || !IsSpace(r[0])
  {
    if s != [] && IsSpace(s[0]) then TrimStart(s[1..]) else s
  }

  /** Removes trailing whitespace. */
  function TrimEnd(s: string): (r: string)
    ensures |r| <= |s| && r == s[..|r|]
    ensures forall k :: |r| <= k < |s| ==> IsSpace(s[k])
    ensures r == [] || !IsSpace(r[|r| - 1])
  {
    if s != [] && IsSpace(s[|s| - 1]) then TrimEnd(s[..|s| - 1]) else s
  }

  /** Python's str.strip() with no argument. StripSlice says which text it leaves. */
  function Strip(s: string): (r: string)
    ensures |r| <= |s|
    ensures r == [] || (!IsSpace(r[0]) && !IsSpace(r[|r| - 1]))
    ensures (forall k :: 0 <= k < |s| ==> !IsSpace(s[k])) ==> r == s
  {
    TrimEnd(TrimStart(s))
  }

  /** What strip leaves is a slice of the text with only whitespace before and after it, and
      that slice neither starts nor ends with whitespace: it is the text with exactly its
      leading and trailing whitespace removed. */
  lemma StripSlice(s: string)
    ensures var r := Strip(s);
      exists i :: (0 <= i <= |s| - |r| && r == s[i..][..|r|]
        && (forall k :: 0 <= k < i ==> IsSpace(s[k]))
        && (forall k :: i + |r| <= k < |s| ==> IsSpace(s[k])))
  {
    var t := TrimStart(s);
    var r := Strip(s);
    var i := |s| - |t|;
    assert t == s[i..];
    assert r == s[i..][..|r|];
    forall k | i + |r| <= k < |s| ensures IsSpace(s[k]) {
      assert s[k] == t[k - i];
    }
  }

  predicate IsAsciiLower(c: char) { 'a' <= c <= 'z' }
  predicate IsAsciiUpper(c: char) { 'A' <= c <= 'Z' }
  predicate IsDigit(c: char) { '0' <= c <= '9' }

  function UpperChar(c: char): char {
    if IsAsciiLower(c) then (c as int - 32) as char else c
  }

  /** Upper-casing turns no character into whitespace and no whitespace into anything else. */
  lemma UpperKeepsSpaces(s: string)
    ensures forall k :: 0 <= k < |s| ==> (IsSpace(Upper(s)[k]) <==> IsSpace(s[k]))
  {
  }

  function LowerChar(c: char): char {
    if IsAsciiUpper(c) then (c as int + 32) as char else c
  }

  /** str.upper(), for the ASCII letters: no lower-case letter is left, each one is replaced by
      its capital, and every other character stays where it was. */
  function Upper(s: string): (r: string)
    ensures |r| == |s|
    ensures forall k :: 0 <= k < |r| ==> !IsAsciiLower(r[k])
    ensures forall k :: 0 <= k < |s| ==> IsAsciiLower(s[k]) ==> IsAsciiUpper(r[k]) && LowerChar(r[k]) == s[k]
    ensures forall k :: 0 <= k < |s| ==> !IsAsciiLower(s[k]) ==> r[k] == s[k]
  {
    seq(|s|, k requires 0 <= k < |s| => UpperChar(s[k]))
  }

  /** str.lower(), for the ASCII letters: no capital is left, each one is replaced by its
      lower-case letter, and every other character stays where it was. */
  function Lower(s: string): (r: string)
    ensures |r| == |s|
    ensures forall k :: 0 <= k < |r| ==> !IsAsciiUpper(r[k])
    ensures forall k :: 0 <= k < |s| ==> IsAsciiUpper(s[k]) ==> IsAsciiLower(r[k]) && UpperChar(r[k]) == s[k]
    ensures forall k :: 0 <= k < |s| ==> !IsAsciiUpper(s[k]) ==> r[k] == s[k]
  {
    seq(|s|, k requires 0 <= k < |s| => LowerChar(s[k]))
  }

  /** str.title(), for the ASCII letters: a letter that follows a letter is lower-cased,
      any other letter is upper-cased. `afterLetter` tells whether the character before
      `s` was a letter. */
  function TitleFrom(s: string, afterLetter: bool): (r: string)
    ensures |r| == |s|
    ensures forall k :: 0 <= k < |s| ==> !IsAsciiLower(s[k]) && !IsAsciiUpper(s[k]) ==> r[k] == s[k]
  {
    if s == [] then []
    else
      var c := s[0];
      [if afterLetter then LowerChar(c) else UpperChar(c)] + TitleFrom(s[1..], IsAsciiLetter(c))
  }

  predicate IsAsciiLetter(c: char) { IsAsciiLower(c) || IsAsciiUpper(c) }

  function Title(s: string): (r: string)
    ensures |r| == |s|
  {
    TitleFrom(s, false)
  }

  /** What str.title() does: the first letter of every run of letters becomes a capital and
      the letters after it become lower case; every other character is kept. */
  lemma {:induction false} TitleFromMeans(s: string, afterLetter: bool)
    ensures var r := TitleFrom(s, afterLetter);
      && (s != [] ==> r[0] == if afterLetter then LowerChar(s[0]) else UpperChar(s[0]))
      && (forall k :: 0 < k < |s| ==>
            r[k] == if IsAsciiLetter(s[k - 1]) then LowerChar(s[k]) else UpperChar(s[k]))
    decreases |s|
  {
    if s != [] {
      var r, rest := TitleFrom(s, afterLetter), TitleFrom(s[1..], IsAsciiLetter(s[0]));
      TitleFromMeans(s[1..], IsAsciiLetter(s[0]));
      assert r == [r[0]] + rest;
      forall k | 1 < k < |s|
        ensures r[k] == if IsAsciiLetter(s[k - 1]) then LowerChar(s[k]) else UpperChar(s[k])
      {
        assert r[k] == rest[k - 1] && s[1..][k - 2] == s[k - 1] && s[1..][k - 1] == s[k];
      }
    }
  }

  lemma TitleMeans(s: string)
    ensures var r := Title(s);
      && (s != [] ==> r[0] == UpperChar(s[0]))
      && (forall k :: 0 < k < |s| ==>
            r[k] == if IsAsciiLetter(s[k - 1]) then LowerChar(s[k]) else UpperChar(s[k]))
  {
    TitleFromMeans(s, false);
  }

  /** str.replace(c, ''): every occurrence of `c` removed. RemoveCharKeeps and
      RemoveCharAppend say that everything else is kept, in order. */
  function RemoveChar(s: string, c: char): (r: string)
    ensures |r| <= |s|
    ensures c !in r
  {
    if s == [] then []
    else
      assert s == [s[0]] + s[1..];
      (if s[0] == c then [] else [s[0]]) + RemoveChar(s[1..], c)
  }

  /** Case folding forgets an earlier upper-casing, and the other way round: two texts that
      differ only in the case of their ASCII letters fold to the same text. */
  lemma LowerOfUpper(s: string)
    ensures Lower(Upper(s)) == Lower(s)
    ensures Upper(Lower(s)) == Upper(s)
  {
    var u, l := Upper(s), Lower(s);
    forall k | 0 <= k < |s| ensures Lower(u)[k] == Lower(s)[k] && Upper(l)[k] == Upper(s)[k] {
      if IsAsciiLower(s[k]) {
        assert IsAsciiLower(l[k]);
      } else if IsAsciiUpper(s[k]) {
        assert IsAsciiUpper(u[k]);
      }
    }
  }

  /** sep.join(parts). */
  function Join(parts: seq<string>, sep: string): string {
    if parts == [] then []
    else if |parts| == 1 then parts[0]
    else Join(parts[..|parts| - 1], sep) + sep + parts[|parts| - 1]
  }

  /** The parts written one after another: sep.join(parts) with an empty separator. */
  function Concat(parts: seq<string>): string {
    if parts == [] then [] else Concat(parts[..|parts| - 1]) + parts[|parts| - 1]
  }

  /** list.reverse(). */
  function Reversed<T>(s: seq<T>): (r: seq<T>)
    ensures |r| == |s|
  {
    if s == [] then [] else [s[|s| - 1]] + Reversed(s[..|s| - 1])
  }

  /** Removing a character commutes with concatenation. */
  lemma {:induction false} RemoveCharAppend(a: string, b: string, c: char)
    ensures RemoveChar(a + b, c) == RemoveChar(a, c) + RemoveChar(b, c)
  {
    if a != [] {
      assert (a + b)[1..] == a[1..] + b;
      RemoveCharAppend(a[1..], b, c);
    } else {
      assert a + b == b;
    }
  }

  /** Removing a character keeps every other character as many times as it occurs. */
  lemma {:induction false} RemoveCharKeeps(s: string, c: char)
    ensures forall x :: multiset(RemoveChar(s, c))[x] == if x == c then 0 else multiset(s)[x]
  {
    if s != [] {
      var rest := s[1..];
      RemoveCharKeeps(rest, c);
      assert s == [s[0]] + rest;
      assert multiset(s) == multiset{s[0]} + multiset(rest);
      if s[0] == c {
        assert RemoveChar(s, c) == RemoveChar(rest, c);
      } else {
        assert RemoveChar(s, c) == [s[0]] + RemoveChar(rest, c);
        assert multiset(RemoveChar(s, c)) == multiset{s[0]} + multiset(RemoveChar(rest, c));
      }
    }
  }

  /** Removing a character that does not occur changes nothing. */
  lemma {:induction false} RemoveAbsentChar(s: string, c: char)
    requires c !in s
    ensures RemoveChar(s, c) == s
  {
    if s != [] {
      assert s[0] != c;
      RemoveAbsentChar(s[1..], c);
      assert s == [s[0]] + s[1..];
    }
  }

  /** Joining parts that do not contain the one-character separator and then removing that
      character gives the parts written one after another. */
  lemma {:induction false} RemoveSeparator(parts: seq<string>, c: char)
    requires forall k :: 0 <= k < |parts| ==> c !in parts[k]
    ensures RemoveChar(Join(parts, [c]), c) == Concat(parts)
  {
    var n := |parts|;
    if n == 1 {
      RemoveAbsentChar(parts[0], c);
      assert Concat(parts) == Concat([]) + parts[0];
    } else if n > 1 {
      var init, last := parts[..n - 1], parts[n - 1];
      RemoveSeparator(init, c);
      RemoveCharAppend(Join(init, [c]) + [c], last, c);
      RemoveCharAppend(Join(init, [c]), [c], c);
      RemoveAbsentChar(last, c);
    }
  }

  function DigitChar(d: nat): char
    requires d < 10
  {
    ('0' as int + d) as char
  }

  function DigitValue(c: char): nat
    requires IsDigit(c)
  {
    c as int - '0' as int
  }

  predicate AllDigits(s: string) {
    forall k :: 0 <= k < |s| ==> IsDigit(s[k])
  }

  /** The value of a string of decimal digits (most significant first). */
  function DecimalValue(s: string): nat
    requires AllDigits(s)
  {
    if s == [] then 0 else 10 * DecimalValue(s[..|s| - 1]) + DigitValue(s[|s| - 1])
  }

  /** str(n) for a natural number: its decimal digits without leading zeros. */
  function NatToDecimal(n: nat): (r: string)
    ensures |r| >= 1 && AllDigits(r)
    ensures |r| > 1 ==> r[0] != '0'
  {
    if n < 10 then [DigitChar(n)] else NatToDecimal(n / 10) + [DigitChar(n % 10)]
  }

  /** Reading back the digits of n gives n. */
  lemma {:induction false} DecimalRoundTrip(n: nat)
    ensures DecimalValue(NatToDecimal(n)) == n
  {
    var r := NatToDecimal(n);
    if n >= 10 {
      DecimalRoundTrip(n / 10);
      assert r[..|r| - 1] == NatToDecimal(n / 10);
    }
  }

  /** A digit string of length at most k stands for a number below 10^k. */
  lemma {:induction false} DecimalValueBound(s: string, bound: nat)
    requires AllDigits(s) && bound == Pow10(|s|)
    ensures DecimalValue(s) < bound
  {
    if s != [] {
      DecimalValueBound(s[..|s| - 1], Pow10(|s| - 1));
    }
  }

  function Pow10(k: nat): (r: nat)
    ensures r >= 1
  {
    if k == 0 then 1 else 10 * Pow10(k - 1)
  }
}

=== FILE: trial_balance.dfy ===
/** process_trial_balance_upload: a parsed sheet replaces the trial balance of one financial
    work. The work's old entries are deleted one by one, then the parsed rows are added as new
    entries with fresh ids; other works' entries and the mapping table are not touched. */
module TrialBalance {
  import opened Wrappers
  import opened Domain
  import opened CsvParser

  /** The entries of one work, in table order (the select on the work id). */
  function EntriesOf(entries: seq<TrialBalanceEntry>, workId: int): (r: seq<TrialBalanceEntry>)
    ensures |r| <= |entries|
    ensures forall e :: e in r <==> e in entries && e.workId == workId
  {
    if entries == [] then []
    else if entries[0].workId == workId then [entries[0]] + EntriesOf(entries[1..], workId)
    else EntriesOf(entries[1..], workId)
  }

  /** The entries that belong to any other work, in table order. */
  function OtherWorks(entries: seq<TrialBalanceEntry>, workId: int): (r: seq<TrialBalanceEntry>)
    ensures |r| <= |entries|
    ensures forall e :: e in r <==> e in entries && e.workId != workId
  {
    if entries == [] then []
    else if entries[0].workId != workId then [entries[0]] + OtherWorks(entries[1..], workId)
    else OtherWorks(entries[1..], workId)
  }

  /** The table after the work's entries with an id in `deleted` are gone. */
  function Remaining(entries: seq<TrialBalanceEntry>, workId: int, deleted: set<int>): (r: seq<TrialBalanceEntry>)
    ensures forall e :: e in r <==> e in entries && !(e.workId == workId && e.id in deleted)
  {
    if entries == [] then []
    else if entries[0].workId == workId && entries[0].id in deleted then Remaining(entries[1..], workId, deleted)
    else [entries[0]] + Remaining(entries[1..], workId, deleted)
  }

  /** session.delete of one entry: the row with that id leaves the table. */
  function RemoveEntry(entries: seq<TrialBalanceEntry>, id: int): (r: seq<TrialBalanceEntry>)
    ensures forall e :: e in r <==> e in entries && e.id != id
  {
    if entries == [] then []
    else if entries[0].id == id then RemoveEntry(entries[1..], id)
    else [entries[0]] + RemoveEntry(entries[1..], id)
  }

  /** The ids of some entries. */
  function Ids(entries: seq<TrialBalanceEntry>): set<int> {
    set e | e in entries :: e.id
  }

  /** The entries built from the parsed rows: one per row, in row order, with consecutive ids
      from `firstId`, all belonging to the work. */
  function NewEntries(rows: seq<ParsedRow>, workId: int, firstId: int): (r: seq<TrialBalanceEntry>)
    ensures |r| == |rows|
  {
    seq(|rows|, i requires 0 <= i < |rows| =>
      TrialBalanceEntry(firstId + i, workId, rows[i].accountName, rows[i].debit, rows[i].credit,
                        rows[i].closingBalance))
  }

  /** The figures of some entries, as parsed rows. */
  function Rows(entries: seq<TrialBalanceEntry>): (r: seq<ParsedRow>)
    ensures |r| == |entries|
  {
    seq(|entries|, i requires 0 <= i < |entries| =>
      ParsedRow(entries[i].accountName, entries[i].debit, entries[i].credit, entries[i].closingBalance))
  }

  /** The entry table after a successful upload of `rows` for the work. */
  function Uploaded(entries: seq<TrialBalanceEntry>, workId: int, rows: seq<ParsedRow>, firstId: int): (r: seq<TrialBalanceEntry>)
    ensures |r| == |OtherWorks(entries, workId)| + |rows|
    ensures forall e :: e in r && e.workId != workId ==> e in entries
  {
    OtherWorks(entries, workId) + NewEntries(rows, workId, firstId)
  }

  /** process_trial_balance_upload, with the file already split into a sheet: 404 for an unknown
      work and 400 for a sheet with no kept rows, both before anything is deleted; otherwise
      the work's entries are replaced by the parsed rows and their number is returned. */
  method ProcessTrialBalanceUpload(db: Database, workId: int, sheet: Sheet) returns (r: Result<nat>)
    requires db.Valid()
    modifies db
    ensures db.Valid()
    ensures db.works == old(db.works) && db.accounts == old(db.accounts) && db.mappings == old(db.mappings)
    ensures db.nextAccountId == old(db.nextAccountId) && db.nextMappingId == old(db.nextMappingId)
    ensures FindWork(db.works, workId).None? ==> r == Failure(HttpError(404, "Financial Work not found"))
    ensures FindWork(db.works, workId).Some? && TrialBalanceRows(sheet) == [] ==>
      r == Failure(HttpError(400, "Failed to parse CSV or empty file"))
    ensures r.Failure? ==> db.entries == old(db.entries) && db.nextEntryId == old(db.nextEntryId)
    ensures r.Success? <==> FindWork(db.works, workId).Some? && TrialBalanceRows(sheet) != []
    ensures r.Success? ==>
      && r.value == |TrialBalanceRows(sheet)|
      && db.entries == Uploaded(old(db.entries), workId, TrialBalanceRows(sheet), old(db.nextEntryId))
      && db.nextEntryId == old(db.nextEntryId) + |TrialBalanceRows(sheet)|
  {
    var work := FindWork(db.works, workId);
    if work.None? {
      return Failure(HttpError(404, "Financial Work not found"));
    }
    var parsed := ParseTrialBalance(sheet);
    if parsed == [] {
      return Failure(HttpError(400, "Failed to parse CSV or empty file"));
    }
    DeleteWorkEntries(db, workId);
    AddEntries(db, parsed, workId);
    return Success(|parsed|);
  }

  /** add_all of the entries built from the parsed rows: they take the next ids in row order. */
  method AddEntries(db: Database, rows: seq<ParsedRow>, workId: int)
    requires db.Valid()
    modifies db
    ensures db.Valid()
    ensures db.entries == old(db.entries) + NewEntries(rows, workId, old(db.nextEntryId))
    ensures db.nextEntryId == old(db.nextEntryId) + |rows|
    ensures db.works == old(db.works) && db.accounts == old(db.accounts) && db.mappings == old(db.mappings)
    ensures db.nextAccountId == old(db.nextAccountId) && db.nextMappingId == old(db.nextMappingId)
  {
    var created := NewEntries(rows, workId, db.nextEntryId);
    NewEntriesFresh(rows, workId, db.nextEntryId);
    ValidAfterAppend(db.entries, created, db.nextEntryId);
    db.entries := db.entries + created;
    db.nextEntryId := db.nextEntryId + |created|;
  }

  /** The delete loop: every entry the select on the work id returned is deleted in turn, which
      leaves exactly the other works' entries. */
  method DeleteWorkEntries(db: Database, workId: int)
    requires db.Valid()
    modifies db
    ensures db.Valid()
    ensures db.entries == OtherWorks(old(db.entries), workId)
    ensures db.works == old(db.works) && db.accounts == old(db.accounts) && db.mappings == old(db.mappings)
    ensures db.nextAccountId == old(db.nextAccountId) && db.nextEntryId == old(db.nextEntryId)
    ensures db.nextMappingId == old(db.nextMappingId)
  {
    var all := db.entries;
    var existing := EntriesOf(all, workId);
    NothingDeleted(all, workId);
    assert Ids(existing[..0]) == {};
    for i := 0 to |existing|
      invariant db.entries == Remaining(all, workId, Ids(existing[..i]))
      invariant db.works == old(db.works) && db.accounts == old(db.accounts) && db.mappings == old(db.mappings)
      invariant db.nextAccountId == old(db.nextAccountId) && db.nextEntryId == old(db.nextEntryId)
      invariant db.nextMappingId == old(db.nextMappingId)
    {
      DeleteStep(all, workId, existing, i);
      db.entries := RemoveEntry(db.entries, existing[i].id);
    }
    DeletedAll(all, workId, existing);
    OtherWorksKeepsValid(all, workId, db.nextEntryId);
  }

  /** Deleting the next selected entry adds its id to the deleted ones. */
  lemma DeleteStep(entries: seq<TrialBalanceEntry>, workId: int, existing: seq<TrialBalanceEntry>, i: nat)
    requires EntryIdsUnique(entries) && existing == EntriesOf(entries, workId) && i < |existing|
    ensures RemoveEntry(Remaining(entries, workId, Ids(existing[..i])), existing[i].id)
         == Remaining(entries, workId, Ids(existing[..i + 1]))
  {
    var x := existing[i];
    assert x in existing;
    IdsNext(existing, i);
    forall e | e in entries && e.id == x.id ensures e.workId == workId {
      SameIdSameEntry(entries, e, x);
    }
    RemoveFromRemaining(entries, workId, Ids(existing[..i]), x.id);
  }

  lemma IdsNext(s: seq<TrialBalanceEntry>, i: nat)
    requires i < |s|
    ensures Ids(s[..i + 1]) == Ids(s[..i]) + {s[i].id}
  {
    assert s[..i + 1] == s[..i] + [s[i]];
  }

  /** Ids identify entries. */
  lemma SameIdSameEntry(entries: seq<TrialBalanceEntry>, a: TrialBalanceEntry, b: TrialBalanceEntry)
    requires EntryIdsUnique(entries) && a in entries && b in entries && a.id == b.id
    ensures a == b
  {
    var i :| 0 <= i < |entries| && entries[i] == a;
    var j :| 0 <= j < |entries| && entries[j] == b;
    assert i == j;
  }

  /** Removing an id that only the work's entries carry is deleting it from the work. */
  lemma {:induction false} RemoveFromRemaining(entries: seq<TrialBalanceEntry>, workId: int, deleted: set<int>, id: int)
    requires forall e :: e in entries && e.id == id ==> e.workId == workId
    ensures RemoveEntry(Remaining(entries, workId, deleted), id) == Remaining(entries, workId, deleted + {id})
  {
    if entries != [] {
      assert entries[0] in entries;
      RemoveFromRemaining(entries[1..], workId, deleted, id);
    }
  }

  lemma {:induction false} NothingDeleted(entries: seq<TrialBalanceEntry>, workId: int)
    ensures Remaining(entries, workId, {}) == entries
  {
    if entries != [] {
      NothingDeleted(entries[1..], workId);
    }
  }

  /** Once every entry of the work is deleted, the other works' entries remain. */
  lemma {:induction false} RemainingAll(entries: seq<TrialBalanceEntry>, workId: int, deleted: set<int>)
    requires forall e :: e in entries && e.workId == workId ==> e.id in deleted
    ensures Remaining(entries, workId, deleted) == OtherWorks(entries, workId)
  {
    if entries != [] {
      assert entries[0] in entries;
      RemainingAll(entries[1..], workId, deleted);
    }
  }

  lemma DeletedAll(entries: seq<TrialBalanceEntry>, workId: int, existing: seq<TrialBalanceEntry>)
    requires existing == EntriesOf(entries, workId)
    ensures Remaining(entries, workId, Ids(existing[..|existing|])) == OtherWorks(entries, workId)
  {
    assert existing[..|existing|] == existing;
    forall e | e in entries && e.workId == workId ensures e.id in Ids(existing) {
      assert e in existing;
    }
    RemainingAll(entries, workId, Ids(existing));
  }

  /** The other works' entries keep distinct ids below the sequence. */
  lemma {:induction false} OtherWorksUnique(entries: seq<TrialBalanceEntry>, workId: int)
    requires EntryIdsUnique(entries)
    ensures EntryIdsUnique(OtherWorks(entries, workId))
  {
    if entries != [] {
      var rest := entries[1..];
      assert EntryIdsUnique(rest) by {
        forall i, j | 0 <= i < j < |rest| ensures rest[i].id != rest[j].id {
          assert rest[i] == entries[i + 1] && rest[j] == entries[j + 1];
        }
      }
      OtherWorksUnique(rest, workId);
      if entries[0].workId != workId {
        var t := OtherWorks(rest, workId);
        forall j | 0 <= j < |t| ensures t[j].id != entries[0].id {
          assert t[j] in rest;
          var k :| 0 <= k < |rest| && rest[k] == t[j];
          assert entries[k + 1] == t[j];
        }
      }
    }
  }

  lemma OtherWorksKeepsValid(entries: seq<TrialBalanceEntry>, workId: int, nextEntryId: int)
    requires EntryIdsUnique(entries) && forall e :: e in entries ==> 1 <= e.id < nextEntryId
    ensures EntryIdsUnique(OtherWorks(entries, workId))
    ensures forall e :: e in OtherWorks(entries, workId) ==> 1 <= e.id < nextEntryId
  {
    OtherWorksUnique(entries, workId);
  }

  /** The new entries carry the consecutive ids from `firstId`. */
  lemma NewEntriesFresh(rows: seq<ParsedRow>, workId: int, firstId: int)
    ensures forall e :: e in NewEntries(rows, workId, firstId) ==>
      firstId <= e.id < firstId + |rows| && e.workId == workId
    ensures EntryIdsUnique(NewEntries(rows, workId, firstId))
  {
    var n := NewEntries(rows, workId, firstId);
    forall e | e in n ensures firstId <= e.id < firstId + |rows| && e.workId == workId {
      var i :| 0 <= i < |n| && n[i] == e;
    }
  }

  /** Appending entries with fresh ids keeps the ids distinct and below the advanced sequence. */
  lemma ValidAfterAppend(entries: seq<TrialBalanceEntry>, created: seq<TrialBalanceEntry>, nextEntryId: int)
    requires EntryIdsUnique(entries) && forall e :: e in entries ==> 1 <= e.id < nextEntryId
    requires 1 <= nextEntryId
    requires EntryIdsUnique(created) && forall e :: e in created ==> nextEntryId <= e.id < nextEntryId + |created|
    ensures EntryIdsUnique(entries + created)
    ensures forall e :: e in entries + created ==> 1 <= e.id < nextEntryId + |created|
  {
    var all := entries + created;
    forall i, j | 0 <= i < j < |all| ensures all[i].id != all[j].id {
      if j < |entries| {
      } else if i < |entries| {
        assert all[i] in entries && all[j] == created[j - |entries|];
        assert created[j - |entries|] in created;
      } else {
        assert all[i] == created[i - |entries|] && all[j] == created[j - |entries|];
      }
    }
  }

  /** The entries of a work in two stretches of the table are those of each stretch. */
  lemma {:induction false} EntriesOfAppend(a: seq<TrialBalanceEntry>, b: seq<TrialBalanceEntry>, workId: int)
    ensures EntriesOf(a + b, workId) == EntriesOf(a, workId) + EntriesOf(b, workId)
  {
    if a != [] {
      assert (a + b)[1..] == a[1..] + b;
      EntriesOfAppend(a[1..], b, workId);
    } else {
      assert a + b == b;
    }
  }

  /** Selecting one work among the other works' entries: nothing for the deleted work, the
      same entries for any other. */
  lemma {:induction false} EntriesOfOtherWorks(entries: seq<TrialBalanceEntry>, workId: int, other: int)
    ensures EntriesOf(OtherWorks(entries, workId), workId) == []
    ensures other != workId ==> EntriesOf(OtherWorks(entries, workId), other) == EntriesOf(entries, other)
  {
    if entries != [] {
      EntriesOfOtherWorks(entries[1..], workId, other);
      if entries[0].workId != workId {
        assert ([entries[0]] + OtherWorks(entries[1..], workId))[1..] == OtherWorks(entries[1..], workId);
      }
    }
  }

  /** Every new entry belongs to the work. */
  lemma {:induction false} EntriesOfNew(rows: seq<ParsedRow>, workId: int, firstId: int, other: int)
    ensures EntriesOf(NewEntries(rows, workId, firstId), workId) == NewEntries(rows, workId, firstId)
    ensures other != workId ==> EntriesOf(NewEntries(rows, workId, firstId), other) == []
  {
    if rows != [] {
      var n := NewEntries(rows, workId, firstId);
      var tail := NewEntries(rows[1..], workId, firstId + 1);
      assert n[1..] == tail;
      EntriesOfNew(rows[1..], workId, firstId + 1, other);
    }
  }

  /** The new entries carry the parsed figures, in order. */
  lemma RowsOfNew(rows: seq<ParsedRow>, workId: int, firstId: int)
    ensures Rows(NewEntries(rows, workId, firstId)) == rows
  {
  }

  /** After an upload the work's entries are exactly the parsed rows, in order: every prior
      entry of the work is gone. */
  lemma UploadReplacesWork(entries: seq<TrialBalanceEntry>, workId: int, rows: seq<ParsedRow>, firstId: int)
    ensures Rows(EntriesOf(Uploaded(entries, workId, rows, firstId), workId)) == rows
  {
    var kept, created := OtherWorks(entries, workId), NewEntries(rows, workId, firstId);
    EntriesOfAppend(kept, created, workId);
    EntriesOfOtherWorks(entries, workId, workId);
    EntriesOfNew(rows, workId, firstId, workId);
    assert EntriesOf(kept + created, workId) == created by {
      assert [] + created == created;
    }
    RowsOfNew(rows, workId, firstId);
  }

  /** An upload leaves the entries of every other work as they were, in order. */
  lemma UploadKeepsOtherWorks(entries: seq<TrialBalanceEntry>, workId: int, rows: seq<ParsedRow>, firstId: int, other: int)
    requires other != workId
    ensures EntriesOf(Uploaded(entries, workId, rows, firstId), other) == EntriesOf(entries, other)
  {
    EntriesOfAppend(OtherWorks(entries, workId), NewEntries(rows, workId, firstId), other);
    EntriesOfOtherWorks(entries, workId, other);
    EntriesOfNew(rows, workId, firstId, other);
  }

  /** No entry of the work from before an upload survives it, not even one with the same
      figures: the new entries have ids above every old one. */
  lemma UploadDropsPrior(entries: seq<TrialBalanceEntry>, workId: int, rows: seq<ParsedRow>, firstId: int, e: TrialBalanceEntry)
    requires forall x :: x in entries ==> x.id < firstId
    requires e in entries && e.workId == workId
    ensures e !in Uploaded(entries, workId, rows, firstId)
  {
    NewEntriesFresh(rows, workId, firstId);
  }
}

=== FILE: validators.dfy ===
/** validate_udin: the format check of a UDIN, eight digits (a two-digit year and a six-digit
    membership number) followed by ten upper-case letters or digits. The pattern is matched
    from the start and Python's `$` also matches before one final newline. */
module Validators {
  import opened Wrappers
  import opened Text

  /** The length of the token the pattern spells. */
  const UdinLength := 18

  predicate IsUpperAlnum(c: char) {
    IsAsciiUpper(c) || IsDigit(c)
  }

  /** The character class of the pattern's `n`-th position: `\d` for the first eight, then
      `[A-Z0-9]`. */
  predicate ClassAt(n: nat, c: char) {
    if n < 8 then IsDigit(c) else IsUpperAlnum(c)
  }

  /** The pattern run from position `n` over the rest of the text: one character per position
      until the eighteenth, then the end of the text, or one newline and the end. */
  function MatchFrom(s: string, n: nat): (r: bool)
    requires n <= UdinLength
    ensures r ==> |s| == UdinLength - n || |s| == UdinLength - n + 1
    decreases UdinLength - n
  {
    if n == UdinLength then s == [] || s == "\n"
    else s != [] && ClassAt(n, s[0]) && MatchFrom(s[1..], n + 1)
  }

  /** validate_udin: a missing or empty value is refused, any other is checked against the
      pattern. */
  function ValidateUdin(udin: Option<string>): (r: bool)
    ensures udin.None? || udin == Some("") ==> !r
  {
    match udin
    case None => false
    case Some(s) => s != "" && MatchFrom(s, 0)
  }

  /** The format written out: eighteen characters, or eighteen and a final newline; digits in
      the first eight places and upper-case letters or digits in the next ten. */
  predicate WellFormedUdin(s: string) {
    && (|s| == UdinLength || (|s| == UdinLength + 1 && s[UdinLength] == '\n'))
    && (forall k :: 0 <= k < 8 ==> IsDigit(s[k]))
    && (forall k :: 8 <= k < UdinLength ==> IsUpperAlnum(s[k]))
  }

  /** Running the pattern from position `n` accepts exactly the texts whose characters fit the
      remaining positions and that end there, or with one newline after them. */
  lemma MatchFromMeans(s: string, n: nat)
    requires n <= UdinLength
    ensures MatchFrom(s, n) <==> Fits(s, n)
  {
    if MatchFrom(s, n) {
      MatchFromSound(s, n);
    }
    if Fits(s, n) {
      MatchFromComplete(s, n);
    }
  }

  /** The texts the pattern accepts from position `n`: the remaining positions' classes, then the
      end or one newline. */
  predicate Fits(s: string, n: nat)
    requires n <= UdinLength
  {
    && (|s| == UdinLength - n || (|s| == UdinLength - n + 1 && s[UdinLength - n] == '\n'))
    && (forall k :: 0 <= k < UdinLength - n ==> ClassAt(n + k, s[k]))
  }

  lemma {:induction false} MatchFromSound(s: string, n: nat)
    requires n <= UdinLength && MatchFrom(s, n)
    ensures Fits(s, n)
    decreases UdinLength - n
  {
    if n < UdinLength {
      MatchFromSound(s[1..], n + 1);
      forall k | 0 <= k < UdinLength - n ensures ClassAt(n + k, s[k]) {
        if k > 0 {
          assert s[k] == s[1..][k - 1];
        }
      }
    }
  }

  lemma {:induction false} MatchFromComplete(s: string, n: nat)
    requires n <= UdinLength && Fits(s, n)
    ensures MatchFrom(s, n)
    decreases UdinLength - n
  {
    if n < UdinLength {
      forall k | 0 <= k < UdinLength - n - 1 ensures ClassAt(n + 1 + k, s[1..][k]) {
        assert s[1..][k] == s[k + 1];
        assert ClassAt(n + (k + 1), s[k + 1]);
      }
      assert ClassAt(n + 0, s[0]);
      MatchFromComplete(s[1..], n + 1);
    }
  }


  /** The check accepts exactly the well-formed texts. */
  lemma ValidateMeans(s: string)
    ensures ValidateUdin(Some(s)) <==> WellFormedUdin(s)
  {
    MatchFromMeans(s, 0);
    if WellFormedUdin(s) {
      forall k | 0 <= k < UdinLength ensures ClassAt(k, s[k]) {
      }
    }
    if MatchFrom(s, 0) {
      forall k | 0 <= k < 8 ensures IsDigit(s[k]) {
        assert ClassAt(k, s[k]);
      }
      forall k | 8 <= k < UdinLength ensures IsUpperAlnum(s[k]) {
        assert ClassAt(k, s[k]);
      }
    }
  }

  /** An accepted UDIN is eighteen characters long, not counting a final newline. */
  lemma AcceptedLength(s: string)
    requires ValidateUdin(Some(s))
    ensures |s| == 18 || (|s| == 19 && s[18] == '\n')
  {
    ValidateMeans(s);
  }

  /** A lower-case letter anywhere in the eighteen places is refused. */
  lemma LowerCaseRefused(s: string, k: nat)
    requires k < |s| && k < UdinLength && IsAsciiLower(s[k])
    ensures !ValidateUdin(Some(s))
  {
    ValidateMeans(s);
  }

  /** A character other than a digit in the first eight places is refused. */
  lemma NonDigitPrefixRefused(s: string, k: nat)
    requires k < 8 && k < |s| && !IsDigit(s[k])
    ensures !ValidateUdin(Some(s))
  {
    ValidateMeans(s);
  }

  /** A valid token followed by one newline is still accepted, but not one followed by two. */
  lemma TrailingNewline(s: string)
    requires ValidateUdin(Some(s)) && |s| == UdinLength
    ensures ValidateUdin(Some(s + "\n"))
    ensures !ValidateUdin(Some(s + "\n\n"))
  {
    ValidateMeans(s);
    ValidateMeans(s + "\n");
    ValidateMeans(s + "\n\n");
    var t := s + "\n";
    forall k | 0 <= k < 8 ensures IsDigit(t[k]) {
      assert t[k] == s[k];
    }
    forall k | 8 <= k < UdinLength ensures IsUpperAlnum(t[k]) {
      assert t[k] == s[k];
    }
  }

  /** A sample UDIN is accepted. */
  lemma SampleAccepted()
    ensures ValidateUdin(Some("24123456ABCDE12345"))
  {
    var s := "24123456ABCDE12345";
    forall k | 0 <= k < 8 ensures IsDigit(s[k]) {
    }
    forall k | 8 <= k < UdinLength ensures IsUpperAlnum(s[k]) {
    }
    ValidateMeans(s);
  }
}

=== FILE: wrappers.dfy ===
/** Option and Result, the failure-carrying values the services return instead of raising. */
module Wrappers {

  datatype Option<+T> = None | Some(value: T) {
    function GetOr(default: T): T {
      match this
      case Some(v) => v
      case None => default
    }
  }

  /** An HTTP error raised by a service: the status code and its detail text. */
  datatype HttpError = HttpError(status: int, detail: string)

  datatype Result<+R> = Success(value: R) | Failure(error: HttpError)
}
